=== FILE: README.md ===
# Pigment audit change inspector — a Dafny model of the enrichment engine

The inspector reads a Pigment audit-log export and turns each row into an
event. It classifies every event, scores it for risk, removes duplicates, and
may enrich each event from a metadata snapshot. A snapshot describes blocks,
views, boards and their dependency graph. A second snapshot, when given, adds
a field-by-field diff of the entities. This project models that core as pure
Dafny functions over immutable datatypes and proves the properties the code
relies on or promises.

The modules follow the program's pipeline:

- `Wrappers`, `Text`, `PyValue`, `Payload` hold Python semantics the code
  leans on:
  - `Option`.
  - String operations: `lower`, `strip`, `rstrip`, `capitalize`, `in`, `join`, `split`, slicing.
  - Dynamic JSON-like values with Python truthiness, `or`, `str` and `==`.
    `True == 1` is honoured, and dicts are equal when they hold the same keys
    with equal values, whatever their insertion order.
  - CSV cells. An empty field, and any of the reader's default NA markers
    ("NULL", "N/A", "NaN", "None", ...), is read as NaN and prints "nan". A
    column the file lacks is filled with `None` and prints "None".
- `Classify` and `Risk` are the event classifiers and the risk scorer.
- `Events` is row processing: event ids, including synthesized ids; the payload
  projection; the actor label; the application fallback; the classification.
- `Ordering`, `Dedup` and `Ingest` model the stable sort by (timestamp, id),
  deduplication, and the chunked and single-pass reads of the CSV.
- `Dicts` and `Counting` model insertion-ordered dicts and counting folds.
- `Entities`, `Uuid`, `Graph` and `Blast` model the metadata side:
  - entity normalisation;
  - the UUID scan of formulas;
  - the metadata context (index, forward edges, reverse index, views and
    boards usage);
  - the bounded breadth-first blast radius.
- `Diff` is the snapshot differ.
- `Enrich` holds the per-event lookups, the transitive-count memo and the
  risk column.
- `Selection` is the report filters.
- `Timeline` is the change timeline.

Inputs the program gets from the outside world become parameters:

- the JSON decoder (`decode: string -> Option<Value>`);
- parsed timestamps (`Option<int>`, `None` for a missing or unparseable cell);
- the file size;
- the rows of the CSV file;
- the already-loaded metadata collections.

## Where the design and the code disagree

The program's design describes reading in chunks as a memory optimisation
that gives the same events as reading the file whole. The code does not do
that in two cases, and the model follows the code.

- The single pass sorts a missing timestamp last, so a duplicate without a
  timestamp survives deduplication. The chunked merge replaces a stored row
  only by a strictly later, present timestamp, so that duplicate loses
  (`Ingest.NullTimestampDisagrees`).
- On equal timestamps the single pass keeps the later row, and the chunked
  merge keeps the first one seen (`Ingest.EqualTimestampDisagrees`).

The two paths agree when every timestamp is present and no id repeats a
timestamp (`Ingest.ChunkedAgrees`). They also agree when one chunk covers the
file (`Ingest.OneChunkAgrees`).

## Model

| member | source | states |
|---|---|---|
| Payload.SafeStr | pigment_audit_change_inspector.py:81-87 | `None` exactly for a missing value or one whose text is blank; otherwise the value's non-empty text |
| Payload.ParsePayload | pigment_audit_change_inspector.py:98-109 | a missing or blank cell is an empty object without error; otherwise the stripped text is decoded; a decode failure yields an empty object with the error flag; an error never comes with a non-empty object |
| Payload.GetNestedConcat | pigment_audit_change_inspector.py:112-119 | following a path in two legs is following it at once |
| Payload.GetNestedSingle | pigment_audit_change_inspector.py:112-119 | a one-key path is `dict.get` |
| Payload.ReadCell | pigment_audit_change_inspector.py:308 | a missing column reads as absent; a field is NaN exactly when it is one of the reader's default NA markers, and any other field keeps its text |
| Payload.ReadCellPrints | pigment_audit_change_inspector.py:260 | printing a read cell gives the field back, except that an NA marker prints "nan" |
| Payload.ReadTextNonEmpty | pigment_audit_change_inspector.py:308 | a field read as text is never empty |
| Payload.FlattenAsWritten | pigment_audit_change_inspector.py:122-132 | as written, the projection fails exactly for a payload that is not a dict, and otherwise gives the model's projection |
| Payload.NonObjectPayloadCrashes | pigment_audit_change_inspector.py:98-132 | a non-blank blob that decodes to a non-object makes the as-written projection fail |
| Payload.NullBlobCrashes | pigment_audit_change_inspector.py:98-131 | the blob `null` makes the as-written projection fail, while the model reads it as an empty payload |
| Payload.NonObjectReadsEmpty | pigment_audit_change_inspector.py:122-132 | the model projects a non-object payload to all-`None` fields |
| Payload.FlattenWithoutEntity | pigment_audit_change_inspector.py:122-132 | a payload without an "entity" object leaves all five entity fields `None` |
| Classify.NormalizeActor | pigment_audit_change_inspector.py:135-144 | the label is user exactly when the cell parses as the integer 1; it is service exactly when the cell parses as 2 |
| Classify.ActorOfCode | pigment_audit_change_inspector.py:135-144 | the decimal code 1 gives user, 2 gives service, and any other number gives unknown |
| Classify.ActorMissing | pigment_audit_change_inspector.py:135-139 | an empty or missing actor cell is an unknown actor |
| Classify.BlankTypeClassification | pigment_audit_change_inspector.py:147-183 | a missing or empty event type is ("other", not a change, LOW) |
| Classify.CriticalIff | pigment_audit_change_inspector.py:169-175 | CRITICAL exactly when one of impersonation, permission, accessright, security or deleted occurs in the lower-cased type |
| Classify.ChangeCategoryIsChange | pigment_audit_change_inspector.py:147-166 | the "change" category implies a change event |
| Classify.IsChangeCategory | pigment_audit_change_inspector.py:147-166 | a change event is never in the "other" category |
| Classify.HighImpliesChange | pigment_audit_change_inspector.py:162-180 | a type containing a HIGH keyword is a change event |
| Classify.OtherIsLow | pigment_audit_change_inspector.py:147-183 | an event in the "other" category is neither a change nor above LOW |
| Classify.ChangeAtLeastMedium | pigment_audit_change_inspector.py:169-183 | a change event that is not an access or login event is at least MEDIUM |
| Classify.MetricUpdatedClassification | pigment_audit_change_inspector.py:147-180 | "MetricUpdated" is a change, in the "change" category, with severity HIGH |
| Risk.ComputeRisk | pigment_audit_change_inspector.py:186-238 | the score is always within 0..100, and it is the severity's base score plus the points of every firing rule, clamped to 0..100 |
| Risk.Clamp | pigment_audit_change_inspector.py:237 | the result lies in 0..100, equals an in-range score and is 100 above the range |
| Risk.CountPoints | pigment_audit_change_inspector.py:224-235 | a centrality term lies between 0 and its cap and is 0 unless the count is a positive integer |
| Risk.Run | pigment_audit_change_inspector.py:186-236 | reasons come out in strictly increasing evaluation order, each from a rule ranked before the current one |
| Risk.ReasonPresent | pigment_audit_change_inspector.py:196-235 | a reason is reported exactly when its rule fires with that reason |
| Risk.TypeReasonsPresent | pigment_audit_change_inspector.py:194-208 | deletion, formula_change, metric_update, data_export and impersonation appear exactly when their keywords occur in the lower-cased type |
| Risk.SecurityBlockTagged | pigment_audit_change_inspector.py:210-238 | a security block's reason string, split at `;`, always contains "security_block" |
| Risk.SensitivityReasonsPresent | pigment_audit_change_inspector.py:210-217 | security_block appears exactly for a literal `True`; fundamental_data_type appears exactly for a numeric data type name |
| Risk.CountReasonsPresent | pigment_audit_change_inspector.py:219-235 | each centrality tag appears, carrying its count, exactly when that count is a positive integer |
| Risk.ExportAndImpersonationScoreNothing | pigment_audit_change_inspector.py:205-208 | two types that agree on the scoring keywords score alike, so export and impersonation add a tag but no points |
| Risk.ScoreMonotone | pigment_audit_change_inspector.py:219-237 | raising any centrality count, all else fixed, never lowers the score |
| Risk.DirectDependentsMonotone | pigment_audit_change_inspector.py:224-237 | raising the direct-dependents count alone never lowers the score |
| Risk.DirectDependentsSaturate | pigment_audit_change_inspector.py:224-226 | from ten direct dependents on, more dependents change nothing |
| Risk.TagFree | pigment_audit_change_inspector.py:238 | no reason tag contains the ";" separator |
| Risk.ReasonsRoundTrip | pigment_audit_change_inspector.py:238 | splitting the reason text on ";" gives back the tags in evaluation order |
| Risk.MetricUpdatedScenario | pigment_audit_change_inspector.py:169-238 | "MetricUpdated" without metadata is HIGH and scores (66, "metric_update") |
| Risk.PermissionDeletedScenario | pigment_audit_change_inspector.py:169-238 | "PermissionDeleted" on a security block with three direct dependents is CRITICAL and scores 100 with reasons deletion, security_block, direct_dependents=3 |
| Events.EventId | pigment_audit_change_inspector.py:259-262 | a row with an empty, blank or "nan" id (any case), or no id column, gets "missing:" and its row number; any other row keeps its id |
| Events.MissingIdsDistinct | pigment_audit_change_inspector.py:259-262 | two different rows without ids of their own never share an id |
| Events.EventIdAgrees | pigment_audit_change_inspector.py:260-262 | wherever the file has an event-id column, the model's id is the code's id |
| Events.Classification | pigment_audit_change_inspector.py:285-288 | an event without a type cell is ("other", not a change, LOW); the "change" category implies a change event |
| Events.ClassificationAgrees | pigment_audit_change_inspector.py:285-288 | wherever the code classifies without failing, the model classifies alike |
| Events.PayloadApplicationWins | pigment_audit_change_inspector.py:282-283 | a payload whose `entity.application` object holds a non-`None` id and name supplies them, whatever the row's application columns hold |
| Events.BlankPayloadUsesColumns | pigment_audit_change_inspector.py:282-283 | without a payload blob the event's application id and name are the row's own columns |
| Events.NaMarkerGetsMissingId | pigment_audit_change_inspector.py:260-262 | an event-id field the reader takes for NA gets the synthesized id, both as written and in the model |
| Events.ProcessRow | pigment_audit_change_inspector.py:259-288 | the event keeps its row and number, carries the synthesized-or-own id and the classification of its type |
| Events.ProcessChunk | pigment_audit_change_inspector.py:241-290 | row `i` becomes the processed event numbered `offset + i` |
| Events.ProcessChunkSplit | pigment_audit_change_inspector.py:307-324 | processing two consecutive chunks, numbering the second after the first, equals processing them at once |
| Ordering.SortPermutes | pigment_audit_change_inspector.py:294 | sorting is a permutation of the events |
| Ordering.SortSorted | pigment_audit_change_inspector.py:294 | the result is ordered by timestamp, with missing timestamps last, then by id |
| Ordering.SortStable | pigment_audit_change_inspector.py:294 | events with equal timestamp and id keep their input order |
| Ordering.SortSortedIdentity | pigment_audit_change_inspector.py:294 | sorting an already sorted sequence changes nothing |
| Dedup.DedupeShape | pigment_audit_change_inspector.py:293-296 | the result is sorted, has one event per id, keeps every id, and holds only input events |
| Dedup.DedupeIdempotent | pigment_audit_change_inspector.py:293-296 | deduplicating twice is deduplicating once |
| Dedup.DedupeKeepsLatest | pigment_audit_change_inspector.py:293-296 | the survivor of an id is at least as late as every event with that id; a missing timestamp counts as latest |
| Dedup.DedupeKeepsLastOfTies | pigment_audit_change_inspector.py:294-295 | among events with equal timestamp and id, the last in input order survives |
| Dedup.DedupeOfUnique | pigment_audit_change_inspector.py:293-296 | with unique ids nothing is dropped |
| Ingest.Upsert | pigment_audit_change_inspector.py:313-323 | a new id is appended; a known id keeps its position; no other stored event changes |
| Ingest.EffectiveChunkRows | pigment_audit_change_inspector.py:300-302 | a given chunk size is used as is; without one, a file above 50 MiB is read in chunks of 200000 rows and a smaller one whole |
| Ingest.ReadAuditCsv | pigment_audit_change_inspector.py:299-331 | the modelled read fails exactly for a file without data rows or a negative chunk size; a positive chunk size in force, given or defaulted for a large file, selects the chunked read, and no chunk size or a zero one selects the single pass |
| Ingest.SmallFileSinglePass | pigment_audit_change_inspector.py:300-302 | a file of at most 50 MiB read without a chunk size takes the single pass |
| Ingest.LargeFileChunked | pigment_audit_change_inspector.py:300-326 | a larger file read without a chunk size is read in chunks of 200000 rows |
| Ingest.ChunksFlatten | pigment_audit_change_inspector.py:307-324 | the chunks laid end to end, with running row offsets, are the events of the whole file |
| Ingest.MergeAllInv | pigment_audit_change_inspector.py:312-323 | after the merge loop the store holds one event per id seen, each an event of the file, and for every id whose events all carry a timestamp, a latest one of its id |
| Ingest.ReadWholeShape | pigment_audit_change_inspector.py:328-331 | the single pass yields sorted events, one per id, covering every id of the file |
| Ingest.DedupedStore | pigment_audit_change_inspector.py:324-326 | sorting and deduplicating a store that keeps the merge invariant yields sorted events, one per id, each latest for its id where its id's events are all timed |
| Ingest.ReadChunkedKeepsLatest | pigment_audit_change_inspector.py:304-326 | the chunked path yields sorted events, one per id and every id once, each an event of the file; for every id whose events all carry a timestamp, the event kept is a latest one of its id |
| Ingest.ChunkedAgrees | pigment_audit_change_inspector.py:304-331 | when no id repeats a timestamp and all are present, the chunked and single-pass reads give the same events |
| Ingest.OneChunkAgrees | pigment_audit_change_inspector.py:304-331 | one chunk covering the file gives the single-pass result |
| Ingest.TwoChunkMerge | pigment_audit_change_inspector.py:317-323 | of two one-row chunks with the same id, the second replaces the first only if the stored timestamp is missing or the new one strictly later |
| Ingest.NullTimestampDisagrees | pigment_audit_change_inspector.py:294-323 | two rows with id "x", timestamped 5 and missing: the single pass keeps the undated row, the chunked read keeps the dated one |
| Ingest.EqualTimestampDisagrees | pigment_audit_change_inspector.py:294-323 | two rows with id "x" and equal timestamps: the single pass keeps the second, the chunked read the first |
| Entities.NormalizeCollectionName | pigment_audit_change_inspector.py:334-354 | the result has no upper-case letter and is a canonical collection name or the lower-cased input |
| Entities.NormalizeCollectionNameIdempotent | pigment_audit_change_inspector.py:334-354 | normalising a normalised name changes nothing |
| Entities.NormalizeCollectionNameCaseless | pigment_audit_change_inspector.py:334-354 | normalisation ignores letter case |
| Entities.FirstPresent | pigment_audit_change_inspector.py:392-396 | the result is `None` exactly when every key is missing or `None`; otherwise it is the value under the first key that is set |
| Entities.NormalizeListOfIds | pigment_audit_change_inspector.py:399-415 | `None` gives no ids; a list gives at most one non-empty id per element; an object gives its first present id, printed, when that id is truthy, and nothing otherwise; a scalar gives its text |
| Entities.NormalizeListConcat | pigment_audit_change_inspector.py:402-411 | a list's ids are the ids of its two halves, in order |
| Entities.NormalizeListSingle | pigment_audit_change_inspector.py:404-411 | a record inside a list contributes what it would on its own; any other element contributes its printed text when that is not empty |
| Entities.NoneElementKept | pigment_audit_change_inspector.py:409-411 | a `None` inside a list is printed as "None" and kept |
| Entities.IdlessRecordDropped | pigment_audit_change_inspector.py:405-408 | a record without a truthy id inside a list contributes nothing |
| Entities.MixedListElements | pigment_audit_change_inspector.py:402-411 | in a mixed list, `None` gives "None", an id-less record is dropped and a number gives its digits, in order |
| Entities.IdListRoundTrip | pigment_audit_change_inspector.py:399-411 | a list of non-empty id strings normalises to itself |
| Entities.RefListRoundTrip | pigment_audit_change_inspector.py:399-411 | a list of `{"id": ...}` references normalises to their ids, in order |
| Entities.DataTypeFromTypeField | pigment_audit_change_inspector.py:424-436 | a type field that is a `BlockDataType_` name, or a value-type name in any letter case, becomes the data type, and the entity type comes from the collection name |
| Entities.EntityTypeFromTypeField | pigment_audit_change_inspector.py:424-453 | any other non-empty type string becomes the entity type, and the data type comes from the data-type keys |
| Entities.UntypedItemUsesHint | pigment_audit_change_inspector.py:424-453 | without a type string, or with an empty one, the entity type comes from the collection name and the data type from the data-type keys |
| Entities.SecurityFlagText | pigment_audit_change_inspector.py:444-446 | a textual security flag becomes a boolean, true exactly when it reads "true" in some letter case |
| Entities.SecurityFlagKept | pigment_audit_change_inspector.py:444-446 | a security flag that is not text is kept as it is |
| Entities.TrueInAnyCase | pigment_audit_change_inspector.py:446 | "TRUE", "True" and "tRuE" all lower-case to "true" |
| Entities.NormalizeEntity | pigment_audit_change_inspector.py:418-467 | there is no entity exactly when the first set id key is falsy; otherwise its id is that value's non-empty text |
| Entities.ApplicationFallback | pigment_audit_change_inspector.py:438-442 | without a top-level application id, the id comes from the nested "application" object |
| Entities.ViewsHint | pigment_audit_change_inspector.py:435 | the collection "views" gives the entity type "View" |
| Uuid.FindUuids | pigment_audit_change_inspector.py:22-28 | every match is UUID-shaped and occurs in the text |
| Uuid.WindowFound | pigment_audit_change_inspector.py:22-28 | when the text holds a UUID-shaped window, the scan finds at least one match |
| Uuid.NothingFoundIff | pigment_audit_change_inspector.py:22-28 | the scan finds nothing exactly when no UUID-shaped window occurs in the text |
| Uuid.LeftmostFound | pigment_audit_change_inspector.py:22-28 | the leftmost UUID-shaped window is the first match, and the scan resumes right after it |
| Uuid.LeftmostIsDependency | pigment_audit_change_inspector.py:470-474 | the leftmost UUID in a truthy formula's text is among its dependencies |
| Uuid.NoDependenciesIff | pigment_audit_change_inspector.py:470-474 | a truthy formula has no dependencies exactly when its text holds no UUID |
| Uuid.Distinct | pigment_audit_change_inspector.py:474 | the same members, each once |
| Uuid.ExtractUuidDependencies | pigment_audit_change_inspector.py:470-474 | a falsy formula has no dependencies; otherwise the result holds exactly the UUIDs found in its text, each once and UUID-shaped |
| Uuid.FindSeparated | pigment_audit_change_inspector.py:22-28 | UUIDs separated by spaces are found again, in order |
| Uuid.ExtractSeparated | pigment_audit_change_inspector.py:470-474 | the dependencies of a space-separated UUID list are its distinct members |
| Uuid.OverlapSkipped | pigment_audit_change_inspector.py:474 | matches do not overlap: a UUID whose tail starts another UUID yields only the first |
| Dicts.Lookup | pigment_audit_change_inspector.py:491 | a key is found exactly when it is stored, and what is found is stored under it |
| Dicts.AssignLookup | pigment_audit_change_inspector.py:491 | after `d[k] = v`, `k` reads `v` and every other key reads as before |
| Dicts.AssignKeys | pigment_audit_change_inspector.py:491 | assignment adds exactly its key and keeps keys unique |
| Counting.Keep | pigment_audit_change_inspector.py:503 | the kept ids are exactly the input ids that are indexed |
| Counting.TallyCounts | pigment_audit_change_inspector.py:530-532 | an id is counted exactly when it occurs, and its count is its number of occurrences |
| Counting.AddEdgesDependents | pigment_audit_change_inspector.py:520-522 | adding a source's edges appends that source to each target's list once per edge |
| Counting.ReverseDepsInverse | pigment_audit_change_inspector.py:519-522 | the reverse index lists, for each id, exactly the sources of its forward edges, one per edge |
| Graph.IndexLastWins | pigment_audit_change_inspector.py:482-491 | the index holds, for each id, the last entity normalised to it, and its keys are unique |
| Graph.EdgesOf | pigment_audit_change_inspector.py:500-517 | every edge target is indexed, and the method is "none" exactly when there are no edges |
| Graph.ExplicitWins | pigment_audit_change_inspector.py:500-510 | if an explicit dependency resolves, the edges are the resolved explicit ids in order, the method is explicit and the formula is irrelevant |
| Graph.UnresolvedExplicitFallsThrough | pigment_audit_change_inspector.py:501-517 | explicit dependencies none of which resolve are ignored, and the formula scan decides |
| Graph.Forward | pigment_audit_change_inspector.py:500-517 | one edge list per indexed entity, every target indexed |
| Graph.Methods | pigment_audit_change_inspector.py:497-517 | every indexed entity gets a method and nothing else does |
| Graph.BlockTarget | pigment_audit_change_inspector.py:539-551 | a block counts once exactly when it is an object with a truthy block id |
| Graph.ViewBlockOneHop | pigment_audit_change_inspector.py:547-548 | a view block whose view has an underlying block counts the underlying block |
| Graph.PlainBlockCountsItself | pigment_audit_change_inspector.py:549-550 | any other block counts itself |
| Graph.BuildContext | pigment_audit_change_inspector.py:477-559 | every indexed entity has a method, one edge list, and only indexed edge targets |
| Graph.ContextIndex | pigment_audit_change_inspector.py:482-491 | the context's entity for an id is the last collection item normalised to it |
| Graph.ReverseIsInverse | pigment_audit_change_inspector.py:519-522 | an id's direct dependents are exactly the sources of edges into it; their number is its in-degree; an unindexed id has none |
| Graph.ViewsUsingCounts | pigment_audit_change_inspector.py:524-532 | an id is counted exactly when it underlies a view, and its count is the number of such views |
| Graph.BoardsUsingCounts | pigment_audit_change_inspector.py:534-551 | an id's board count is the number of board blocks that target it |
| Blast.Bfs | pigment_audit_change_inspector.py:568-578 | the visited set only grows and stays within the ids that are someone's dependent, so the search terminates on cyclic graphs |
| Blast.ExpandLoop | pigment_audit_change_inspector.py:574-578 | the loop over one node's dependents computes exactly the expansion step |
| Blast.BfsLoop | pigment_audit_change_inspector.py:568-578 | the queue loop of the search visits exactly the nodes of the recursive walk from the start at depth 0 |
| Blast.VisitedWithin | pigment_audit_change_inspector.py:562-581 | every visited id is reachable from the start along at most the depth bound of reverse edges |
| Blast.BfsComplete | pigment_audit_change_inspector.py:562-581 | when the walk stops below the node cap, every id other than the start that depends on it within the depth limit is visited |
| Blast.ExactBelowCap | pigment_audit_change_inspector.py:562-581 | below the node cap, the counted ids are exactly the ids other than the start that depend on it within the depth limit |
| Blast.TransitiveDependents | pigment_audit_change_inspector.py:562-581 | the count never includes the start id; it counts only ids reachable within the depth limit along reverse edges; it is at most the number of distinct dependent ids; and while the count plus one stays below the cap, every such id is counted |
| Blast.CapCheckedPerDequeue | pigment_audit_change_inspector.py:570-578 | with a cap of one node, one expansion still adds both dependents of the start |
| Diff.Changed | pigment_audit_change_inspector.py:609-613 | the changed fields are exactly those that differ under Python `==` (dicts compared by key, not by order), in the fixed key order |
| PyValue.PyEqPermutedDict | pigment_audit_change_inspector.py:612 | two dicts with the same entries in any order are equal under `==` |
| PyValue.ReorderedDictsEqual | pigment_audit_change_inspector.py:612 | `{"a": 1, "b": 2} == {"b": 2, "a": 1}` |
| PyValue.PyEqDictLookups | pigment_audit_change_inspector.py:612 | equal dicts hold the same keys, and each key's values are equal |
| Diff.ReorderedFormulaUnchanged | pigment_audit_change_inspector.py:609-613 | a formula dict whose entries are only reordered is not reported as changed |
| Diff.Side | pigment_audit_change_inspector.py:614-615 | a missing value shows as "None"; any other is its text cut to at most 120 characters |
| Diff.LongValueCut | pigment_audit_change_inspector.py:614-615 | a text over 120 characters shows as its first 120 |
| Diff.BuildDiff | pigment_audit_change_inspector.py:584-620 | no diff when either snapshot is missing; the field and summary maps always have the same ids |
| Diff.NothingDiffersForStranger | pigment_audit_change_inspector.py:603-606 | an id in neither snapshot has no changed field |
| Diff.ChangedNonEmpty | pigment_audit_change_inspector.py:607-617 | some field is reported exactly when some field differs |
| Diff.DiffReportsChanges | pigment_audit_change_inspector.py:603-619 | an id is reported exactly when some of the nine fields differs under Python `==`, with the changed names joined by "," |
| Diff.ChangedFieldsRoundTrip | pigment_audit_change_inspector.py:618 | splitting the changed-fields text on "," gives back the field names |
| Diff.DimensionOrderMatters | pigment_audit_change_inspector.py:612 | the same dimensions in another order count as a change |
| Enrich.EnrichWith | pigment_audit_change_inspector.py:657-734 | the row keeps its event and gets a score in 0..100; without metadata every metadata column is empty; without a diff both diff columns are empty |
| Enrich.CachedTransitive | pigment_audit_change_inspector.py:689-698 | the count read from or added to the memo is the count computed afresh, and the memo stays sound |
| Enrich.EnrichEvents | pigment_audit_change_inspector.py:676-734 | memoising transitive counts changes no row: each row is the enrichment of its event computed afresh; it agrees with the as-written enrichment wherever that one succeeds, and an empty table gives an empty result |
| Enrich.EnrichAsWritten | pigment_audit_change_inspector.py:730-731 | as written, enrichment fails exactly on a table without rows, and otherwise enriches every row |
| Enrich.EmptyTableCrashes | pigment_audit_change_inspector.py:730-731 | a table the filters emptied stops the run as written, whatever the metadata and the diff |
| Enrich.AccessOnlyLogCrashes | pigment_audit_change_inspector.py:647-653 | a non-empty log of access events only, filtered without `--include-access` or `--all-events`, keeps no event, and enrichment as written then fails |
| Enrich.TextSecurityFlagScored | pigment_audit_change_inspector.py:444-446 | an entity whose security flag is the text "true" in any letter case, such as "TRUE", gives its events the reason "security_block" |
| Enrich.MissingEntityId | pigment_audit_change_inspector.py:679-692 | a row without an entity id gets no entity fields and no dependent counts |
| Enrich.DirectIsInDegree | pigment_audit_change_inspector.py:684-687 | a row's direct-dependent count is the number of edges into its entity id, and 0 for an unindexed id |
| Enrich.EmptyIdReadsNan | pigment_audit_change_inspector.py:707-711 | an empty entity-id cell finds no entity but reads the usage counts stored under "nan" |
| Enrich.TransitiveBounded | pigment_audit_change_inspector.py:689-698 | a row's transitive count is known whenever its entity id is, and is at most the number of distinct dependent ids |
| Selection.ApplyFilters | pigment_audit_change_inspector.py:623-654 | an event is kept exactly when it passes every filter that is switched on |
| Selection.ApplyFiltersConcat | pigment_audit_change_inspector.py:623-654 | filtering keeps the input order |
| Selection.ApplyFiltersIdempotent | pigment_audit_change_inspector.py:623-654 | filtering twice is filtering once |
| Selection.NoOptionsKeepsAll | pigment_audit_change_inspector.py:623-648 | with no filter switched on and all events asked for, nothing is dropped |
| Selection.CategoryGate | pigment_audit_change_inspector.py:647-653 | unless all events are asked for, "other" events never pass, access events pass only on request, and change, auth and export events pass on the other filters alone |
| Selection.UndatedDropped | pigment_audit_change_inspector.py:625-630 | an event without a timestamp fails either date bound |
| Selection.DateToWholeDay | pigment_audit_change_inspector.py:628-630 | the upper bound includes every second of its day and nothing later |
| Selection.DayEnd | pigment_audit_change_inspector.py:629 | the end of a day lies within that day |
| Timeline.Changes | pigment_audit_change_inspector.py:738 | an event is kept exactly when it is a change event |
| Timeline.TimelineContents | pigment_audit_change_inspector.py:737-740 | the timeline is a sorted permutation of the change events |
| Timeline.TimelineStable | pigment_audit_change_inspector.py:739 | change events with equal timestamp and id keep their input order |
| Timeline.TimelineIdempotent | pigment_audit_change_inspector.py:737-740 | the timeline of a timeline is itself |

## Findings

| source | as written | input that shows it | evidently intended | confidence | as-written member | corrected member |
|---|---|---|---|---|---|---|
| pigment_audit_change_inspector.py:257-262 | a file without an event-id column gets the column filled with `None`, which prints "None"; that text is not blank and not "nan", so every row gets the id "None" and deduplication keeps one row | a CSV without an `event_id` column and two data rows | such rows get "missing:" and their row number, as rows with an empty id do | high (not executed) | Events.EventIdAsWritten, Events.AbsentIdColumnCollides | Events.EventId, Events.MissingIdsDistinct |
| pigment_audit_change_inspector.py:285-288 | an empty event-type cell, or one holding an NA marker such as "NULL", is read as NaN; NaN is truthy, so the classifiers call `.lower()` on a float and the run stops | a row whose `event_type` cell is empty | an empty type is classified as untyped: ("other", not a change, LOW) | high (not executed) | Events.ClassifyAsWritten, Events.EmptyEventTypeCrashes | Events.Classification, Events.ClassificationAgrees |
| pigment_audit_change_inspector.py:122-132 | the payload type is read with `payload.get`, which only a dict has, while the blob parser hands on whatever the blob decodes to; a blob that decodes to `null`, a list, a string, a number or a boolean stops the run | a row whose `payload_json` cell is `null` | a payload that is not an object is read as one without fields, as a blank blob is | medium (not executed) | Payload.FlattenAsWritten, Payload.NullBlobCrashes | Payload.FlattenPayload, Payload.NonObjectReadsEmpty |
| pigment_audit_change_inspector.py:730-731 | the risk columns are built by a row-wise `apply` with `result_type="expand"` and then read as `risk[0]`; on a table without rows that `apply` returns a copy of the table, which has no column `0`, so the read fails. The run reaches this whenever the filters keep no event | a log holding only access events, read without `--include-access` or `--all-events` | a table without rows is enriched to a table without rows | medium (not executed) | Enrich.EnrichAsWritten, Enrich.AccessOnlyLogCrashes | Enrich.EnrichEvents |

## Left out

- Events.ProcessRow: rows on which the code stops are processed with the corrected members listed under "## Findings": a missing event-id column, an event type read as NaN, and a payload that decodes to a non-object. The model does not promise to fail where the code stops.
- Ingest.ReadAuditCsv: for the same reason, the modelled read fails only for a file without data rows or a negative chunk size. The code also stops on the rows named above.
- Text.Lower, Text.Capitalize: case mapping covers ASCII letters only; Python also maps the other Unicode letters.
- Text.IsSpace, Text.Strip, Text.IsBlank: whitespace is the ASCII and Latin-1 set; the other Unicode spaces that Python strips are not modelled.
- Text.ParseInt: `int()` also accepts surrounding Unicode whitespace, non-ASCII digits and `_` between digits; the model accepts an optional sign and ASCII digits with ASCII and Latin-1 whitespace around them.
- PyValue.Value: JSON numbers with a fraction or exponent are not modelled. Floats would change truthiness (`0.0`), equality (`1 == 1.0`) and printing (`1.0`).
- PyValue.Repr: strings are always quoted with single quotes, and escapes are not modelled; Python switches to double quotes for a string that holds a single quote, and it escapes control characters.

- Argument parsing, logging, `main`, the smoke test, and reading and writing files are not modelled. The CSV rows, the file size and the metadata collections are parameters.
- JSON decoding is a parameter `decode`. Timestamps arrive already parsed as `Option<int>` seconds, and their ISO formatting is not modelled.
- Metadata loading is not modelled. The loader keeps a collection whose value is a list, whatever its items, and drops any other value; a dropped value cannot be written as `Collections`. Items that are not objects do reach the model and are skipped by Graph.EntryOf, as the context builder skips them.
- pandas column types are not modelled. A count column that mixes integers with missing values becomes floating point, and then the scorer's `isinstance(x, int)` checks fail. In the model, counts are `Option<int>`, so a present count always scores.
- Graph.EdgesOf: the regex method keeps the matched UUIDs in first-occurrence order. The code builds `list(set(...))`, whose order depends on string hashing. The model holds the same set of ids; their order and the order of reverse-index entries may differ.
- Graph.BlockTarget: a block whose type field is a truthy non-string stops the run at `.lower()`; the model treats it as a non-view block.
- Enrich.EnrichEvents: the risk column uses the event's own type; an empty type cell, which already stops the run during classification, is read as no type. An empty table is enriched to an empty one, where the code stops (see "## Findings").
- Selection.ApplyFilters: the application-name and user-email filters are modelled as case-insensitive substring tests; the code treats each argument as a regular expression. The date bounds are whole seconds, so fractions of a second are not modelled.
- Selection.ApplyFilters, Timeline.TimelineContents and the other filter and timeline members are stated on events, before enrichment. Enrichment maps each event to one row and leaves the filter and sort keys alone.
- The entity summary, report rendering, time-zone display and the final report sort are not modelled. They are the report layer, built on pandas aggregation and text templates.
- The timesheet scripts are not modelled. They drive a web API over the network.

=== FILE: blast.dfy ===
/**
  The blast radius of a change: how many entities depend on an id,
  directly or transitively, found by a breadth-first walk of the reverse
  dependency index with a node cap and a depth limit.
*/
module Blast {
  import opened Wrappers
  import opened Counting

  /** The default cap on visited nodes and the default depth limit. */
  const MaxNodes: nat := 5000
  const MaxDepth: nat := 6

  /** Every id that appears as a dependent somewhere. */
  function Targets(rev: map<string, seq<string>>): set<string> {
    set k, x | k in rev && x in rev[k] :: x
  }

  lemma DependentsInTargets(rev: map<string, seq<string>>, n: string)
    ensures forall x :: x in Dependents(rev, n) ==> x in Targets(rev)
  {
  }

  /** `p` walks the reverse index: each step goes from an id to one of its dependents. */
  predicate IsPath(rev: map<string, seq<string>>, p: seq<string>) {
    forall i :: 0 <= i < |p| - 1 ==> p[i + 1] in Dependents(rev, p[i])
  }

  /** `p` is a walk from `a` to `b`. */
  predicate PathTo(rev: map<string, seq<string>>, p: seq<string>, a: string, b: string) {
    |p| > 0 && p[0] == a && p[|p| - 1] == b && IsPath(rev, p)
  }

  /** `b` depends on `a` within `k` hops. */
  ghost predicate Within(rev: map<string, seq<string>>, a: string, b: string, k: nat) {
    exists p :: PathTo(rev, p, a, b) && |p| <= k + 1
  }

  lemma PathExtend(rev: map<string, seq<string>>, p: seq<string>, a: string, b: string, c: string)
    requires PathTo(rev, p, a, b) && c in Dependents(rev, b)
    ensures PathTo(rev, p + [c], a, c)
  {
  }

  /** A queued id and its distance from the start. */
  datatype Visit = Visit(node: string, depth: nat)

  /** The inner loop: each dependent not yet visited is marked and queued one level deeper. */
  function Expand(deps: seq<string>, depth: nat, visited: set<string>, queue: seq<Visit>): (r: (set<string>, seq<Visit>))
    ensures visited <= r.0
    ensures forall x :: x in r.0 ==> x in visited || x in deps
    ensures r.0 == visited ==> r.1 == queue
  {
    if |deps| == 0 then (visited, queue)
    else if deps[0] in visited then Expand(deps[1..], depth, visited, queue)
    else Expand(deps[1..], depth, visited + {deps[0]}, queue + [Visit(deps[0], depth + 1)])
  }

  /** Visiting something new leaves fewer ids to visit. */
  lemma FewerLeft(t: set<string>, a: set<string>, b: set<string>)
    requires a <= b <= t
    ensures a != b ==> |t - b| < |t - a|
  {
    assert t - a == (t - b) + (b - a);
    assert (t - b) * (b - a) == {};
    if a != b {
      var x :| x in b && x !in a;
      assert x in b - a;
    }
  }

  lemma SubsetCard(a: set<string>, b: set<string>)
    requires a <= b
    ensures |a| <= |b|
  {
    assert b == a + (b - a);
    assert a * (b - a) == {};
  }

  /**
    The walk: take the head of the queue while the queue is non-empty and
    fewer than `maxNodes` ids are visited; ids at the depth limit are not
    expanded. The cap is checked only here, so one expansion may overshoot it.
  */
  function Bfs(rev: map<string, seq<string>>, queue: seq<Visit>, visited: set<string>, maxNodes: nat, maxDepth: nat): (r: set<string>)
    requires visited <= Targets(rev)
    ensures visited <= r <= Targets(rev)
    decreases |Targets(rev) - visited|, |queue|
  {
    if |queue| == 0 || |visited| >= maxNodes then visited
    else if queue[0].depth >= maxDepth then Bfs(rev, queue[1..], visited, maxNodes, maxDepth)
    else
      var deps := Dependents(rev, queue[0].node);
      DependentsInTargets(rev, queue[0].node);
      var next := Expand(deps, queue[0].depth, visited, queue[1..]);
      FewerLeft(Targets(rev), visited, next.0);
      Bfs(rev, next.1, next.0, maxNodes, maxDepth)
  }

  /** `compute_transitive_dependents`: the visited ids, not counting the start. */
  function TransitiveCount(start: string, rev: map<string, seq<string>>, maxNodes: nat, maxDepth: nat): nat {
    |Bfs(rev, [Visit(start, 0)], {}, maxNodes, maxDepth) - {start}|
  }

  /**
    Ghost bookkeeping for the loop: a walk from the start to every visited
    id, no longer than the depth limit allows, and no longer than the depth
    recorded for every queued id.
  */
  ghost predicate Tracked(rev: map<string, seq<string>>, start: string, maxDepth: nat,
                          paths: map<string, seq<string>>, visited: set<string>, queue: seq<Visit>) {
    start in paths && paths[start] == [start]
    && (forall v :: v in paths ==> v == start || v in visited)
    && (forall v :: v in visited ==> v in paths)
    && (forall v :: v in paths ==> PathTo(rev, paths[v], start, v) && |paths[v]| <= maxDepth + 1)
    && (forall i :: 0 <= i < |queue| ==> queue[i].node in paths && |paths[queue[i].node]| <= queue[i].depth + 1)
  }

  /** Visiting one new dependent of a queued id keeps the bookkeeping. */
  lemma TrackOne(rev: map<string, seq<string>>, start: string, maxDepth: nat,
                 paths: map<string, seq<string>>, visited: set<string>, queue: seq<Visit>,
                 v: Visit, d: string)
    returns (paths': map<string, seq<string>>)
    requires Tracked(rev, start, maxDepth, paths, visited, queue)
    requires v.node in paths && |paths[v.node]| <= v.depth + 1 && v.depth < maxDepth
    requires d in Dependents(rev, v.node) && d !in visited
    ensures Tracked(rev, start, maxDepth, paths', visited + {d}, queue + [Visit(d, v.depth + 1)])
    ensures v.node in paths' && paths'[v.node] == paths[v.node]
  {
    paths' := paths;
    if d !in paths {
      PathExtend(rev, paths[v.node], start, v.node, d);
      paths' := paths[d := paths[v.node] + [d]];
    }
    var queue' := queue + [Visit(d, v.depth + 1)];
    forall i | 0 <= i < |queue'| ensures queue'[i].node in paths' && |paths'[queue'[i].node]| <= queue'[i].depth + 1 {
      if i < |queue| { assert queue'[i] == queue[i]; }
    }
  }

  /** Expanding an id below the depth limit keeps the bookkeeping. */
  lemma {:induction false} ExpandTracked(rev: map<string, seq<string>>, start: string, maxDepth: nat,
                                         paths: map<string, seq<string>>, visited: set<string>, queue: seq<Visit>,
                                         v: Visit, deps: seq<string>, r: (set<string>, seq<Visit>))
    returns (paths': map<string, seq<string>>)
    requires Tracked(rev, start, maxDepth, paths, visited, queue)
    requires v.node in paths && |paths[v.node]| <= v.depth + 1 && v.depth < maxDepth
    requires forall i :: 0 <= i < |deps| ==> deps[i] in Dependents(rev, v.node)
    requires r == Expand(deps, v.depth, visited, queue)
    ensures Tracked(rev, start, maxDepth, paths', r.0, r.1)
    decreases |deps|
  {
    if |deps| == 0 {
      paths' := paths;
    } else {
      var rest := deps[1..];
      assert forall i :: 0 <= i < |rest| ==> rest[i] == deps[i + 1];
      if deps[0] in visited {
        paths' := ExpandTracked(rev, start, maxDepth, paths, visited, queue, v, rest, r);
      } else {
        var p1 := TrackOne(rev, start, maxDepth, paths, visited, queue, v, deps[0]);
        paths' := ExpandTracked(rev, start, maxDepth, p1, visited + {deps[0]}, queue + [Visit(deps[0], v.depth + 1)], v, rest, r);
      }
    }
  }

  lemma TrackedTail(rev: map<string, seq<string>>, start: string, maxDepth: nat,
                    paths: map<string, seq<string>>, visited: set<string>, queue: seq<Visit>)
    requires |queue| > 0 && Tracked(rev, start, maxDepth, paths, visited, queue)
    ensures Tracked(rev, start, maxDepth, paths, visited, queue[1..])
    ensures queue[0].node in paths && |paths[queue[0].node]| <= queue[0].depth + 1
  {
    forall i | 0 <= i < |queue| - 1 ensures queue[1..][i] == queue[i + 1] { }
  }

  /** Every id the walk visits has a walk from the start within the depth limit. */
  lemma {:induction false} BfsTracked(rev: map<string, seq<string>>, start: string, maxNodes: nat, maxDepth: nat,
                                      paths: map<string, seq<string>>, visited: set<string>, queue: seq<Visit>)
    returns (paths': map<string, seq<string>>)
    requires visited <= Targets(rev)
    requires Tracked(rev, start, maxDepth, paths, visited, queue)
    ensures Tracked(rev, start, maxDepth, paths', Bfs(rev, queue, visited, maxNodes, maxDepth), [])
    decreases |Targets(rev) - visited|, |queue|
  {
    if |queue| == 0 || |visited| >= maxNodes {
      paths' := paths;
    } else {
      TrackedTail(rev, start, maxDepth, paths, visited, queue);
      if queue[0].depth >= maxDepth {
        paths' := BfsTracked(rev, start, maxNodes, maxDepth, paths, visited, queue[1..]);
      } else {
        var deps := Dependents(rev, queue[0].node);
        DependentsInTargets(rev, queue[0].node);
        var next := Expand(deps, queue[0].depth, visited, queue[1..]);
        var p1 := ExpandTracked(rev, start, maxDepth, paths, visited, queue[1..], queue[0], deps, next);
        FewerLeft(Targets(rev), visited, next.0);
        paths' := BfsTracked(rev, start, maxNodes, maxDepth, p1, next.0, next.1);
      }
    }
  }

  // ---------------------------------------------------------------------------
  // Completeness: below the cap, every id within the depth limit is counted
  // ---------------------------------------------------------------------------

  /**
    `level` records, for the start and every visited id, the depth at which
    it was first queued.
  */
  ghost predicate Levels(start: string, level: map<string, nat>, visited: set<string>) {
    start in level && level[start] == 0
    && forall z :: z in level <==> z == start || z in visited
  }

  /** Queued depths never decrease from head to tail. */
  predicate Ascending(queue: seq<Visit>) {
    forall i, j :: 0 <= i < j < |queue| ==> queue[i].depth <= queue[j].depth
  }

  /** Every queued depth lies in `lo..hi`. */
  predicate DepthsIn(queue: seq<Visit>, lo: nat, hi: nat) {
    forall i :: 0 <= i < |queue| ==> lo <= queue[i].depth <= hi
  }

  /** No recorded level exceeds `hi`. */
  ghost predicate LevelsAtMost(level: map<string, nat>, hi: nat) {
    forall z :: z in level ==> level[z] <= hi
  }

  /** Every dependent of `z` is visited, at most one level below `z`. */
  ghost predicate Done(rev: map<string, seq<string>>, level: map<string, nat>, visited: set<string>, z: string) {
    z in level && forall y :: y in Dependents(rev, z) ==> y in visited && y in level && level[y] <= level[z] + 1
  }

  /** `z` is still queued at its level, or already expanded. */
  ghost predicate Covered(rev: map<string, seq<string>>, level: map<string, nat>, visited: set<string>,
                          queue: seq<Visit>, z: string) {
    z in level && (Visit(z, level[z]) in queue || Done(rev, level, visited, z))
  }

  /** Every id below the depth limit is covered, except one whose queue entry is `h`. */
  ghost predicate CoveredBut(rev: map<string, seq<string>>, maxDepth: nat, level: map<string, nat>,
                             visited: set<string>, queue: seq<Visit>, h: Option<Visit>) {
    forall z :: z in level && level[z] < maxDepth && Some(Visit(z, level[z])) != h ==>
      Covered(rev, level, visited, queue, z)
  }

  /** The walk's invariant between two dequeues. */
  ghost predicate Layered(rev: map<string, seq<string>>, start: string, maxDepth: nat,
                          level: map<string, nat>, visited: set<string>, queue: seq<Visit>) {
    Levels(start, level, visited) && Ascending(queue)
    && (|queue| > 0 ==> DepthsIn(queue, queue[0].depth, queue[0].depth + 1)
                        && LevelsAtMost(level, queue[0].depth + 1))
    && CoveredBut(rev, maxDepth, level, visited, queue, None)
  }

  /** The invariant while the id of `h` at depth `d` is being expanded. */
  ghost predicate Expanding(rev: map<string, seq<string>>, start: string, maxDepth: nat,
                            level: map<string, nat>, visited: set<string>, queue: seq<Visit>, h: Visit) {
    Levels(start, level, visited) && Ascending(queue)
    && DepthsIn(queue, h.depth, h.depth + 1) && LevelsAtMost(level, h.depth + 1)
    && CoveredBut(rev, maxDepth, level, visited, queue, Some(h))
  }

  /** `level'` keeps every level `level` records. */
  ghost predicate Extends(level: map<string, nat>, level': map<string, nat>) {
    forall z :: z in level ==> z in level' && level'[z] == level[z]
  }

  /** Coverage survives more visits, more levels and more queue entries. */
  lemma CoveredGrows(rev: map<string, seq<string>>, level: map<string, nat>, visited: set<string>, queue: seq<Visit>,
                     level': map<string, nat>, visited': set<string>, queue': seq<Visit>, z: string)
    requires Covered(rev, level, visited, queue, z)
    requires Extends(level, level') && visited <= visited' && queue <= queue'
    ensures Covered(rev, level', visited', queue', z)
  {
    if Visit(z, level[z]) in queue {
      var i :| 0 <= i < |queue| && queue[i] == Visit(z, level[z]);
      assert queue'[i] == queue[i];
    }
  }

  /** Visiting one new dependent `y` at depth `h.depth + 1` keeps the expansion invariant. */
  lemma VisitOne(rev: map<string, seq<string>>, start: string, maxDepth: nat,
                 level: map<string, nat>, visited: set<string>, queue: seq<Visit>, h: Visit, y: string)
    returns (level': map<string, nat>)
    requires Expanding(rev, start, maxDepth, level, visited, queue, h) && y !in visited
    ensures Expanding(rev, start, maxDepth, level', visited + {y}, queue + [Visit(y, h.depth + 1)], h)
    ensures Extends(level, level') && y in level' && level'[y] <= h.depth + 1
  {
    level' := if y in level then level else level[y := h.depth + 1];
    var visited', queue' := visited + {y}, queue + [Visit(y, h.depth + 1)];
    assert queue <= queue';
    forall z | z in level' && level'[z] < maxDepth && Some(Visit(z, level'[z])) != Some(h)
      ensures Covered(rev, level', visited', queue', z)
    {
      if z in level {
        CoveredGrows(rev, level, visited, queue, level', visited', queue', z);
      } else {
        assert queue'[|queue|] == Visit(z, level'[z]);
      }
    }
  }

  /** Expanding the dependents `deps` keeps the invariant and visits each of them. */
  lemma {:induction false} ExpandLayered(rev: map<string, seq<string>>, start: string, maxDepth: nat,
                                         level: map<string, nat>, visited: set<string>, queue: seq<Visit>,
                                         h: Visit, deps: seq<string>, r: (set<string>, seq<Visit>))
    returns (level': map<string, nat>)
    requires Expanding(rev, start, maxDepth, level, visited, queue, h)
    requires r == Expand(deps, h.depth, visited, queue)
    ensures Expanding(rev, start, maxDepth, level', r.0, r.1, h) && Extends(level, level')
    ensures forall i :: 0 <= i < |deps| ==> deps[i] in r.0 && deps[i] in level' && level'[deps[i]] <= h.depth + 1
    decreases |deps|
  {
    if |deps| == 0 {
      level' := level;
    } else {
      var rest := deps[1..];
      assert forall i :: 0 <= i < |rest| ==> rest[i] == deps[i + 1];
      var l1 := level;
      if deps[0] !in visited {
        l1 := VisitOne(rev, start, maxDepth, level, visited, queue, h, deps[0]);
        level' := ExpandLayered(rev, start, maxDepth, l1, visited + {deps[0]}, queue + [Visit(deps[0], h.depth + 1)], h, rest, r);
      } else {
        level' := ExpandLayered(rev, start, maxDepth, level, visited, queue, h, rest, r);
      }
      assert deps[0] in l1 && l1[deps[0]] <= h.depth + 1;
    }
  }

  /** Taking the head off the queue starts its expansion. */
  lemma StartExpanding(rev: map<string, seq<string>>, start: string, maxDepth: nat,
                       level: map<string, nat>, visited: set<string>, queue: seq<Visit>)
    requires |queue| > 0 && Layered(rev, start, maxDepth, level, visited, queue)
    ensures Expanding(rev, start, maxDepth, level, visited, queue[1..], queue[0])
  {
    var tail := queue[1..];
    assert forall i :: 0 <= i < |tail| ==> tail[i] == queue[i + 1];
    forall z | z in level && level[z] < maxDepth && Some(Visit(z, level[z])) != Some(queue[0])
      ensures Covered(rev, level, visited, tail, z)
    {
      if Visit(z, level[z]) in queue {
        var i :| 0 <= i < |queue| && queue[i] == Visit(z, level[z]);
        assert tail[i - 1] == queue[i];
      }
    }
  }

  /** A head at the depth limit is dropped without breaking the invariant. */
  lemma SkipDeep(rev: map<string, seq<string>>, start: string, maxDepth: nat,
                 level: map<string, nat>, visited: set<string>, queue: seq<Visit>)
    requires |queue| > 0 && queue[0].depth >= maxDepth && Layered(rev, start, maxDepth, level, visited, queue)
    ensures Layered(rev, start, maxDepth, level, visited, queue[1..])
  {
    StartExpanding(rev, start, maxDepth, level, visited, queue);
    var tail := queue[1..];
    if |tail| > 0 {
      assert tail[0] == queue[1] && queue[0].depth <= tail[0].depth;
    }
  }

  /** Once all its dependents are visited, the expanded head is done, and the invariant holds between dequeues again. */
  lemma FinishExpanding(rev: map<string, seq<string>>, start: string, maxDepth: nat,
                        level: map<string, nat>, visited: set<string>, queue: seq<Visit>, h: Visit)
    requires Expanding(rev, start, maxDepth, level, visited, queue, h)
    requires forall y :: y in Dependents(rev, h.node) ==> y in visited && y in level && level[y] <= h.depth + 1
    ensures Layered(rev, start, maxDepth, level, visited, queue)
  {
    if |queue| > 0 {
      assert h.depth <= queue[0].depth;
    }
  }

  /** Below the cap, the walk ends with every id under the depth limit expanded. */
  lemma {:induction false} BfsLayered(rev: map<string, seq<string>>, start: string, maxNodes: nat, maxDepth: nat,
                                      level: map<string, nat>, visited: set<string>, queue: seq<Visit>)
    returns (level': map<string, nat>)
    requires visited <= Targets(rev)
    requires Layered(rev, start, maxDepth, level, visited, queue)
    ensures |Bfs(rev, queue, visited, maxNodes, maxDepth)| < maxNodes ==>
      Layered(rev, start, maxDepth, level', Bfs(rev, queue, visited, maxNodes, maxDepth), [])
    decreases |Targets(rev) - visited|, |queue|
  {
    if |queue| == 0 || |visited| >= maxNodes {
      level' := level;
    } else if queue[0].depth >= maxDepth {
      SkipDeep(rev, start, maxDepth, level, visited, queue);
      level' := BfsLayered(rev, start, maxNodes, maxDepth, level, visited, queue[1..]);
    } else {
      var h := queue[0];
      var deps := Dependents(rev, h.node);
      DependentsInTargets(rev, h.node);
      var next := Expand(deps, h.depth, visited, queue[1..]);
      StartExpanding(rev, start, maxDepth, level, visited, queue);
      var l1 := ExpandLayered(rev, start, maxDepth, level, visited, queue[1..], h, deps, next);
      FinishExpanding(rev, start, maxDepth, l1, next.0, next.1, h);
      FewerLeft(Targets(rev), visited, next.0);
      level' := BfsLayered(rev, start, maxNodes, maxDepth, l1, next.0, next.1);
    }
  }

  /** With the queue empty, each step of a short enough walk from the start reaches a visited id. */
  lemma {:induction false} PathVisited(rev: map<string, seq<string>>, start: string, maxDepth: nat,
                                       level: map<string, nat>, visited: set<string>, p: seq<string>)
    requires Layered(rev, start, maxDepth, level, visited, [])
    requires |p| > 0 && p[0] == start && IsPath(rev, p) && |p| <= maxDepth + 1
    ensures p[|p| - 1] in level && level[p[|p| - 1]] <= |p| - 1
    ensures |p| > 1 ==> p[|p| - 1] in visited
    decreases |p|
  {
    if |p| > 1 {
      var q := p[..|p| - 1];
      assert forall i :: 0 <= i < |q| ==> q[i] == p[i];
      PathVisited(rev, start, maxDepth, level, visited, q);
      var x := q[|q| - 1];
      assert Covered(rev, level, visited, [], x);
      assert p[|p| - 1] in Dependents(rev, x);
    }
  }

  /**
    Below the cap the count is exact: when the walk visits fewer than
    `maxNodes` ids, every id other than the start that depends on it within
    `maxDepth` hops is visited.
  */
  lemma BfsComplete(start: string, rev: map<string, seq<string>>, maxNodes: nat, maxDepth: nat, u: string, p: seq<string>)
    requires |Bfs(rev, [Visit(start, 0)], {}, maxNodes, maxDepth)| < maxNodes
    requires PathTo(rev, p, start, u) && |p| <= maxDepth + 1 && u != start
    ensures u in Bfs(rev, [Visit(start, 0)], {}, maxNodes, maxDepth)
  {
    var level := map[start := 0];
    assert Covered(rev, level, {}, [Visit(start, 0)], start);
    var level' := BfsLayered(rev, start, maxNodes, maxDepth, level, {}, [Visit(start, 0)]);
    PathVisited(rev, start, maxDepth, level', Bfs(rev, [Visit(start, 0)], {}, maxNodes, maxDepth), p);
  }

  /**
    Below the cap the walk counts exactly the ids other than the start that
    depend on it within `maxDepth` hops.
  */
  lemma ExactBelowCap(start: string, rev: map<string, seq<string>>, maxNodes: nat, maxDepth: nat)
    requires |Bfs(rev, [Visit(start, 0)], {}, maxNodes, maxDepth)| < maxNodes
    ensures forall v :: v in Bfs(rev, [Visit(start, 0)], {}, maxNodes, maxDepth) - {start}
                        <==> v != start && Within(rev, start, v, maxDepth)
  {
    VisitedWithin(start, rev, maxNodes, maxDepth);
    forall v | v != start && Within(rev, start, v, maxDepth)
      ensures v in Bfs(rev, [Visit(start, 0)], {}, maxNodes, maxDepth)
    {
      var p :| PathTo(rev, p, start, v) && |p| <= maxDepth + 1;
      BfsComplete(start, rev, maxNodes, maxDepth, v, p);
    }
  }

  /** The inner loop, run in place. */
  method ExpandLoop(deps: seq<string>, depth: nat, visited0: set<string>, queue0: seq<Visit>)
    returns (visited: set<string>, queue: seq<Visit>)
    ensures (visited, queue) == Expand(deps, depth, visited0, queue0)
  {
    visited, queue := visited0, queue0;
    var i := 0;
    while i < |deps|
      invariant 0 <= i <= |deps|
      invariant Expand(deps[i..], depth, visited, queue) == Expand(deps, depth, visited0, queue0)
    {
      var d := deps[i];
      assert deps[i..][1..] == deps[i + 1..];
      if d !in visited {
        visited := visited + {d};
        queue := queue + [Visit(d, depth + 1)];
      }
      i := i + 1;
    }
    assert deps[|deps|..] == [];
  }

  /** The queue loop of the walk: it visits what the functional walk visits. */
  method BfsLoop(start: string, rev: map<string, seq<string>>, maxNodes: nat, maxDepth: nat)
    returns (visited: set<string>)
    ensures visited == Bfs(rev, [Visit(start, 0)], {}, maxNodes, maxDepth)
  {
    visited := {};
    var queue: seq<Visit> := [Visit(start, 0)];
    while |queue| > 0 && |visited| < maxNodes
      invariant visited <= Targets(rev)
      invariant Bfs(rev, queue, visited, maxNodes, maxDepth) == Bfs(rev, [Visit(start, 0)], {}, maxNodes, maxDepth)
      decreases |Targets(rev) - visited|, |queue|
    {
      var v := queue[0];
      queue := queue[1..];
      if v.depth >= maxDepth {
        continue;
      }
      var deps := Dependents(rev, v.node);
      DependentsInTargets(rev, v.node);
      ghost var visited0 := visited;
      visited, queue := ExpandLoop(deps, v.depth, visited, queue);
      FewerLeft(Targets(rev), visited0, visited);
    }
  }

  /** Everything the walk visits depends on the start within `maxDepth` hops. */
  lemma VisitedWithin(start: string, rev: map<string, seq<string>>, maxNodes: nat, maxDepth: nat)
    ensures forall u :: u in Bfs(rev, [Visit(start, 0)], {}, maxNodes, maxDepth) ==> Within(rev, start, u, maxDepth)
  {
    var paths := BfsTracked(rev, start, maxNodes, maxDepth, map[start := [start]], {}, [Visit(start, 0)]);
    forall u | u in Bfs(rev, [Visit(start, 0)], {}, maxNodes, maxDepth) ensures Within(rev, start, u, maxDepth) {
      assert PathTo(rev, paths[u], start, u) && |paths[u]| <= maxDepth + 1;
    }
  }

  /**
    The walk as a loop. It terminates on cyclic graphs, since an id is queued
    only when first visited; it never counts the start; everything it counts
    depends on the start within `maxDepth` hops; it counts at most the
    distinct ids that appear as dependents; and while it stays clear of the
    cap it counts every such id.
  */
  method TransitiveDependents(start: string, rev: map<string, seq<string>>, maxNodes: nat, maxDepth: nat)
    returns (count: nat, ghost reached: set<string>)
    ensures count == TransitiveCount(start, rev, maxNodes, maxDepth)
    ensures count == |reached| && start !in reached
    ensures reached <= Targets(rev) && count <= |Targets(rev)|
    ensures forall v :: v in reached ==> Within(rev, start, v, maxDepth)
    ensures count + 1 < maxNodes ==> forall v :: v != start && Within(rev, start, v, maxDepth) ==> v in reached
  {
    var visited := BfsLoop(start, rev, maxNodes, maxDepth);
    reached := visited - {start};
    count := |visited - {start}|;
    SubsetCard(reached, Targets(rev));
    VisitedWithin(start, rev, maxNodes, maxDepth);
    if count + 1 < maxNodes {
      assert visited <= reached + {start};
      SubsetCard(visited, reached + {start});
      forall v | v != start && Within(rev, start, v, maxDepth) ensures v in reached {
        var p :| PathTo(rev, p, start, v) && |p| <= maxDepth + 1;
        BfsComplete(start, rev, maxNodes, maxDepth, v, p);
      }
    }
  }

  /** The cap is checked per dequeue: with a cap of one, a start with two dependents counts both. */
  lemma CapCheckedPerDequeue()
    ensures TransitiveCount("s", map["s" := ["a", "b"]], 1, MaxDepth) == 2
  {
    var rev := map["s" := ["a", "b"]];
    assert "a" in rev["s"] && "b" in rev["s"];
    assert "a" in Targets(rev) && "b" in Targets(rev);
    assert Dependents(rev, "s") == ["a", "b"];
    var v1 := Expand(["a", "b"], 0, {}, []);
    TwoFreshDependents("a", "b");
    assert Bfs(rev, [Visit("s", 0)], {}, 1, MaxDepth) == Bfs(rev, v1.1, v1.0, 1, MaxDepth);
    assert Bfs(rev, v1.1, v1.0, 1, MaxDepth) == {"a", "b"};
    assert {"a", "b"} - {"s"} == {"a", "b"};
  }

  /** Expanding two distinct, unvisited dependents visits and queues both. */
  lemma TwoFreshDependents(a: string, b: string)
    requires a != b
    ensures Expand([a, b], 0, {}, []) == ({a, b}, [Visit(a, 1), Visit(b, 1)])
  {
    var deps := [a, b];
    var none: set<string> := {};
    var empty: seq<Visit> := [];
    assert deps[0] == a && a !in none && deps[1..] == [b];
    assert none + {a} == {a} && empty + [Visit(a, 1)] == [Visit(a, 1)];
    assert Expand(deps, 0, none, empty) == Expand([b], 0, {a}, [Visit(a, 1)]);
    assert [b][0] == b && b !in {a} && [b][1..] == [];
    assert Expand([b], 0, {a}, [Visit(a, 1)]) == Expand([], 0, {a} + {b}, [Visit(a, 1)] + [Visit(b, 1)]);
    assert {a} + {b} == {a, b} && [Visit(a, 1)] + [Visit(b, 1)] == [Visit(a, 1), Visit(b, 1)];
  }
}

=== FILE: classify.dfy ===
/**
  Event classification: who acted, which category an event type falls in,
  whether it is a change, and its base severity. All keyword tests are
  substring tests on the lower-cased event type; the first rule that matches
  wins.
*/
module Classify {
  import opened Wrappers
  import opened Text
  import opened Payload

  datatype ActorKind = User | Service | Unknown

  /** `normalize_actor_label`: `int(actor)` is 1 for a user, 2 for a service. */
  function NormalizeActor(actor: Cell): (r: ActorKind)
    ensures r == User <==> actor.Text? && ParseInt(actor.text) == Some(1)
    ensures r == Service <==> actor.Text? && ParseInt(actor.text) == Some(2)
  {
    if !actor.Text? then Unknown
    else match ParseInt(actor.text)
      case Some(1) => User
      case Some(2) => Service
      case _ => Unknown
  }

  /** A numeric actor code printed in decimal maps 1 to user, 2 to service, else unknown. */
  lemma ActorOfCode(n: nat)
    ensures NormalizeActor(Text(NatToString(n))) ==
      (if n == 1 then User else if n == 2 then Service else Unknown)
  {
    ParseIntOfNatToString(n);
  }

  /** Missing actor cells are unknown actors. */
  lemma ActorMissing(c: Cell)
    requires !c.Text?
    ensures NormalizeActor(c) == Unknown
  {
  }

  datatype Category = Access | Auth | Export | Change | Other

  function CategoryLabel(c: Category): string {
    match c
    case Access => "access"
    case Auth => "auth"
    case Export => "export"
    case Change => "change"
    case Other => "other"
  }

  const ChangeKeys: seq<string> :=
    ["created", "updated", "deleted", "datachanged", "security", "permission",
     "accessright", "formula", "role", "rights"]

  const CriticalKeys: seq<string> :=
    ["impersonation", "permission", "accessright", "security", "deleted"]

  const HighKeys: seq<string> :=
    ["metricupdated", "metriccreated", "metricdeleted", "dimensionupdated",
     "dimensioncreated", "dimensiondeleted", "formula", "boardupdated",
     "boardcreated", "viewupdated", "viewcreated", "tableupdated", "tablecreated"]

  const MediumKeys: seq<string> := ["datachanged", "export"]

  /** `not event_type`: no type, or the empty string. */
  predicate Blank(eventType: Option<string>) {
    eventType.None? || |eventType.value| == 0
  }

  /** The lower-cased type, for a present, non-empty one. */
  function Lowered(eventType: Option<string>): string
    requires !Blank(eventType)
  {
    Lower(eventType.value)
  }

  /** `categorize_event`. */
  function Categorize(eventType: Option<string>): (r: Category)
    ensures Blank(eventType) ==> r == Other
  {
    if Blank(eventType) then Other
    else
      var t := Lowered(eventType);
      if Contains(t, "accessed") then Access
      else if Contains(t, "login") || Contains(t, "impersonation") then Auth
      else if Contains(t, "export") then Export
      else if ContainsAny(t, ChangeKeys) then Change
      else Other
  }

  /** `is_change_event`. */
  function IsChange(eventType: Option<string>): (r: bool)
    ensures Blank(eventType) ==> !r
  {
    !Blank(eventType) && ContainsAny(Lowered(eventType), ChangeKeys)
  }

  datatype Severity = Low | Medium | High | Critical

  function SeverityLabel(s: Severity): string {
    match s
    case Low => "LOW"
    case Medium => "MEDIUM"
    case High => "HIGH"
    case Critical => "CRITICAL"
  }

  function SeverityRank(s: Severity): nat {
    match s
    case Low => 0
    case Medium => 1
    case High => 2
    case Critical => 3
  }

  /** `base_severity`: a keyword ladder from CRITICAL down to LOW. */
  function BaseSeverity(eventType: Option<string>): (r: Severity)
    ensures Blank(eventType) ==> r == Low
  {
    if Blank(eventType) then Low
    else
      var t := Lowered(eventType);
      if ContainsAny(t, CriticalKeys) then Critical
      else if ContainsAny(t, HighKeys) then High
      else if ContainsAny(t, MediumKeys) then Medium
      else if Contains(t, "accessed") || Contains(t, "login") then Low
      else if IsChange(eventType) then Medium
      else Low
  }

  // ---------------------------------------------------------------------------
  // Properties
  // ---------------------------------------------------------------------------

  /** A missing or empty type is ("other", not a change, LOW). */
  lemma BlankTypeClassification(eventType: Option<string>)
    requires Blank(eventType)
    ensures Categorize(eventType) == Other && !IsChange(eventType) && BaseSeverity(eventType) == Low
  {
  }

  /** CRITICAL exactly when one of the critical keywords occurs, case-insensitively. */
  lemma CriticalIff(eventType: Option<string>)
    ensures BaseSeverity(eventType) == Critical <==>
      !Blank(eventType) && ContainsAny(Lower(eventType.value), CriticalKeys)
  {
  }

  /** The "change" category is only given to change events. */
  lemma ChangeCategoryIsChange(eventType: Option<string>)
    requires Categorize(eventType) == Change
    ensures IsChange(eventType)
  {
  }

  lemma ChangeCategoryIsChangeIf(eventType: Option<string>)
    ensures Categorize(eventType) == Change ==> IsChange(eventType)
  {
    if Categorize(eventType) == Change { ChangeCategoryIsChange(eventType); }
  }

  /** A change event is in the "change" category unless an earlier rule claimed it. */
  lemma IsChangeCategory(eventType: Option<string>)
    requires IsChange(eventType)
    ensures Categorize(eventType) in {Access, Auth, Export, Change}
  {
  }

  /** A keyword ending in the `j`-th change keyword contains a change keyword. */
  lemma EndsWithChangeKey(k: string, j: nat)
    requires j < |ChangeKeys|
    requires |ChangeKeys[j]| <= |k| && k[|k| - |ChangeKeys[j]|..] == ChangeKeys[j]
    ensures ContainsAny(k, ChangeKeys)
  {
    SuffixContained(k, ChangeKeys[j]);
  }

  /** The metric and dimension keywords contain a change keyword. */
  lemma MetricDimensionKeysAreChanges(i: nat)
    requires i < 6
    ensures ContainsAny(HighKeys[i], ChangeKeys)
  {
    if i == 0 { EndsWithChangeKey(HighKeys[i], 1); }
    else if i == 1 { EndsWithChangeKey(HighKeys[i], 0); }
    else if i == 2 { EndsWithChangeKey(HighKeys[i], 2); }
    else if i == 3 { EndsWithChangeKey(HighKeys[i], 1); }
    else if i == 4 { EndsWithChangeKey(HighKeys[i], 0); }
    else { EndsWithChangeKey(HighKeys[i], 2); }
  }

  /** The formula, board, view and table keywords contain a change keyword. */
  lemma OtherHighKeysAreChanges(i: nat)
    requires 6 <= i < |HighKeys|
    ensures ContainsAny(HighKeys[i], ChangeKeys)
  {
    if i == 6 { EndsWithChangeKey(HighKeys[i], 7); }
    else if i == 7 { EndsWithChangeKey(HighKeys[i], 1); }
    else if i == 8 { EndsWithChangeKey(HighKeys[i], 0); }
    else if i == 9 { EndsWithChangeKey(HighKeys[i], 1); }
    else if i == 10 { EndsWithChangeKey(HighKeys[i], 0); }
    else if i == 11 { EndsWithChangeKey(HighKeys[i], 1); }
    else { EndsWithChangeKey(HighKeys[i], 0); }
  }

  /** Each HIGH keyword contains a change keyword. */
  lemma HighKeysAreChanges(i: nat)
    requires i < |HighKeys|
    ensures ContainsAny(HighKeys[i], ChangeKeys)
  {
    if i < 6 { MetricDimensionKeysAreChanges(i); } else { OtherHighKeysAreChanges(i); }
  }

  /** A type that contains a HIGH keyword is a change event. */
  lemma HighImpliesChange(t: string)
    requires ContainsAny(t, HighKeys)
    ensures ContainsAny(t, ChangeKeys)
  {
    var i :| 0 <= i < |HighKeys| && Contains(t, HighKeys[i]);
    HighKeysAreChanges(i);
    var j :| 0 <= j < |ChangeKeys| && Contains(HighKeys[i], ChangeKeys[j]);
    ContainsTransitive(t, HighKeys[i], ChangeKeys[j]);
  }

  /** An event in the "other" category is neither a change nor above LOW. */
  lemma OtherIsLow(eventType: Option<string>)
    requires Categorize(eventType) == Other
    ensures !IsChange(eventType) && BaseSeverity(eventType) == Low
  {
    if !Blank(eventType) {
      var t := Lowered(eventType);
      assert !ContainsAny(t, ChangeKeys);
      if ContainsAny(t, HighKeys) { HighImpliesChange(t); }
      assert !ContainsAny(t, CriticalKeys) by {
        forall i | 0 <= i < |CriticalKeys| ensures !Contains(t, CriticalKeys[i]) {
          assert CriticalKeys[0] == "impersonation";
          if i > 0 {
            assert CriticalKeys[i] in ChangeKeys;
            var j :| 0 <= j < |ChangeKeys| && ChangeKeys[j] == CriticalKeys[i];
          }
        }
      }
      assert !ContainsAny(t, MediumKeys) by {
        assert MediumKeys[0] == ChangeKeys[3] && MediumKeys[1] == "export";
      }
    }
  }

  /** A change event that is not an access or login event is at least MEDIUM. */
  lemma ChangeAtLeastMedium(eventType: Option<string>)
    requires IsChange(eventType)
    requires !Contains(Lowered(eventType), "accessed") && !Contains(Lowered(eventType), "login")
    ensures SeverityRank(BaseSeverity(eventType)) >= 1
  {
  }

  lemma LowerMetricUpdated()
    ensures Lower("MetricUpdated") == "metricupdated"
  {
  }

  /** "metricupdated" holds a change keyword and a HIGH keyword. */
  lemma MetricUpdatedIsChange(t: string)
    requires t == "metricupdated"
    ensures ContainsAny(t, ChangeKeys)
  {
    SuffixContained(t, "updated");
    assert Contains(t, ChangeKeys[1]);
  }

  lemma MetricUpdatedIsHigh(t: string)
    requires t == "metricupdated"
    ensures ContainsAny(t, HighKeys)
  {
    ContainsAt(t, "metricupdated", 0);
    assert Contains(t, HighKeys[0]);
  }

  /** "metricupdated" holds none of the access, auth and export keywords. */
  lemma MetricUpdatedNotAccessAuthExport(t: string)
    requires t == "metricupdated"
    ensures !Contains(t, "accessed") && !Contains(t, "login")
    ensures !Contains(t, "impersonation") && !Contains(t, "export")
  {
    assert !Contains(t, "accessed") by { MissingCharNotContained(t, "accessed", 4); }
    assert !Contains(t, "login") by { MissingCharNotContained(t, "login", 0); }
    assert !Contains(t, "impersonation") by { MissingCharNotContained(t, "impersonation", 5); }
    assert !Contains(t, "export") by { MissingCharNotContained(t, "export", 1); }
  }

  /** No critical keyword occurs in "metricupdated". */
  lemma MetricUpdatedNotCritical(t: string)
    requires t == "metricupdated"
    ensures !ContainsAny(t, CriticalKeys)
  {
    forall i | 0 <= i < |CriticalKeys| ensures !Contains(t, CriticalKeys[i]) {
      if i == 0 { MissingCharNotContained(t, CriticalKeys[i], 5); }
      else if i == 1 { MissingCharNotContained(t, CriticalKeys[i], 5); }
      else if i == 2 { MissingCharNotContained(t, CriticalKeys[i], 4); }
      else if i == 3 { MissingCharNotContained(t, CriticalKeys[i], 0); }
      else { MissingCharNotContained(t, CriticalKeys[i], 2); }
    }
  }

  lemma MetricUpdatedClassification()
    ensures Categorize(Some("MetricUpdated")) == Change
    ensures IsChange(Some("MetricUpdated"))
    ensures BaseSeverity(Some("MetricUpdated")) == High
  {
    LowerMetricUpdated();
    MetricUpdatedIsChange(Lower("MetricUpdated"));
    MetricUpdatedIsHigh(Lower("MetricUpdated"));
    MetricUpdatedNotAccessAuthExport(Lower("MetricUpdated"));
    MetricUpdatedNotCritical(Lower("MetricUpdated"));
  }
}

=== FILE: counting.dfy ===
/**
  Counting helpers shared by the metadata graph: occurrence counts, list
  filtering by membership, counting dicts built with `d[x] = d.get(x, 0) + 1`
  and reverse-edge dicts built with `d.setdefault(x, []).append(src)`.
*/
module Counting {
  /** Number of occurrences of `x` in `s`. */
  function Occ(s: seq<string>, x: string): (n: nat)
    ensures n <= |s|
    ensures n == 0 <==> x !in s
  {
    if |s| == 0 then 0
    else Occ(s[..|s| - 1], x) + (if s[|s| - 1] == x then 1 else 0)
  }

  lemma {:induction false} OccConcat(a: seq<string>, b: seq<string>, x: string)
    ensures Occ(a + b, x) == Occ(a, x) + Occ(b, x)
    decreases |b|
  {
    if |b| == 0 {
      assert a + b == a;
    } else {
      assert (a + b)[..|a + b| - 1] == a + b[..|b| - 1];
      OccConcat(a, b[..|b| - 1], x);
    }
  }

  /** `[d for d in s if d in known]`. */
  function Keep(s: seq<string>, known: set<string>): (r: seq<string>)
    ensures |r| <= |s|
    ensures forall i :: 0 <= i < |r| ==> r[i] in known && r[i] in s
    ensures forall x :: x in s && x in known ==> x in r
  {
    if |s| == 0 then []
    else (if s[0] in known then [s[0]] else []) + Keep(s[1..], known)
  }

  /** When every element is known, the filter keeps the list as it is. */
  lemma {:induction false} KeepAllKnown(s: seq<string>, known: set<string>)
    requires forall i :: 0 <= i < |s| ==> s[i] in known
    ensures Keep(s, known) == s
  {
    if |s| > 0 {
      KeepAllKnown(s[1..], known);
    }
  }

  /** Nothing known, nothing kept. */
  lemma {:induction false} KeepNone(s: seq<string>, known: set<string>)
    requires forall i :: 0 <= i < |s| ==> s[i] !in known
    ensures Keep(s, known) == []
  {
    if |s| > 0 {
      KeepNone(s[1..], known);
    }
  }

  /** Adds one to the count of `x`, starting from zero. */
  function Bump(m: map<string, nat>, x: string): map<string, nat> {
    m[x := (if x in m then m[x] else 0) + 1]
  }

  /** A counting dict over `s`, filled in order. */
  function Tally(s: seq<string>): map<string, nat> {
    if |s| == 0 then map[] else Bump(Tally(s[..|s| - 1]), s[|s| - 1])
  }

  /** The counting dict holds exactly the elements of `s`, each with its number of occurrences. */
  lemma {:induction false} TallyCounts(s: seq<string>, x: string)
    ensures x in Tally(s) <==> x in s
    ensures x in Tally(s) ==> Tally(s)[x] == Occ(s, x)
  {
    if |s| > 0 {
      TallyCounts(s[..|s| - 1], x);
      assert s == s[..|s| - 1] + [s[|s| - 1]];
    }
  }

  /** `n` copies of `x`. */
  function Repeat(x: string, n: nat): (r: seq<string>)
    ensures |r| == n
    ensures forall i :: 0 <= i < n ==> r[i] == x
  {
    if n == 0 then [] else [x] + Repeat(x, n - 1)
  }

  /** `rev.get(x, [])`. */
  function Dependents(rev: map<string, seq<string>>, x: string): seq<string> {
    if x in rev then rev[x] else []
  }

  /** `for dep in ds: rev.setdefault(dep, []).append(src)`. */
  function AddEdges(rev: map<string, seq<string>>, src: string, ds: seq<string>): map<string, seq<string>>
    decreases |ds|
  {
    if |ds| == 0 then rev
    else
      var d := ds[0];
      AddEdges(rev[d := Dependents(rev, d) + [src]], src, ds[1..])
  }

  /** The reverse-edge dict of a forward-edge list, filled source by source. */
  function ReverseDeps(deps: seq<(string, seq<string>)>): map<string, seq<string>> {
    if |deps| == 0 then map[]
    else
      var (src, ds) := deps[|deps| - 1];
      AddEdges(ReverseDeps(deps[..|deps| - 1]), src, ds)
  }

  /**
    Reference definition: the sources with an edge into `x`, in forward order,
    each repeated once per occurrence of the edge.
  */
  function Sources(deps: seq<(string, seq<string>)>, x: string): seq<string> {
    if |deps| == 0 then []
    else
      var (src, ds) := deps[|deps| - 1];
      Sources(deps[..|deps| - 1], x) + Repeat(src, Occ(ds, x))
  }

  /** The number of edges into `x`, counted per occurrence. */
  function InDegree(deps: seq<(string, seq<string>)>, x: string): nat {
    if |deps| == 0 then 0
    else InDegree(deps[..|deps| - 1], x) + Occ(deps[|deps| - 1].1, x)
  }

  lemma {:induction false} AddEdgesDependents(rev: map<string, seq<string>>, src: string, ds: seq<string>, x: string)
    ensures Dependents(AddEdges(rev, src, ds), x) == Dependents(rev, x) + Repeat(src, Occ(ds, x))
    decreases |ds|
  {
    if |ds| > 0 {
      var d := ds[0];
      var rev' := rev[d := Dependents(rev, d) + [src]];
      AddEdgesDependents(rev', src, ds[1..], x);
      OccFront(ds, x);
      if d == x {
        assert Repeat(src, Occ(ds, x)) == [src] + Repeat(src, Occ(ds[1..], x));
      }
    }
  }

  lemma {:induction false} AddEdgesKeys(rev: map<string, seq<string>>, src: string, ds: seq<string>, x: string)
    ensures x in AddEdges(rev, src, ds) <==> x in rev || x in ds
    decreases |ds|
  {
    if |ds| > 0 {
      var d := ds[0];
      AddEdgesKeys(rev[d := Dependents(rev, d) + [src]], src, ds[1..], x);
      assert ds == [d] + ds[1..];
    }
  }

  lemma OccFront(s: seq<string>, x: string)
    requires |s| > 0
    ensures Occ(s, x) == Occ(s[1..], x) + (if s[0] == x then 1 else 0)
  {
    assert s == [s[0]] + s[1..];
    OccConcat([s[0]], s[1..], x);
    assert Occ([s[0]], x) == Occ([], x) + (if s[0] == x then 1 else 0) by {
      assert [s[0]][..0] == [];
    }
  }

  /**
    The reverse dict is the exact inverse of the forward edges: under every
    target it lists each source once per edge, and it has an entry exactly for
    the ids some edge points to.
  */
  lemma {:induction false} ReverseDepsInverse(deps: seq<(string, seq<string>)>, x: string)
    ensures Dependents(ReverseDeps(deps), x) == Sources(deps, x)
    ensures |Sources(deps, x)| == InDegree(deps, x)
    ensures x in ReverseDeps(deps) <==> InDegree(deps, x) > 0
  {
    if |deps| > 0 {
      var (src, ds) := deps[|deps| - 1];
      ReverseDepsInverse(deps[..|deps| - 1], x);
      AddEdgesDependents(ReverseDeps(deps[..|deps| - 1]), src, ds, x);
      AddEdgesKeys(ReverseDeps(deps[..|deps| - 1]), src, ds, x);
    }
  }
}

=== FILE: dedup.dfy ===
/**
  Deduplication by event id: sort by (timestamp, id), then keep the last
  event of each id. The survivor of an id is its latest event, an event
  without a timestamp counting as the latest of all.
*/
module Dedup {
  import opened Wrappers
  import opened Text
  import opened Events
  import opened Ordering

  function Ids(s: seq<Event>): set<string> {
    set i | 0 <= i < |s| :: s[i].id
  }

  predicate UniqueIds(s: seq<Event>) {
    forall i, j :: 0 <= i < j < |s| ==> s[i].id != s[j].id
  }

  /** `drop_duplicates(subset=["event_id"], keep="last")`. */
  function KeepLast(s: seq<Event>): (r: seq<Event>)
    ensures |r| <= |s|
  {
    if |s| == 0 then []
    else if s[0].id in Ids(s[1..]) then KeepLast(s[1..])
    else [s[0]] + KeepLast(s[1..])
  }

  /** `dedupe_events`. */
  function Dedupe(s: seq<Event>): seq<Event> {
    KeepLast(Sort(s))
  }

  lemma IdsTail(s: seq<Event>)
    requires |s| > 0
    ensures Ids(s) == {s[0].id} + Ids(s[1..])
  {
    forall x | x in Ids(s) ensures x in {s[0].id} + Ids(s[1..]) {
      var i :| 0 <= i < |s| && s[i].id == x;
      if i > 0 { assert s[1..][i - 1] == s[i]; }
    }
    forall x | x in Ids(s[1..]) ensures x in Ids(s) {
      var i :| 0 <= i < |s[1..]| && s[1..][i].id == x;
      assert s[i + 1] == s[1..][i];
    }
  }

  lemma InIds(s: seq<Event>, e: Event)
    requires e in s
    ensures e.id in Ids(s)
  {
    var i :| 0 <= i < |s| && s[i] == e;
  }

  lemma IdsConcat(a: seq<Event>, b: seq<Event>)
    ensures Ids(a + b) == Ids(a) + Ids(b)
  {
    forall x | x in Ids(a + b) ensures x in Ids(a) + Ids(b) {
      var i :| 0 <= i < |a + b| && (a + b)[i].id == x;
      if i >= |a| { assert (a + b)[i] == b[i - |a|]; }
    }
    forall x | x in Ids(a) + Ids(b) ensures x in Ids(a + b) {
      if x in Ids(a) {
        var i :| 0 <= i < |a| && a[i].id == x;
        assert (a + b)[i] == a[i];
      } else {
        var i :| 0 <= i < |b| && b[i].id == x;
        assert (a + b)[|a| + i] == b[i];
      }
    }
  }

  /** With unique ids, an id names at most one element. */
  lemma UniqueMember(s: seq<Event>, a: Event, b: Event)
    requires UniqueIds(s) && a in s && b in s && a.id == b.id
    ensures a == b
  {
    var i :| 0 <= i < |s| && s[i] == a;
    var j :| 0 <= j < |s| && s[j] == b;
  }

  /** The ids of a sequence depend only on its elements. */
  lemma IdsOfPermutation(s: seq<Event>, t: seq<Event>)
    requires multiset(s) == multiset(t)
    ensures Ids(s) == Ids(t)
  {
    forall x | x in Ids(s) ensures x in Ids(t) {
      var i :| 0 <= i < |s| && s[i].id == x;
      assert s[i] in multiset(t);
    }
    forall x | x in Ids(t) ensures x in Ids(s) {
      var i :| 0 <= i < |t| && t[i].id == x;
      assert t[i] in multiset(s);
    }
  }

  /** Every element kept is an element of the input. */
  lemma {:induction false} KeepLastMembers(s: seq<Event>)
    ensures forall e :: e in KeepLast(s) ==> e in s
  {
    if |s| > 0 { KeepLastMembers(s[1..]); }
  }

  /** No id is lost. */
  lemma {:induction false} KeepLastIds(s: seq<Event>)
    ensures Ids(KeepLast(s)) == Ids(s)
  {
    if |s| > 0 {
      KeepLastIds(s[1..]);
      IdsTail(s);
      if s[0].id !in Ids(s[1..]) {
        IdsTail([s[0]] + KeepLast(s[1..]));
        assert ([s[0]] + KeepLast(s[1..]))[1..] == KeepLast(s[1..]);
      }
    }
  }

  /** No id is kept twice. */
  lemma {:induction false} KeepLastUnique(s: seq<Event>)
    ensures UniqueIds(KeepLast(s))
  {
    if |s| > 0 {
      KeepLastUnique(s[1..]);
      if s[0].id !in Ids(s[1..]) {
        KeepLastIds(s[1..]);
        var rest := KeepLast(s[1..]);
        forall j | 0 <= j < |rest| ensures rest[j].id != s[0].id {
          assert rest[j].id in Ids(rest);
        }
      }
    }
  }

  /** Dropping elements keeps a sorted sequence sorted. */
  lemma {:induction false} KeepLastSorted(s: seq<Event>)
    requires Sorted(s)
    ensures Sorted(KeepLast(s))
  {
    if |s| > 0 {
      KeepLastSorted(s[1..]);
      if s[0].id !in Ids(s[1..]) {
        var rest := KeepLast(s[1..]);
        KeepLastMembers(s[1..]);
        forall j | 0 <= j < |rest| ensures KeyLe(s[0], rest[j]) {
          assert rest[j] in s[1..];
          var k :| 0 <= k < |s[1..]| && s[1..][k] == rest[j];
          assert s[k + 1] == rest[j];
        }
      }
    }
  }

  /** A kept element is followed by no element with its id. */
  lemma {:induction false} KeepLastIsLast(s: seq<Event>, e: Event)
    requires e in KeepLast(s)
    ensures exists i :: 0 <= i < |s| && s[i] == e && e.id !in Ids(s[i + 1..])
  {
    if s[0].id in Ids(s[1..]) || e != s[0] {
      KeepLastIsLast(s[1..], e);
      var i :| 0 <= i < |s[1..]| && s[1..][i] == e && e.id !in Ids(s[1..][i + 1..]);
      assert s[i + 1] == e && s[1..][i + 1..] == s[i + 2..];
    } else {
      assert s[0] == e && s[1..] == s[0 + 1..];
    }
  }

  /** On a sequence with unique ids nothing is dropped. */
  lemma {:induction false} KeepLastOfUnique(s: seq<Event>)
    requires UniqueIds(s)
    ensures KeepLast(s) == s
  {
    if |s| > 0 {
      KeepLastOfUnique(s[1..]);
      forall x | x in Ids(s[1..]) ensures x != s[0].id {
        var i :| 0 <= i < |s[1..]| && s[1..][i].id == x;
        assert s[i + 1] == s[1..][i];
      }
      assert s == [s[0]] + s[1..];
    }
  }

  // ---------------------------------------------------------------------------
  // `dedupe_events`
  // ---------------------------------------------------------------------------

  /** The deduplicated events: sorted, one per id, every id kept, drawn from the input. */
  lemma DedupeShape(s: seq<Event>)
    ensures Sorted(Dedupe(s)) && UniqueIds(Dedupe(s))
    ensures Ids(Dedupe(s)) == Ids(s)
    ensures forall e :: e in Dedupe(s) ==> e in s
  {
    var t := Sort(s);
    SortSorted(s);
    SortPermutes(s);
    KeepLastSorted(t);
    KeepLastUnique(t);
    KeepLastIds(t);
    IdsOfPermutation(t, s);
    KeepLastMembers(t);
    forall e | e in KeepLast(t) ensures e in s {
      assert e in multiset(t);
    }
  }

  /** On a sequence with unique ids, deduplication keeps exactly the input's elements. */
  lemma DedupeOfUnique(s: seq<Event>)
    requires UniqueIds(s)
    ensures forall e :: e in Dedupe(s) <==> e in s
  {
    DedupeShape(s);
    forall e | e in s ensures e in Dedupe(s) {
      InIds(s, e);
      var i :| 0 <= i < |Dedupe(s)| && Dedupe(s)[i].id == e.id;
      UniqueMember(s, Dedupe(s)[i], e);
    }
  }

  /** Deduplicating twice is deduplicating once. */
  lemma DedupeIdempotent(s: seq<Event>)
    ensures Dedupe(Dedupe(s)) == Dedupe(s)
  {
    DedupeShape(s);
    DedupeShape(Dedupe(s));
    DedupeOfUnique(Dedupe(s));
    SortedUniqueEqual(Dedupe(Dedupe(s)), Dedupe(s));
  }

  /** Every element after position `i` has its id among the ids after `i`. */
  lemma IdsAfter(t: seq<Event>, i: int)
    requires 0 <= i < |t|
    ensures forall j :: i < j < |t| ==> t[j].id in Ids(t[i + 1..])
  {
    forall j | i < j < |t| ensures t[j].id in Ids(t[i + 1..]) {
      assert t[i + 1..][j - i - 1] == t[j];
    }
  }

  /** In a sorted sequence, a kept element is the latest of its id. */
  lemma KeepLastKeepsLatest(t: seq<Event>, e: Event, f: Event)
    requires Sorted(t) && e in KeepLast(t) && f in t && f.id == e.id
    ensures TsLe(f.ts, e.ts)
  {
    KeepLastIsLast(t, e);
    var i :| 0 <= i < |t| && t[i] == e && e.id !in Ids(t[i + 1..]);
    var j :| 0 <= j < |t| && t[j] == f;
    IdsAfter(t, i);
    KeyLeReflexive(e);
    assert KeyLe(t[j], t[i]);
    KeyLeSameId(f, e);
  }

  /** The survivor of an id is its latest event; an event without a timestamp counts as latest. */
  lemma DedupeKeepsLatest(s: seq<Event>, e: Event, f: Event)
    requires e in Dedupe(s) && f in s && f.id == e.id
    ensures TsLe(f.ts, e.ts)
  {
    SortSorted(s);
    SortPermutes(s);
    assert f in multiset(Sort(s));
    KeepLastKeepsLatest(Sort(s), e, f);
  }

  /** Cutting a sequence around a survivor: nothing after it shares its key. */
  lemma WithKeyAround(a: seq<Event>, e: Event, b: seq<Event>)
    requires e.id !in Ids(b)
    ensures WithKey(a + [e] + b, e) == WithKey(a, e) + [e]
  {
    WithKeyConcat(a + [e], b, e);
    WithKeyConcat(a, [e], e);
    assert WithKey([e], e) == [e] by { assert [e][1..] == []; }
    NoKeyWithoutId(b, e);
  }

  /** An element whose id does not recur after it ends the elements sharing its key. */
  lemma LastOfKeyAt(t: seq<Event>, i: int)
    requires 0 <= i < |t| && t[i].id !in Ids(t[i + 1..])
    ensures WithKey(t, t[i]) == WithKey(t[..i], t[i]) + [t[i]]
  {
    var x, rest := t[i], t[i..];
    WithKeySplit(t, i, x);
    WithKeyHeadOwn(rest);
    assert rest[1..] == t[i + 1..];
    NoKeyWithoutId(t[i + 1..], x);
  }

  lemma WithKeySplit(t: seq<Event>, i: int, k: Event)
    requires 0 <= i <= |t|
    ensures WithKey(t, k) == WithKey(t[..i], k) + WithKey(t[i..], k)
  {
    assert t[..i] + t[i..] == t;
    WithKeyConcat(t[..i], t[i..], k);
  }

  lemma WithKeyHeadOwn(s: seq<Event>)
    requires |s| > 0
    ensures WithKey(s, s[0]) == [s[0]] + WithKey(s[1..], s[0])
  {
  }

  /** A kept element is the last of the elements sharing its key. */
  lemma KeepLastIsLastOfKey(t: seq<Event>, e: Event)
    requires e in KeepLast(t)
    ensures |WithKey(t, e)| > 0 && WithKey(t, e)[|WithKey(t, e)| - 1] == e
  {
    KeepLastIsLast(t, e);
    var i :| 0 <= i < |t| && t[i] == e && e.id !in Ids(t[i + 1..]);
    LastOfKeyAt(t, i);
  }

  /** Among events of equal timestamp and id, the last one in input order survives. */
  lemma DedupeKeepsLastOfTies(s: seq<Event>, e: Event)
    requires e in Dedupe(s)
    ensures |WithKey(s, e)| > 0 && WithKey(s, e)[|WithKey(s, e)| - 1] == e
  {
    SortStable(s, e);
    KeepLastIsLastOfKey(Sort(s), e);
  }

  /** A sequence that lacks an id holds no event with a key of that id. */
  lemma {:induction false} NoKeyWithoutId(s: seq<Event>, k: Event)
    requires k.id !in Ids(s)
    ensures WithKey(s, k) == []
  {
    if |s| > 0 {
      IdsTail(s);
      NoKeyWithoutId(s[1..], k);
    }
  }

  // ---------------------------------------------------------------------------
  // Sorted sequences with unique ids
  // ---------------------------------------------------------------------------

  /** A non-empty sequence whose elements all lie in `s` forces `s` to be non-empty. */
  lemma MembersForceNonEmpty(s: seq<Event>, t: seq<Event>)
    requires forall e :: e in t ==> e in s
    ensures |t| > 0 ==> |s| > 0
  {
    if |t| > 0 { assert t[0] in s; }
  }

  /** Two sorted sequences with unique ids and the same elements start alike. */
  lemma SortedUniqueHeads(s: seq<Event>, t: seq<Event>)
    requires Sorted(s) && Sorted(t) && UniqueIds(s) && UniqueIds(t)
    requires forall e :: e in s <==> e in t
    requires |s| > 0 && |t| > 0
    ensures s[0] == t[0]
  {
    assert s[0] in t;
    var j :| 0 <= j < |t| && t[j] == s[0];
    assert t[0] in s;
    var i :| 0 <= i < |s| && s[i] == t[0];
    KeyLeReflexive(s[0]);
    KeyLeReflexive(t[0]);
    assert KeyLe(s[0], s[i]) && KeyLe(t[0], t[j]);
    KeyLeAntisymmetric(s[0], t[0]);
  }

  /** Removing equal heads from sequences with unique ids leaves the same elements. */
  lemma TailsAlike(s: seq<Event>, t: seq<Event>)
    requires UniqueIds(s) && UniqueIds(t)
    requires forall e :: e in s <==> e in t
    requires |s| > 0 && |t| > 0 && s[0] == t[0]
    ensures forall e :: e in s[1..] <==> e in t[1..]
  {
    forall e | e in s[1..] ensures e in t[1..] {
      var a :| 0 <= a < |s[1..]| && s[1..][a] == e;
      assert s[a + 1] == e;
      assert e in t;
      var b :| 0 <= b < |t| && t[b] == e;
      assert t[1..][b - 1] == e;
    }
    forall e | e in t[1..] ensures e in s[1..] {
      var b :| 0 <= b < |t[1..]| && t[1..][b] == e;
      assert t[b + 1] == e;
      assert e in s;
      var a :| 0 <= a < |s| && s[a] == e;
      assert s[1..][a - 1] == e;
    }
  }

  /** Two sorted sequences with unique ids and the same elements are equal. */
  lemma {:induction false} SortedUniqueEqual(s: seq<Event>, t: seq<Event>)
    requires Sorted(s) && Sorted(t) && UniqueIds(s) && UniqueIds(t)
    requires forall e :: e in s <==> e in t
    ensures s == t
  {
    MembersForceNonEmpty(s, t);
    MembersForceNonEmpty(t, s);
    if |s| > 0 {
      SortedUniqueHeads(s, t);
      TailsAlike(s, t);
      SortedUniqueEqual(s[1..], t[1..]);
      assert s == [s[0]] + s[1..] && t == [t[0]] + t[1..];
    }
  }
}

=== FILE: dicts.dfy ===
/**
  Python dicts keyed by strings, as association lists in insertion order:
  looking a key up, and assigning to a key (an existing key keeps its
  position and takes the new value; a new key goes to the end).
*/
module Dicts {
  import opened Wrappers

  predicate UniqueKeys<V>(d: seq<(string, V)>) {
    forall i, j :: 0 <= i < j < |d| ==> d[i].0 != d[j].0
  }

  /** The keys, as a set. */
  function KeySet<V>(d: seq<(string, V)>): (r: set<string>)
    ensures forall i :: 0 <= i < |d| ==> d[i].0 in r
    ensures forall k :: k in r ==> exists i :: 0 <= i < |d| && d[i].0 == k
  {
    set i | 0 <= i < |d| :: d[i].0
  }

  /** `d.get(k)`. */
  function Lookup<V>(d: seq<(string, V)>, k: string): (r: Option<V>)
    ensures r.None? <==> k !in KeySet(d)
    ensures r.Some? ==> exists i :: 0 <= i < |d| && d[i] == (k, r.value)
  {
    if |d| == 0 then None
    else if d[0].0 == k then Some(d[0].1)
    else
      var r := Lookup(d[1..], k);
      assert forall i :: 0 <= i < |d| - 1 ==> d[1..][i] == d[i + 1];
      r
  }

  /** In a dict with unique keys, the entry at any position is what the key looks up. */
  lemma {:induction false} LookupAt<V>(d: seq<(string, V)>, i: int)
    requires UniqueKeys(d) && 0 <= i < |d|
    ensures Lookup(d, d[i].0) == Some(d[i].1)
  {
    if i > 0 {
      LookupAt(d[1..], i - 1);
    }
  }

  /** `d[k] = v`. */
  function Assign<V>(d: seq<(string, V)>, k: string, v: V): (r: seq<(string, V)>)
    ensures k in KeySet(d) ==> |r| == |d| && forall i :: 0 <= i < |d| ==> r[i].0 == d[i].0
    ensures k !in KeySet(d) ==> r == d + [(k, v)]
  {
    if |d| == 0 then [(k, v)]
    else if d[0].0 == k then [(k, v)] + d[1..]
    else
      assert k in KeySet(d) <==> k in KeySet(d[1..]) by {
        assert forall i :: 0 <= i < |d| - 1 ==> d[1..][i] == d[i + 1];
      }
      [d[0]] + Assign(d[1..], k, v)
  }

  /** After `d[k] = v`, `k` reads `v` and every other key reads as before. */
  lemma {:induction false} AssignLookup<V>(d: seq<(string, V)>, k: string, v: V, k': string)
    ensures Lookup(Assign(d, k, v), k') == if k' == k then Some(v) else Lookup(d, k')
  {
    if |d| > 0 && d[0].0 != k {
      AssignLookup(d[1..], k, v, k');
      assert Assign(d, k, v)[1..] == Assign(d[1..], k, v);
    }
  }

  /** Assignment adds exactly its key and keeps the keys unique. */
  lemma AssignKeys<V>(d: seq<(string, V)>, k: string, v: V)
    ensures KeySet(Assign(d, k, v)) == KeySet(d) + {k}
    ensures UniqueKeys(d) ==> UniqueKeys(Assign(d, k, v))
  {
    var r := Assign(d, k, v);
    forall k' ensures k' in KeySet(r) <==> k' in KeySet(d) + {k} {
      AssignLookup(d, k, v, k');
    }
    if UniqueKeys(d) && k in KeySet(d) {
      assert forall i :: 0 <= i < |d| ==> r[i].0 == d[i].0;
    }
  }
}

=== FILE: diff.dfy ===
/**
  Comparing two metadata snapshots: for every id indexed in either, which of
  nine fixed fields differ, and a readable before/after summary of each.
*/
module Diff {
  import opened Wrappers
  import opened Text
  import opened PyValue
  import opened Dicts
  import opened Entities
  import opened Graph

  /** The compared fields, in reporting order. */
  const FieldNames: seq<string> := [
    "name", "entity_type", "application_id", "application_name", "data_type",
    "is_security_block", "dimensions", "formula", "explicit_dependencies"]

  const FieldCount: nat := |FieldNames|

  /** `item.get(key)` on a normalized entity; an id missing from a snapshot reads `None` everywhere. */
  function Field(e: Option<Entity>, k: nat): (v: Value)
    requires k < FieldCount
    ensures e.None? ==> v == Null
  {
    match e
    case None => Null
    case Some(x) =>
      if k == 0 then x.name
      else if k == 1 then Str(x.entityType)
      else if k == 2 then x.applicationId
      else if k == 3 then x.applicationName
      else if k == 4 then x.dataType
      else if k == 5 then x.isSecurityBlock
      else if k == 6 then StrList(x.dimensions)
      else if k == 7 then x.formula
      else StrList(x.explicitDeps)
  }

  /** Python's `!=` on the field. */
  predicate Differs(b: Option<Entity>, a: Option<Entity>, k: nat)
    requires k < FieldCount
  {
    !PyEq(Field(b, k), Field(a, k))
  }

  /** For each field, whether it differs. */
  function DiffFlags(b: Option<Entity>, a: Option<Entity>): (f: seq<bool>)
    ensures |f| == FieldCount
    ensures forall k :: 0 <= k < FieldCount ==> f[k] == Differs(b, a, k)
  {
    seq(FieldCount, k requires 0 <= k < FieldCount => Differs(b, a, k))
  }

  /** The positions from `k` on whose flag is set, in order. */
  function SetPositions(f: seq<bool>, k: nat): (r: seq<nat>)
    requires k <= |f|
    ensures forall i :: 0 <= i < |r| ==> k <= r[i] < |f| && f[r[i]]
    ensures forall j :: k <= j < |f| && f[j] ==> j in r
    ensures forall i, j :: 0 <= i < j < |r| ==> r[i] < r[j]
    decreases |f| - k
  {
    if k == |f| then []
    else (if f[k] then [k] else []) + SetPositions(f, k + 1)
  }

  /** The positions of the differing fields, in the fixed field order. */
  function Changed(b: Option<Entity>, a: Option<Entity>): (r: seq<nat>)
    ensures forall i :: 0 <= i < |r| ==> r[i] < FieldCount && Differs(b, a, r[i])
    ensures forall j :: 0 <= j < FieldCount && Differs(b, a, j) ==> j in r
    ensures forall i, j :: 0 <= i < j < |r| ==> r[i] < r[j]
  {
    SetPositions(DiffFlags(b, a), 0)
  }

  function Names(ks: seq<nat>): (r: seq<string>)
    requires forall i :: 0 <= i < |ks| ==> ks[i] < FieldCount
    ensures |r| == |ks|
    ensures forall i :: 0 <= i < |ks| ==> r[i] == FieldNames[ks[i]]
  {
    seq(|ks|, i requires 0 <= i < |ks| => FieldNames[ks[i]])
  }

  /** One side of a summary: the value printed and cut to 120 characters, or "None". */
  function Side(v: Value): (r: string)
    ensures v == Null ==> r == "None"
    ensures v != Null ==> |r| <= 120 && r <= Render(v)
    ensures v != Null && |Render(v)| <= 120 ==> r == Render(v)
  {
    if v == Null then "None" else Truncate(Render(v), 120)
  }

  function SummaryPart(b: Option<Entity>, a: Option<Entity>, k: nat): string
    requires k < FieldCount
  {
    FieldNames[k] + ": " + Side(Field(b, k)) + " -> " + Side(Field(a, k))
  }

  function Summaries(b: Option<Entity>, a: Option<Entity>, ks: seq<nat>): (r: seq<string>)
    requires forall i :: 0 <= i < |ks| ==> ks[i] < FieldCount
    ensures |r| == |ks|
  {
    seq(|ks|, i requires 0 <= i < |ks| => SummaryPart(b, a, ks[i]))
  }

  datatype DiffContext = DiffContext(changedFields: map<string, string>, summary: map<string, string>)

  /** The ids indexed in either snapshot. */
  function AllIds(before: Context, after: Context): set<string> {
    KeySet(before.index) + KeySet(after.index)
  }

  /** The differing fields of one id between two snapshots. */
  function ChangedOf(before: Context, after: Context, id: string): seq<nat> {
    Changed(EntityOf(before, id), EntityOf(after, id))
  }

  /** The changed-field names of one id, joined by ",". */
  function FieldsText(before: Context, after: Context, id: string): string {
    Join(Names(ChangedOf(before, after, id)), ",")
  }

  /** The summaries of one id's changes, joined by "; ". */
  function SummaryText(before: Context, after: Context, id: string): string {
    var b, a := EntityOf(before, id), EntityOf(after, id);
    Join(Summaries(b, a, ChangedOf(before, after, id)), "; ")
  }

  /** The ids with at least one differing field. */
  function ChangedIds(before: Context, after: Context): set<string> {
    set id | id in AllIds(before, after) && |ChangedOf(before, after, id)| > 0
  }

  /** `build_diff_context`: empty unless both snapshots are present. */
  function BuildDiff(before: Option<Context>, after: Option<Context>): (r: DiffContext)
    ensures before.None? || after.None? ==> r == DiffContext(map[], map[])
    ensures r.changedFields.Keys == r.summary.Keys
  {
    if before.None? || after.None? then DiffContext(map[], map[])
    else
      var b, a := before.value, after.value;
      DiffContext(
        map id | id in ChangedIds(b, a) :: FieldsText(b, a, id),
        map id | id in ChangedIds(b, a) :: SummaryText(b, a, id))
  }

  /** An id absent from both snapshots has nothing that differs. */
  lemma NothingDiffersForStranger(before: Context, after: Context, id: string)
    requires id !in AllIds(before, after)
    ensures ChangedOf(before, after, id) == []
  {
    assert EntityOf(before, id).None? && EntityOf(after, id).None?;
    PyEqReflexive(Null);
    assert forall k :: 0 <= k < FieldCount ==> !Differs(None, None, k);
  }

  /** A set flag is collected. */
  lemma PositionFound(f: seq<bool>, k: nat)
    requires k < |f| && f[k]
    ensures |SetPositions(f, 0)| > 0
  {
    assert k in SetPositions(f, 0);
  }

  /** Some field differs exactly when the list of changed fields is not empty. */
  lemma ChangedNonEmpty(b: Option<Entity>, a: Option<Entity>)
    ensures |Changed(b, a)| > 0 <==> exists k :: 0 <= k < FieldCount && Differs(b, a, k)
  {
    var ks, f := Changed(b, a), DiffFlags(b, a);
    if |ks| > 0 {
      var k := ks[0];
      assert f[k];
      assert Differs(b, a, k);
    } else {
      forall k | 0 <= k < FieldCount ensures !Differs(b, a, k) {
        if f[k] { PositionFound(f, k); }
      }
    }
  }

  /**
    An id is reported exactly when at least one of the nine fields differs,
    and its changed fields are listed by name in the fixed order.
  */
  lemma DiffReportsChanges(before: Context, after: Context, id: string)
    ensures id in BuildDiff(Some(before), Some(after)).changedFields
        <==> exists k :: 0 <= k < FieldCount && Differs(EntityOf(before, id), EntityOf(after, id), k)
    ensures id in BuildDiff(Some(before), Some(after)).changedFields ==>
      BuildDiff(Some(before), Some(after)).changedFields[id] == Join(Names(ChangedOf(before, after, id)), ",")
  {
    ChangedNonEmpty(EntityOf(before, id), EntityOf(after, id));
    if id !in AllIds(before, after) {
      NothingDiffersForStranger(before, after, id);
    }
  }

  lemma FieldNameFree(k: nat)
    requires k < FieldCount
    ensures Free(FieldNames[k], ',')
  {
  }

  /** Splitting the changed-fields text on "," gives back the field names in order. */
  lemma ChangedFieldsRoundTrip(b: Option<Entity>, a: Option<Entity>)
    requires |Changed(b, a)| > 0
    ensures Split(Join(Names(Changed(b, a)), ","), ',') == Names(Changed(b, a))
  {
    var parts := Names(Changed(b, a));
    forall i | 0 <= i < |parts| ensures Free(parts[i], ',') {
      FieldNameFree(Changed(b, a)[i]);
    }
    SplitJoin(parts, ',');
  }

  /** Lists compare element by element, so reordering dimensions is a change. */
  lemma DimensionOrderMatters(e: Entity, x: string, y: string)
    requires x != y
    ensures Differs(Some(e.(dimensions := [x, y])), Some(e.(dimensions := [y, x])), 6)
  {
    var l := StrList([x, y]);
    var m := StrList([y, x]);
    assert l.items[0] == Str(x) && m.items[0] == Str(y);
    assert !PyEq(l.items[0], m.items[0]);
  }

  /** Dicts compare by key, so a formula dict with its entries reordered is no change. */
  lemma ReorderedFormulaUnchanged(e: Entity, es: seq<(string, Value)>, fs: seq<(string, Value)>)
    requires UniqueKeys(fs) && multiset(es) == multiset(fs)
    ensures !Differs(Some(e.(formula := Dict(es))), Some(e.(formula := Dict(fs))), 7)
  {
    PyEqPermutedDict(es, fs);
  }

  /** A field whose text is longer than 120 characters is cut in the summary. */
  lemma LongValueCut(v: Value)
    requires v != Null && |Render(v)| > 120
    ensures Side(v) == Render(v)[..120]
  {
  }
}

=== FILE: enrich.dfy ===
/**
  Enrichment: each event looks its entity id up in the metadata context and
  the snapshot diff, and is scored for risk from what it finds. Transitive
  dependent counts are remembered per id while the events are processed.
*/
module Enrich {
  import opened Wrappers
  import opened Text
  import opened PyValue
  import opened Payload
  import opened Classify
  import opened Risk
  import opened Events
  import opened Dicts
  import opened Counting
  import opened Entities
  import opened Graph
  import opened Blast
  import opened Diff
  import Selection

  /** An event with the columns enrichment adds. `entity` supplies the `meta_*` columns. */
  datatype Enriched = Enriched(
    event: Event,
    entity: Option<Entity>,
    depMethod: Option<string>,
    direct: Option<int>,
    transitive: Option<int>,
    boardsUsing: Option<int>,
    viewsUsing: Option<int>,
    diffChangedFields: Option<string>,
    diffSummary: Option<string>,
    riskScore: int,
    riskReasons: string)

  /** `d.get(k)`. */
  function MapGet<V>(m: map<string, V>, k: string): (r: Option<V>)
    ensures r.Some? <==> k in m
    ensures r.Some? ==> r.value == m[k]
  {
    if k in m then Some(m[k]) else None
  }

  function CountGet(m: map<string, nat>, k: string): Option<int> {
    if k in m then Some(m[k] as int) else None
  }

  /** The entity an id cell names; an empty or missing cell names none. */
  function LookupEntity(ctx: Context, c: Cell): (r: Option<Entity>)
    ensures !c.Text? ==> r.None?
    ensures c.Text? ==> r == EntityOf(ctx, c.text)
  {
    if c.Text? then EntityOf(ctx, c.text) else None
  }

  /** The number of direct dependents: `len(reverse_deps.get(id, []))`, `None` without an id. */
  function DirectCount(ctx: Context, c: Cell): (r: Option<int>)
    ensures !c.Text? ==> r.None?
    ensures c.Text? ==> r.Some? && r.value >= 0
  {
    if c.Text? then Some(|Dependents(ctx.reverse, c.text)|) else None
  }

  /** The number of transitive dependents within the default cap and depth, `None` without an id. */
  function TransitiveOf(meta: Option<Context>, c: Cell): (r: Option<int>)
    ensures meta.None? || !c.Text? ==> r.None?
  {
    if meta.Some? && c.Text? then Some(TransitiveCount(c.text, meta.value.reverse, MaxNodes, MaxDepth)) else None
  }

  /** The scorer's view of an enriched row. */
  function SignalsOf(entity: Option<Entity>, direct: Option<int>, transitive: Option<int>,
                     boards: Option<int>, views: Option<int>): Signals {
    Signals(
      if entity.Some? then entity.value.isSecurityBlock else Null,
      if entity.Some? then entity.value.dataType else Null,
      direct, transitive, boards, views)
  }

  /**
    One row of `enrich_with_metadata`, given its transitive count. Lookups by
    entity, direct and transitive counts skip rows without an entity id; the
    method, usage and diff lookups use the id as printed, so an empty cell
    looks up "nan" and a missing column looks up "None".
  */
  function EnrichWith(e: Event, meta: Option<Context>, diff: Option<DiffContext>, transitive: Option<int>): (r: Enriched)
    ensures r.event == e
    ensures 0 <= r.riskScore <= 100
    ensures meta.None? ==>
      r.entity.None? && r.depMethod.None? && r.direct.None? && r.boardsUsing.None? && r.viewsUsing.None?
    ensures diff.None? ==> r.diffChangedFields.None? && r.diffSummary.None?
  {
    var c := e.row.entityId;
    var key := CellStr(c);
    var entity := if meta.Some? then LookupEntity(meta.value, c) else None;
    var depMethod := if meta.Some? then
        (match MapGet(meta.value.methods, key) case Some(m) => Some(MethodLabel(m)) case None => None)
      else None;
    var direct := if meta.Some? then DirectCount(meta.value, c) else None;
    var boards := if meta.Some? then CountGet(meta.value.boardsUsing, key) else None;
    var views := if meta.Some? then CountGet(meta.value.viewsUsing, key) else None;
    var fields := if diff.Some? then MapGet(diff.value.changedFields, key) else None;
    var summary := if diff.Some? then MapGet(diff.value.summary, key) else None;
    var risk := ComputeRisk(EventTypeOf(e.row.eventType), e.severity,
                            SignalsOf(entity, direct, transitive, boards, views));
    Enriched(e, entity, depMethod, direct, transitive, boards, views, fields, summary, risk.0, risk.1)
  }

  /** One row of `enrich_with_metadata`, computing the transitive count afresh. */
  function EnrichOne(e: Event, meta: Option<Context>, diff: Option<DiffContext>): Enriched {
    EnrichWith(e, meta, diff, TransitiveOf(meta, e.row.entityId))
  }

  /** A memo of transitive counts: every remembered count is the one computed afresh. */
  ghost predicate CacheSound(cache: map<string, nat>, meta: Option<Context>) {
    forall k :: k in cache ==> meta.Some? && cache[k] == TransitiveCount(k, meta.value.reverse, MaxNodes, MaxDepth)
  }

  /** A row's transitive count, taken from the memo when it holds the id and remembered otherwise. */
  method CachedTransitive(c: Cell, meta: Option<Context>, cache: map<string, nat>)
    returns (t: Option<int>, cache': map<string, nat>)
    requires CacheSound(cache, meta)
    ensures t == TransitiveOf(meta, c)
    ensures CacheSound(cache', meta)
  {
    t, cache' := None, cache;
    if meta.Some? && c.Text? {
      if c.text in cache {
        t := Some(cache[c.text]);
      } else {
        var n: nat;
        ghost var reached: set<string>;
        n, reached := Blast.TransitiveDependents(c.text, meta.value.reverse, MaxNodes, MaxDepth);
        cache' := cache[c.text := n];
        t := Some(n);
      }
    }
  }

  /** The first rows of `out` are the enrichments of the first events. */
  ghost predicate RowsMatch(out: seq<Enriched>, events: seq<Event>, meta: Option<Context>, diff: Option<DiffContext>) {
    |out| <= |events| && forall j :: 0 <= j < |out| ==> out[j] == EnrichOne(events[j], meta, diff)
  }

  lemma RowsMatchExtend(out: seq<Enriched>, events: seq<Event>, meta: Option<Context>, diff: Option<DiffContext>, row: Enriched)
    requires RowsMatch(out, events, meta, diff) && |out| < |events|
    requires row == EnrichOne(events[|out|], meta, diff)
    ensures RowsMatch(out + [row], events, meta, diff)
  {
    var out' := out + [row];
    forall j | 0 <= j < |out'| ensures out'[j] == EnrichOne(events[j], meta, diff) {
      if j < |out| {
        assert out'[j] == out[j];
      }
    }
  }

  /**
    `enrich_with_metadata` over all rows, remembering each id's transitive
    count. The memo never changes a result: every row is what it would be
    with the count computed afresh.
  */
  method EnrichEvents(events: seq<Event>, meta: Option<Context>, diff: Option<DiffContext>)
    returns (out: seq<Enriched>)
    ensures |out| == |events|
    ensures forall i :: 0 <= i < |events| ==> out[i] == EnrichOne(events[i], meta, diff)
    ensures EnrichAsWritten(events, meta, diff).Some? ==> EnrichAsWritten(events, meta, diff).value == out
  {
    var cache: map<string, nat> := map[];
    out := [];
    for i := 0 to |events|
      invariant |out| == i
      invariant RowsMatch(out, events, meta, diff)
      invariant CacheSound(cache, meta)
    {
      var t;
      t, cache := CachedTransitive(events[i].row.entityId, meta, cache);
      var row := EnrichWith(events[i], meta, diff, t);
      RowsMatchExtend(out, events, meta, diff, row);
      out := out + [row];
    }
  }

  /**
    `enrich_with_metadata` as written. The risk columns come from a row-wise
    `apply` with `result_type="expand"`; on a table without rows that call
    hands back a copy of the table itself, which has no column `0`, so
    reading the score column fails. Any other table is enriched row by row.
  */
  function EnrichAsWritten(events: seq<Event>, meta: Option<Context>, diff: Option<DiffContext>)
    : (r: Option<seq<Enriched>>)
    ensures r.None? <==> |events| == 0
    ensures r.Some? ==> |r.value| == |events|
    ensures r.Some? ==> forall i :: 0 <= i < |events| ==> r.value[i] == EnrichOne(events[i], meta, diff)
  {
    if |events| == 0 then None
    else Some(seq(|events|, i requires 0 <= i < |events| => EnrichOne(events[i], meta, diff)))
  }

  /**
    Filters that keep no event leave an empty table, and enrichment as
    written then stops the run, whatever the metadata and the diff.
  */
  lemma EmptyTableCrashes(meta: Option<Context>, diff: Option<DiffContext>)
    ensures EnrichAsWritten([], meta, diff).None?
  {
  }

  /**
    A non-empty log of access events only, read with the default filters,
    filters down to nothing, and enrichment as written then stops the run.
  */
  lemma AccessOnlyLogCrashes(es: seq<Event>, o: Selection.Options, meta: Option<Context>, diff: Option<DiffContext>)
    requires |es| > 0 && forall i :: 0 <= i < |es| ==> es[i].category == Access
    requires !o.allEvents && !o.includeAccess
    ensures Selection.ApplyFilters(es, o) == []
    ensures EnrichAsWritten(Selection.ApplyFilters(es, o), meta, diff).None?
  {
    var r := Selection.ApplyFilters(es, o);
    if |r| > 0 {
      assert r[0] in r;
      var i :| 0 <= i < |es| && es[i] == r[0];
      Selection.CategoryGate(es[i], o);
      assert false;
    }
  }

  /**
    An entity whose security flag is the text "true" in any letter case, such
    as "TRUE", is scored as a security block: the enriched row's reasons carry
    "security_block".
  */
  lemma TextSecurityFlagScored(e: Event, ctx: Context, diff: Option<DiffContext>, item: Value, hint: string, s: string)
    requires LookupEntity(ctx, e.row.entityId) == NormalizeEntity(item, hint)
    requires NormalizeEntity(item, hint).Some?
    requires FirstPresent(item, SecurityKeys) == Str(s) && Lower(s) == "true"
    ensures "security_block" in Split(EnrichOne(e, Some(ctx), diff).riskReasons, ';')
  {
    SecurityFlagText(item, hint, s);
    var c := e.row.entityId;
    var key := CellStr(c);
    var sig := SignalsOf(LookupEntity(ctx, c), DirectCount(ctx, c), TransitiveOf(Some(ctx), c),
                         CountGet(ctx.boardsUsing, key), CountGet(ctx.viewsUsing, key));
    var et := EventTypeOf(e.row.eventType);
    assert EnrichOne(e, Some(ctx), diff).riskReasons == ComputeRisk(et, e.severity, sig).1;
    SecurityBlockTagged(et, e.severity, sig);
  }

  /** A row without an entity id gets no entity fields and no dependent counts. */
  lemma MissingEntityId(e: Event, meta: Option<Context>, diff: Option<DiffContext>)
    requires !e.row.entityId.Text?
    ensures var r := EnrichOne(e, meta, diff);
      r.entity.None? && r.direct.None? && r.transitive.None?
  {
  }

  /**
    With metadata built from `cs`, a row's direct-dependent count is the number
    of forward edges into its entity id; an id the index does not know has
    no entity fields and zero direct dependents.
  */
  lemma DirectIsInDegree(cs: Collections, e: Event, diff: Option<DiffContext>, x: string)
    requires e.row.entityId == Text(x)
    ensures EnrichOne(e, Some(BuildContext(cs)), diff).direct == Some(InDegree(BuildContext(cs).deps, x))
    ensures x !in KeySet(BuildContext(cs).index) ==>
      EnrichOne(e, Some(BuildContext(cs)), diff).entity.None? && EnrichOne(e, Some(BuildContext(cs)), diff).direct == Some(0)
  {
    ReverseIsInverse(cs, x);
  }

  /**
    The printed-id lookups see an empty entity-id cell as the text "nan": it
    finds the usage counts of an entity whose id is literally "nan", while
    the entity lookup finds nothing.
  */
  lemma EmptyIdReadsNan(e: Event, ctx: Context, diff: Option<DiffContext>)
    requires e.row.entityId == Nan && "nan" in ctx.boardsUsing
    ensures EnrichOne(e, Some(ctx), diff).boardsUsing == Some(ctx.boardsUsing["nan"] as int)
    ensures EnrichOne(e, Some(ctx), diff).entity.None?
  {
  }

  /** The transitive count of a row, whenever it is known, is at most the number of ids that are anyone's dependents. */
  lemma TransitiveBounded(e: Event, ctx: Context)
    requires e.row.entityId.Text?
    ensures EnrichOne(e, Some(ctx), None).transitive.Some?
    ensures EnrichOne(e, Some(ctx), None).transitive.value <= |Targets(ctx.reverse)|
  {
    var x := e.row.entityId.text;
    var visited := Bfs(ctx.reverse, [Visit(x, 0)], {}, MaxNodes, MaxDepth);
    SubsetCard(visited - {x}, Targets(ctx.reverse));
  }
}

=== FILE: entities.dfy ===
/**
  Metadata entities: collection names, the alias lookup over record keys,
  id lists, and the normalized entity record built from one metadata item.
*/
module Entities {
  import opened Wrappers
  import opened Text
  import opened PyValue

  // ---------------------------------------------------------------------------
  // Collection names
  // ---------------------------------------------------------------------------

  /** The canonical collection names. */
  const Canonical: set<string> :=
    {"applications", "blocks", "boards", "views", "orgs", "metrics", "lists", "dimensions", "tables"}

  /** `normalize_collection_name`: singular and plural aliases map to one canonical name. */
  function NormalizeCollectionName(name: string): (r: string)
    ensures forall i :: 0 <= i < |r| ==> !IsUpper(r[i])
    ensures r in Canonical || r == Lower(name)
  {
    var n := Lower(name);
    if n in {"app", "apps", "applications", "application"} then "applications"
    else if n in {"blocks", "block"} then "blocks"
    else if n in {"boards", "board"} then "boards"
    else if n in {"views", "view"} then "views"
    else if n in {"org", "orgs", "organization", "organizations"} then "orgs"
    else if n in {"metrics", "metric"} then "metrics"
    else if n in {"lists", "list"} then "lists"
    else if n in {"dimensions", "dimension"} then "dimensions"
    else if n in {"tables", "table"} then "tables"
    else n
  }

  lemma LowerOfLowered(s: string)
    requires forall i :: 0 <= i < |s| ==> !IsUpper(s[i])
    ensures Lower(s) == s
  {
  }

  /** Normalizing twice is normalizing once. */
  lemma NormalizeCollectionNameIdempotent(name: string)
    ensures NormalizeCollectionName(NormalizeCollectionName(name)) == NormalizeCollectionName(name)
  {
    LowerOfLowered(NormalizeCollectionName(name));
    LowerIdempotent(name);
  }

  /** Case does not matter. */
  lemma NormalizeCollectionNameCaseless(name: string)
    ensures NormalizeCollectionName(Lower(name)) == NormalizeCollectionName(name)
  {
    LowerIdempotent(name);
  }

  // ---------------------------------------------------------------------------
  // Alias lookup
  // ---------------------------------------------------------------------------

  /** A key is missing, or holds `None`. */
  predicate Unset(item: Value, key: string) {
    GetOrNull(item, key) == Null
  }

  /** `first_present`: the value of the first key, in priority order, that holds something other than `None`. */
  function FirstPresent(item: Value, keys: seq<string>): (r: Value)
    ensures r == Null <==> forall i :: 0 <= i < |keys| ==> Unset(item, keys[i])
    ensures r != Null ==> exists i :: 0 <= i < |keys| && GetOrNull(item, keys[i]) == r
                                   && forall j :: 0 <= j < i ==> Unset(item, keys[j])
  {
    if |keys| == 0 then Null
    else if !Unset(item, keys[0]) then GetOrNull(item, keys[0])
    else
      var r := FirstPresent(item, keys[1..]);
      assert forall i :: 0 <= i < |keys| - 1 ==> keys[1..][i] == keys[i + 1];
      assert r != Null ==> exists i :: 1 <= i < |keys| && GetOrNull(item, keys[i]) == r
                                     && forall j :: 0 <= j < i ==> Unset(item, keys[j]);
      r
  }

  // ---------------------------------------------------------------------------
  // Id lists
  // ---------------------------------------------------------------------------

  /** The keys under which a referenced record carries its id. */
  const RefIdKeys: seq<string> := ["id", "uuid", "entityId", "blockId", "viewId", "boardId"]

  /** What one list element contributes: a record's id, or the element printed. */
  function ElementIds(v: Value): (r: seq<string>)
    ensures |r| <= 1
  {
    if v.Dict? then
      var vid := FirstPresent(v, RefIdKeys);
      if Truthy(vid) then [Render(vid)] else []
    else [Render(v)]
  }

  function CollectIds(xs: seq<Value>): (r: seq<string>)
    ensures |r| <= |xs|
  {
    if |xs| == 0 then [] else ElementIds(xs[0]) + CollectIds(xs[1..])
  }

  /** `[x for x in out if x]`. */
  function NonEmpty(s: seq<string>): (r: seq<string>)
    ensures |r| <= |s|
    ensures forall i :: 0 <= i < |r| ==> |r[i]| > 0 && r[i] in s
    ensures forall x :: x in s && |x| > 0 ==> x in r
  {
    if |s| == 0 then [] else (if |s[0]| > 0 then [s[0]] else []) + NonEmpty(s[1..])
  }

  /**
    `normalize_list_of_ids`: `None` is no ids; a list yields the non-empty ids
    of its elements; a record yields its id if it has one; any other value is
    one id, printed.
  */
  function NormalizeListOfIds(v: Value): (r: seq<string>)
    ensures v == Null ==> r == []
    ensures v.List? ==> |r| <= |v.items| && forall i :: 0 <= i < |r| ==> |r[i]| > 0
    ensures v.Dict? ==> |r| <= 1 && forall i :: 0 <= i < |r| ==> |r[i]| > 0
    ensures v.Dict? && Truthy(FirstPresent(v, RefIdKeys)) ==> r == [Render(FirstPresent(v, RefIdKeys))]
    ensures v.Dict? && !Truthy(FirstPresent(v, RefIdKeys)) ==> r == []
    ensures !(v.Null? || v.List? || v.Dict?) ==> r == [Render(v)]
  {
    match v
    case Null => []
    case List(xs) => NonEmpty(CollectIds(xs))
    case Dict(_) =>
      var vid := FirstPresent(v, RefIdKeys);
      if Truthy(vid) then TruthyRendersNonEmpty(vid); [Render(vid)] else []
    case _ => [Render(v)]
  }

  lemma {:induction false} NonEmptyConcat(s: seq<string>, t: seq<string>)
    ensures NonEmpty(s + t) == NonEmpty(s) + NonEmpty(t)
    decreases |s|
  {
    if |s| == 0 {
      assert s + t == t;
    } else {
      var st := s + t;
      assert st[0] == s[0] && st[1..] == s[1..] + t;
      var h: seq<string> := if |s[0]| > 0 then [s[0]] else [];
      NonEmptyConcat(s[1..], t);
      assert NonEmpty(st) == h + NonEmpty(s[1..] + t);
      assert NonEmpty(s) == h + NonEmpty(s[1..]);
      IdsAssoc(h, NonEmpty(s[1..]), NonEmpty(t));
    }
  }

  lemma IdsAssoc(a: seq<string>, b: seq<string>, c: seq<string>)
    ensures a + (b + c) == (a + b) + c
  {
  }

  lemma {:induction false} CollectIdsConcat(xs: seq<Value>, ys: seq<Value>)
    ensures CollectIds(xs + ys) == CollectIds(xs) + CollectIds(ys)
    decreases |xs|
  {
    if |xs| == 0 {
      assert xs + ys == ys;
    } else {
      assert (xs + ys)[0] == xs[0] && (xs + ys)[1..] == xs[1..] + ys;
      CollectIdsConcat(xs[1..], ys);
    }
  }

  /** A list's ids are those of its two halves, in order. */
  lemma NormalizeListConcat(xs: seq<Value>, ys: seq<Value>)
    ensures NormalizeListOfIds(List(xs + ys)) == NormalizeListOfIds(List(xs)) + NormalizeListOfIds(List(ys))
  {
    CollectIdsConcat(xs, ys);
    NonEmptyConcat(CollectIds(xs), CollectIds(ys));
  }

  /**
    A one-element list contributes what the element would on its own if it
    is a record, and otherwise the element printed, when that is not empty.
  */
  lemma NormalizeListSingle(x: Value)
    ensures NormalizeListOfIds(List([x])) ==
      if x.Dict? then NormalizeListOfIds(x) else NonEmpty([Render(x)])
  {
    assert CollectIds([x]) == ElementIds(x) + CollectIds([]);
    if x.Dict? && Truthy(FirstPresent(x, RefIdKeys)) {
      TruthyRendersNonEmpty(FirstPresent(x, RefIdKeys));
    }
  }

  /** Inside a list, `None` is printed and kept. */
  lemma NoneElementKept()
    ensures NormalizeListOfIds(List([Null])) == ["None"]
  {
    NormalizeListSingle(Null);
  }

  /** Inside a list, a record without a truthy id is dropped. */
  lemma IdlessRecordDropped(rec: Value)
    requires rec.Dict? && !Truthy(FirstPresent(rec, RefIdKeys))
    ensures NormalizeListOfIds(List([rec])) == []
  {
    NormalizeListSingle(rec);
  }

  lemma ThreeElements(x: Value, y: Value, z: Value)
    ensures NormalizeListOfIds(List([x, y, z])) ==
      NormalizeListOfIds(List([x])) + NormalizeListOfIds(List([y])) + NormalizeListOfIds(List([z]))
  {
    var xs, ys := [x], [y, z];
    assert xs + ys == [x, y, z];
    NormalizeListConcat(xs, ys);
    TwoElements(y, z);
    IdsAssoc(NormalizeListOfIds(List([x])), NormalizeListOfIds(List([y])), NormalizeListOfIds(List([z])));
  }

  lemma TwoElements(x: Value, y: Value)
    ensures NormalizeListOfIds(List([x, y])) == NormalizeListOfIds(List([x])) + NormalizeListOfIds(List([y]))
  {
    var xs, ys := [x], [y];
    assert xs + ys == [x, y];
    NormalizeListConcat(xs, ys);
  }

  /**
    A mixed list: `None` is kept as "None", a record without a truthy id is
    dropped and a number is printed.
  */
  lemma MixedListElements(rec: Value, n: int)
    requires rec.Dict? && !Truthy(FirstPresent(rec, RefIdKeys))
    ensures NormalizeListOfIds(List([Null, rec, Int(n)])) == ["None", IntToString(n)]
  {
    var a, b, c := NormalizeListOfIds(List([Null])), NormalizeListOfIds(List([rec])), NormalizeListOfIds(List([Int(n)]));
    ThreeElements(Null, rec, Int(n));
    NoneElementKept();
    IdlessRecordDropped(rec);
    var printed := Render(Int(n));
    assert printed == IntToString(n);
    NormalizeListSingle(Int(n));
    NonEmptySingle(printed);
    JoinPieces(a, b, c, "None", printed);
  }

  lemma NonEmptySingle(s: string)
    requires |s| > 0
    ensures NonEmpty([s]) == [s]
  {
    assert [s][1..] == [];
  }

  lemma JoinPieces(a: seq<string>, b: seq<string>, c: seq<string>, x: string, y: string)
    requires a == [x] && b == [] && c == [y]
    ensures a + b + c == [x, y]
  {
  }

  /** A list of ids, as JSON would give it. */
  function StrList(ids: seq<string>): (v: Value)
    ensures v.List? && |v.items| == |ids|
  {
    List(seq(|ids|, i requires 0 <= i < |ids| => Str(ids[i])))
  }

  /** A list of `{"id": …}` records. */
  function RefList(ids: seq<string>): (v: Value)
    ensures v.List? && |v.items| == |ids|
  {
    List(seq(|ids|, i requires 0 <= i < |ids| => Dict([("id", Str(ids[i]))])))
  }

  lemma {:induction false} NonEmptyOfNonEmpty(s: seq<string>)
    requires forall i :: 0 <= i < |s| ==> |s[i]| > 0
    ensures NonEmpty(s) == s
  {
    if |s| > 0 {
      NonEmptyOfNonEmpty(s[1..]);
    }
  }

  lemma {:induction false} CollectStrs(ids: seq<string>)
    ensures CollectIds(StrList(ids).items) == ids
  {
    if |ids| > 0 {
      assert StrList(ids).items[1..] == StrList(ids[1..]).items;
      CollectStrs(ids[1..]);
    }
  }

  lemma {:induction false} CollectRefs(ids: seq<string>)
    requires forall i :: 0 <= i < |ids| ==> |ids[i]| > 0
    ensures CollectIds(RefList(ids).items) == ids
  {
    if |ids| > 0 {
      var d := RefList(ids).items[0];
      assert d == Dict([("id", Str(ids[0]))]);
      assert GetOrNull(d, "id") == Str(ids[0]);
      assert FirstPresent(d, RefIdKeys) == Str(ids[0]);
      assert RefList(ids).items[1..] == RefList(ids[1..]).items;
      CollectRefs(ids[1..]);
    }
  }

  /** A list of non-empty id strings reads back as itself. */
  lemma IdListRoundTrip(ids: seq<string>)
    requires forall i :: 0 <= i < |ids| ==> |ids[i]| > 0
    ensures NormalizeListOfIds(StrList(ids)) == ids
  {
    CollectStrs(ids);
    NonEmptyOfNonEmpty(ids);
  }

  /** A list of `{"id": …}` records reads back as their ids. */
  lemma RefListRoundTrip(ids: seq<string>)
    requires forall i :: 0 <= i < |ids| ==> |ids[i]| > 0
    ensures NormalizeListOfIds(RefList(ids)) == ids
  {
    CollectRefs(ids);
    NonEmptyOfNonEmpty(ids);
  }

  // ---------------------------------------------------------------------------
  // Entities
  // ---------------------------------------------------------------------------

  /** A normalized metadata entity (the fields the inspector reads). */
  datatype Entity = Entity(
    id: string,
    name: Value,
    entityType: string,
    applicationId: Value,
    applicationName: Value,
    dataType: Value,
    isSecurityBlock: Value,
    dimensions: seq<string>,
    formula: Value,
    explicitDeps: seq<string>)

  const EntityIdKeys: seq<string> :=
    ["id", "uuid", "uid", "entityId", "blockId", "viewId", "boardId", "metricId", "listId"]
  const NameKeys: seq<string> := ["name", "friendlyName", "title", "displayName"]
  const TypeKeys: seq<string> := ["entityType", "blockType", "type"]
  const AppIdKeys: seq<string> := ["applicationId", "application_id", "appId", "app_id"]
  const AppNameKeys: seq<string> := ["applicationName", "application_name"]
  const SecurityKeys: seq<string> := ["isSecurityBlock", "isSecurity", "securityBlock"]
  const DimensionKeys: seq<string> :=
    ["dimensions", "dimensionIds", "dimension_ids", "listDimensions", "dimensionListIds"]
  const FormulaKeys: seq<string> := ["formula", "expression", "rawFormula", "formulaString"]
  const DependencyKeys: seq<string> :=
    ["referencedBlocks", "referencedBlockIds", "dependencies", "dependencyIds", "blockDependencies"]
  const DataTypeKeys: seq<string> := ["dataType", "blockDataType"]

  /** Value-type names that a type field may carry instead of an entity type. */
  const ValueTypeNames: set<string> := {"number", "currency", "text", "date", "boolean", "percentage"}

  /** A raw type string that names a data type rather than an entity type. */
  predicate IsDataTypeName(t: string) {
    StartsWith(t, "BlockDataType_") || Lower(t) in ValueTypeNames
  }

  /** A type field naming a data type is never empty, so it is truthy. */
  lemma DataTypeNameNonEmpty(raw: Value)
    ensures raw.Str? && IsDataTypeName(raw.s) ==> |raw.s| > 0
  {
    if raw.Str? && !StartsWith(raw.s, "BlockDataType_") { assert |Lower(raw.s)| == |raw.s|; }
  }

  /** The entity type a collection implies: `hint.rstrip("s").capitalize()`. */
  function HintType(hint: string): string {
    Capitalize(RStripChar(hint, 's'))
  }

  /** A security flag given as text is true exactly when it reads "true" in any case. */
  function SecurityFlag(v: Value): Value {
    if v.Str? then Bool(Lower(v.s) == "true") else v
  }

  /**
    The entity type: the item's own type when that is a non-empty string not
    naming a data type, and otherwise the type the collection implies.
  */
  function EntityTypeOf(item: Value, hint: string): string {
    var raw := FirstPresent(item, TypeKeys);
    if raw.Str? && !IsDataTypeName(raw.s) && |raw.s| > 0 then raw.s else HintType(hint)
  }

  /**
    The data type: a type field naming a data type wins; otherwise the
    data-type keys are consulted.
  */
  function DataTypeOf(item: Value): Value {
    var raw := FirstPresent(item, TypeKeys);
    var fromType := if raw.Str? && IsDataTypeName(raw.s) then raw else Null;
    DataTypeNameNonEmpty(raw);
    if Truthy(fromType) then fromType else FirstPresent(item, DataTypeKeys)
  }

  /** `normalize_entity`: `None` for an item without a usable id. */
  function NormalizeEntity(item: Value, hint: string): (r: Option<Entity>)
    ensures r.None? <==> !Truthy(FirstPresent(item, EntityIdKeys))
    ensures r.Some? ==> r.value.id == Render(FirstPresent(item, EntityIdKeys)) && |r.value.id| > 0
  {
    var entityId := FirstPresent(item, EntityIdKeys);
    if !Truthy(entityId) then None
    else
      TruthyRendersNonEmpty(entityId);
      var app := GetOrNull(item, "application");
      var appId := FirstPresent(item, AppIdKeys);
      var appName := FirstPresent(item, AppNameKeys);
      Some(Entity(
        Render(entityId),
        FirstPresent(item, NameKeys),
        EntityTypeOf(item, hint),
        if app.Dict? then Or(appId, GetOrNull(app, "id")) else appId,
        if app.Dict? then Or(appName, GetOrNull(app, "name")) else appName,
        DataTypeOf(item),
        SecurityFlag(FirstPresent(item, SecurityKeys)),
        NormalizeListOfIds(FirstPresent(item, DimensionKeys)),
        FirstPresent(item, FormulaKeys),
        NormalizeListOfIds(FirstPresent(item, DependencyKeys))))
  }

  /** The type and flag fields of a normalised entity, one helper each. */
  lemma TypeFields(item: Value, hint: string)
    requires NormalizeEntity(item, hint).Some?
    ensures NormalizeEntity(item, hint).value.entityType == EntityTypeOf(item, hint)
    ensures NormalizeEntity(item, hint).value.dataType == DataTypeOf(item)
    ensures NormalizeEntity(item, hint).value.isSecurityBlock == SecurityFlag(FirstPresent(item, SecurityKeys))
  {
  }

  /**
    A type field naming a data type (a `BlockDataType_` name, or a value-type
    name in any letter case) is the entity's data type, and its entity type
    is the one the collection implies.
  */
  lemma DataTypeFromTypeField(item: Value, hint: string)
    requires NormalizeEntity(item, hint).Some?
    requires FirstPresent(item, TypeKeys).Str?
    requires StartsWith(FirstPresent(item, TypeKeys).s, "BlockDataType_") || Lower(FirstPresent(item, TypeKeys).s) in ValueTypeNames
    ensures NormalizeEntity(item, hint).value.dataType == FirstPresent(item, TypeKeys)
    ensures NormalizeEntity(item, hint).value.entityType == HintType(hint)
  {
    TypeFields(item, hint);
    DataTypeNameNonEmpty(FirstPresent(item, TypeKeys));
  }

  /**
    Any other non-empty type string is the entity type, and the data type is
    read from the data-type keys.
  */
  lemma EntityTypeFromTypeField(item: Value, hint: string)
    requires NormalizeEntity(item, hint).Some?
    requires FirstPresent(item, TypeKeys).Str? && |FirstPresent(item, TypeKeys).s| > 0
    requires !StartsWith(FirstPresent(item, TypeKeys).s, "BlockDataType_") && Lower(FirstPresent(item, TypeKeys).s) !in ValueTypeNames
    ensures NormalizeEntity(item, hint).value.entityType == FirstPresent(item, TypeKeys).s
    ensures NormalizeEntity(item, hint).value.dataType == FirstPresent(item, DataTypeKeys)
  {
    TypeFields(item, hint);
  }

  /**
    Without a type string, or with an empty one, the collection decides the
    entity type and the data type is read from the data-type keys.
  */
  lemma UntypedItemUsesHint(item: Value, hint: string)
    requires NormalizeEntity(item, hint).Some?
    requires !FirstPresent(item, TypeKeys).Str? || FirstPresent(item, TypeKeys).s == ""
    ensures NormalizeEntity(item, hint).value.entityType == HintType(hint)
    ensures NormalizeEntity(item, hint).value.dataType == FirstPresent(item, DataTypeKeys)
  {
    TypeFields(item, hint);
  }

  /** A security flag written as text is true exactly when it reads "true" in some letter case. */
  lemma SecurityFlagText(item: Value, hint: string, s: string)
    requires NormalizeEntity(item, hint).Some?
    requires FirstPresent(item, SecurityKeys) == Str(s)
    ensures NormalizeEntity(item, hint).value.isSecurityBlock == Bool(true) <==> Lower(s) == "true"
    ensures NormalizeEntity(item, hint).value.isSecurityBlock.Bool?
  {
    TypeFields(item, hint);
  }

  /** A security flag that is not text is kept as it is. */
  lemma SecurityFlagKept(item: Value, hint: string)
    requires NormalizeEntity(item, hint).Some?
    requires !FirstPresent(item, SecurityKeys).Str?
    ensures NormalizeEntity(item, hint).value.isSecurityBlock == FirstPresent(item, SecurityKeys)
  {
    TypeFields(item, hint);
  }

  /** "TRUE", "True" and "tRuE" all read as "true". */
  lemma TrueInAnyCase()
    ensures Lower("TRUE") == "true" && Lower("True") == "true" && Lower("tRuE") == "true"
  {
  }

  /** Items of the "views" collection without a type of their own are views. */
  lemma ViewsHint()
    ensures HintType("views") == "View"
  {
    assert RStripChar("views", 's') == "view";
  }

  /** The application record fills the application fields the item lacks. */
  lemma ApplicationFallback(item: Value, hint: string)
    requires NormalizeEntity(item, hint).Some?
    requires GetOrNull(item, "application").Dict?
    requires forall i :: 0 <= i < |AppIdKeys| ==> Unset(item, AppIdKeys[i])
    ensures NormalizeEntity(item, hint).value.applicationId == GetOrNull(GetOrNull(item, "application"), "id")
  {
  }
}

=== FILE: events.dfy ===
/**
  Turning audit-log rows into events: event ids (with synthesized ids for
  rows that have none), row numbers, the parsed payload and its projection,
  the actor label, the application columns and the classification.
*/
module Events {
  import opened Wrappers
  import opened Text
  import opened PyValue
  import opened Payload
  import opened Classify

  /**
    One audit-log row. Every column is a cell; `timestamp` is the row's
    instant once parsed (`None` when the cell is missing or unparseable).
  */
  datatype RawRow = RawRow(
    eventId: Cell,
    timestamp: Option<int>,
    eventType: Cell,
    payloadJson: Cell,
    actorType: Cell,
    entityApplicationId: Cell,
    entityApplicationName: Cell,
    entityId: Cell,
    entityName: Cell,
    entityType: Cell,
    userEmail: Cell,
    organizationName: Cell)

  /** A processed row. */
  datatype Event = Event(
    id: string,
    rowNum: nat,
    ts: Option<int>,
    row: RawRow,
    payloadParseError: bool,
    flat: FlatPayload,
    actor: ActorKind,
    applicationId: Value,
    applicationName: Value,
    category: Category,
    isChange: bool,
    severity: Severity)

  const MissingPrefix: string := "missing:"

  /** The id given to row `rowNum` when it has none of its own. */
  function MissingId(rowNum: nat): string {
    MissingPrefix + NatToString(rowNum)
  }

  /** Blank, or reads "nan" in any case. */
  predicate NoId(s: string) {
    IsBlank(s) || Lower(s) == "nan"
  }

  /**
    The event id as the row processing computes it: the column is turned into
    text first (so a missing column reads "None"), and blank or "nan" text is
    replaced by a synthesized id.
  */
  function EventIdAsWritten(c: Cell, rowNum: nat): (r: string)
    ensures NoId(CellStr(c)) ==> r == MissingId(rowNum)
    ensures !NoId(CellStr(c)) ==> r == CellStr(c)
  {
    var s := CellStr(c);
    if NoId(s) then MissingId(rowNum) else s
  }

  /** The event id, with a missing column treated like a missing cell. */
  function EventId(c: Cell, rowNum: nat): (r: string)
    ensures !c.Text? || NoId(c.text) ==> r == MissingId(rowNum)
    ensures c.Text? && !NoId(c.text) ==> r == c.text
  {
    if c.Text? && !NoId(c.text) then c.text else MissingId(rowNum)
  }

  /** The two agree on every row that has an event-id column. */
  lemma EventIdAgrees(c: Cell, rowNum: nat)
    requires !c.Absent?
    ensures EventId(c, rowNum) == EventIdAsWritten(c, rowNum)
  {
    if c.Nan? {
      assert Lower("nan") == "nan";
    }
  }

  lemma MissingIdInjective(m: nat, n: nat)
    requires MissingId(m) == MissingId(n)
    ensures m == n
  {
    assert NatToString(m) == MissingId(m)[|MissingPrefix|..];
    assert NatToString(n) == MissingId(n)[|MissingPrefix|..];
    NatToStringInjective(m, n);
  }

  /** Rows without an id of their own get pairwise distinct ids. */
  lemma MissingIdsDistinct(c: Cell, d: Cell, m: nat, n: nat)
    requires !c.Text? || NoId(c.text)
    requires !d.Text? || NoId(d.text)
    requires m != n
    ensures EventId(c, m) != EventId(d, n)
  {
    if EventId(c, m) == EventId(d, n) {
      MissingIdInjective(m, n);
    }
  }

  /**
    A field the reader takes for NA ("NULL", "N/A", "None", ...) gets a
    synthesized id, as an empty one does, both as written and in the model.
  */
  lemma NaMarkerGetsMissingId(s: string, rowNum: nat)
    requires s in NaMarkers
    ensures EventId(ReadCell(Some(s)), rowNum) == MissingId(rowNum)
    ensures EventIdAsWritten(ReadCell(Some(s)), rowNum) == MissingId(rowNum)
  {
    assert Lower("nan") == "nan";
  }

  lemma NoneIsAnId()
    ensures !NoId("None")
  {
    assert Lower("None") == "none";
    assert !IsBlank("None") by { assert !IsSpace("None"[0]); }
  }

  /** As written, two rows of a file without an event-id column share the id "None". */
  lemma AbsentIdColumnCollides(m: nat, n: nat)
    ensures EventIdAsWritten(Absent, m) == "None" == EventIdAsWritten(Absent, n)
  {
    NoneIsAnId();
  }

  /**
    The event type handed to the classifiers. A missing column gives `None`.
    An empty cell is read as NaN, which the classifiers cannot lower-case;
    it is treated like a missing type here.
  */
  function EventTypeOf(c: Cell): (r: Option<string>)
    ensures r.Some? <==> c.Text?
    ensures c.Text? ==> r == Some(c.text)
  {
    if c.Text? then Some(c.text) else None
  }

  /** The classification of an event-type cell as the code runs it; `None` is a crash. */
  function ClassifyAsWritten(c: Cell): (r: Option<(Category, bool, Severity)>)
    ensures r.None? <==> c.Nan?
  {
    if c.Nan? then None
    else
      var t := if c.Text? then Some(c.text) else None;
      Some((Categorize(t), IsChange(t), BaseSeverity(t)))
  }

  /** The classification used by the rest of the model. */
  function Classification(c: Cell): (r: (Category, bool, Severity))
    ensures !c.Text? ==> r == (Other, false, Low)
    ensures r.0 == Change ==> r.1
  {
    var t := EventTypeOf(c);
    ChangeCategoryIsChangeIf(t);
    (Categorize(t), IsChange(t), BaseSeverity(t))
  }

  /** An empty event-type cell stops the run as written; the model classifies it as untyped. */
  lemma EmptyEventTypeCrashes()
    ensures ClassifyAsWritten(Nan).None?
    ensures Classification(Nan) == (Other, false, Low)
  {
  }

  /** Wherever the code does not crash, the model classifies alike. */
  lemma ClassificationAgrees(c: Cell)
    requires ClassifyAsWritten(c).Some?
    ensures ClassifyAsWritten(c).value == Classification(c)
  {
  }

  /** `fillna`: a payload value, or the row's column when the payload has none. */
  function FillFrom(payloadValue: Value, column: Cell): Value {
    if payloadValue == Null then CellValue(column) else payloadValue
  }

  /** `process_chunk` on one row. */
  function ProcessRow(row: RawRow, rowNum: nat, decode: string -> Option<Value>): (e: Event)
    ensures e.rowNum == rowNum && e.row == row && e.ts == row.timestamp
    ensures e.id == EventId(row.eventId, rowNum)
    ensures (e.category, e.isChange, e.severity) == Classification(row.eventType)
  {
    var (payload, err) := ParsePayload(row.payloadJson, decode);
    var flat := FlattenPayload(payload);
    var t := EventTypeOf(row.eventType);
    Event(
      EventId(row.eventId, rowNum),
      rowNum,
      row.timestamp,
      row,
      err,
      flat,
      NormalizeActor(row.actorType),
      FillFrom(flat.entityApplicationId, row.entityApplicationId),
      FillFrom(flat.entityApplicationName, row.entityApplicationName),
      Categorize(t),
      IsChange(t),
      BaseSeverity(t))
  }

  /**
    A payload naming the entity's application overrides the row's own
    application columns, whatever they hold.
  */
  lemma PayloadApplicationWins(row: RawRow, rowNum: nat, decode: string -> Option<Value>,
                               payload: Value, entity: Value, app: Value, id: Value, name: Value)
    requires row.payloadJson.Text? && !IsBlank(row.payloadJson.text)
    requires decode(Strip(row.payloadJson.text)) == Some(payload)
    requires Get(payload, "entity") == Some(entity) && Get(entity, "application") == Some(app)
    requires Get(app, "id") == Some(id) && Get(app, "name") == Some(name)
    requires id != Null && name != Null
    ensures ProcessRow(row, rowNum, decode).applicationId == id
    ensures ProcessRow(row, rowNum, decode).applicationName == name
  {
    PathStep(payload, entity, app, "id", id);
    PathStep(payload, entity, app, "name", name);
  }

  /** Walks `entity`, `application`, `key` through the three nested dicts. */
  lemma PathStep(payload: Value, entity: Value, app: Value, key: string, v: Value)
    requires Get(payload, "entity") == Some(entity) && Get(entity, "application") == Some(app)
    requires Get(app, key) == Some(v)
    ensures GetNested(payload, ["entity", "application", key]) == v
  {
    var path := ["entity", "application", key];
    assert path[1..] == ["application", key] && path[1..][1..] == [key] && [key][1..] == [];
    assert GetNested(app, [key]) == GetNested(v, []) == v;
    assert GetNested(entity, ["application", key]) == GetNested(app, [key]);
    assert GetNested(payload, path) == GetNested(entity, ["application", key]);
  }

  /** Without a payload blob the application fields are the row's own columns. */
  lemma BlankPayloadUsesColumns(row: RawRow, rowNum: nat, decode: string -> Option<Value>)
    requires !row.payloadJson.Text? || IsBlank(row.payloadJson.text)
    ensures ProcessRow(row, rowNum, decode).applicationId == CellValue(row.entityApplicationId)
    ensures ProcessRow(row, rowNum, decode).applicationName == CellValue(row.entityApplicationName)
  {
    assert GetNested(Dict([]), ["entity", "application", "id"]) == Null;
    assert GetNested(Dict([]), ["entity", "application", "name"]) == Null;
  }

  /** Applies a per-row step to rows numbered from `offset`. */
  function NumberedMap<R, E>(rows: seq<R>, offset: nat, step: (R, nat) -> E): (es: seq<E>)
    ensures |es| == |rows|
  {
    seq(|rows|, i requires 0 <= i < |rows| => step(rows[i], offset + i))
  }

  /** Row `i` goes through the step under number `offset + i`. */
  lemma NumberedMapAt<R, E>(rows: seq<R>, offset: nat, step: (R, nat) -> E)
    ensures forall i :: 0 <= i < |rows| ==> NumberedMap(rows, offset, step)[i] == step(rows[i], offset + i)
  {
  }

  /** Mapping in two pieces, numbering the second after the first, is mapping at once. */
  lemma NumberedMapSplit<R, E>(a: seq<R>, b: seq<R>, offset: nat, step: (R, nat) -> E)
    ensures NumberedMap(a + b, offset, step) == NumberedMap(a, offset, step) + NumberedMap(b, offset + |a|, step)
  {
    var whole := NumberedMap(a + b, offset, step);
    var parts := NumberedMap(a, offset, step) + NumberedMap(b, offset + |a|, step);
    NumberedMapAt(a + b, offset, step);
    NumberedMapAt(a, offset, step);
    NumberedMapAt(b, offset + |a|, step);
    forall i | 0 <= i < |whole| ensures whole[i] == parts[i] {
      if i >= |a| {
        assert (a + b)[i] == b[i - |a|];
        assert offset + i == offset + |a| + (i - |a|);
      }
    }
  }

  /** The row step of `process_chunk` for a given JSON decoder. */
  function RowStep(decode: string -> Option<Value>): (RawRow, nat) -> Event {
    (row: RawRow, n: nat) => ProcessRow(row, n, decode)
  }

  /** `process_chunk`: rows numbered from `offset`. */
  function ProcessChunk(rows: seq<RawRow>, offset: nat, decode: string -> Option<Value>): (es: seq<Event>)
    ensures |es| == |rows|
    ensures forall i :: 0 <= i < |rows| ==> es[i].rowNum == offset + i && es[i].row == rows[i]
    ensures forall i :: 0 <= i < |rows| ==> es[i] == ProcessRow(rows[i], offset + i, decode)
  {
    NumberedMapAt(rows, offset, RowStep(decode));
    NumberedMap(rows, offset, RowStep(decode))
  }

  /** Processing in two chunks, numbering the second after the first, is processing at once. */
  lemma ProcessChunkSplit(a: seq<RawRow>, b: seq<RawRow>, offset: nat, decode: string -> Option<Value>)
    ensures ProcessChunk(a + b, offset, decode)
         == ProcessChunk(a, offset, decode) + ProcessChunk(b, offset + |a|, decode)
  {
    NumberedMapSplit(a, b, offset, RowStep(decode));
  }

  /** Every event of a chunk carries its own row number, so no two events coincide. */
  lemma ProcessChunkDistinct(rows: seq<RawRow>, offset: nat, decode: string -> Option<Value>, i: int, j: int)
    requires 0 <= i < j < |rows|
    ensures ProcessChunk(rows, offset, decode)[i] != ProcessChunk(rows, offset, decode)[j]
  {
  }
}

=== FILE: graph.dfy ===
/**
  The metadata context: the entity index, the forward dependency edges of
  each entity (explicit references first, else UUIDs scanned from its
  formula), the reverse-dependency index, the view-to-underlying map, and
  how many views and board blocks use each id.
*/
module Graph {
  import opened Wrappers
  import opened Text
  import opened PyValue
  import opened Entities
  import opened Uuid
  import opened Dicts
  import opened Counting

  /** The loaded collections: name and items, in load order. */
  type Collections = seq<(string, seq<Value>)>

  /** Every item paired with its collection's normalized name, in iteration order. */
  function Tagged(cs: Collections): (r: seq<(string, Value)>)
  {
    if |cs| == 0 then []
    else
      var hint := NormalizeCollectionName(cs[0].0);
      var items := cs[0].1;
      seq(|items|, i requires 0 <= i < |items| => (hint, items[i])) + Tagged(cs[1..])
  }

  /** The entity an item normalizes to: records with an id only. */
  function EntryOf(t: (string, Value)): Option<Entity> {
    if t.1.Dict? then NormalizeEntity(t.1, t.0) else None
  }

  predicate IsViewEntry(e: Entity, hint: string) {
    Lower(e.entityType) == "view" || hint == "views"
  }

  predicate IsBoardEntry(e: Entity, hint: string) {
    Lower(e.entityType) == "board" || hint == "boards"
  }

  /** The first pass: the index, and the raw items of views and of boards. */
  datatype Scan = Scan(index: seq<(string, Entity)>, views: seq<(string, Value)>, boards: seq<(string, Value)>)

  function ScanItems(ts: seq<(string, Value)>): Scan {
    if |ts| == 0 then Scan([], [], [])
    else
      var acc := ScanItems(ts[..|ts| - 1]);
      var (hint, item) := ts[|ts| - 1];
      match EntryOf(ts[|ts| - 1])
      case None => acc
      case Some(e) =>
        Scan(
          Assign(acc.index, e.id, e),
          acc.views + (if IsViewEntry(e, hint) then [(e.id, item)] else []),
          acc.boards + (if IsBoardEntry(e, hint) then [(e.id, item)] else []))
  }

  /** Reference definition: the entity of the last item that carries id `k`. */
  function LastWithId(ts: seq<(string, Value)>, k: string): Option<Entity> {
    if |ts| == 0 then None
    else match EntryOf(ts[|ts| - 1])
      case Some(e) => if e.id == k then Some(e) else LastWithId(ts[..|ts| - 1], k)
      case None => LastWithId(ts[..|ts| - 1], k)
  }

  /** The index holds, under each id, the entity of the last item with that id, and keys are unique. */
  lemma {:induction false} IndexLastWins(ts: seq<(string, Value)>, k: string)
    ensures Lookup(ScanItems(ts).index, k) == LastWithId(ts, k)
    ensures UniqueKeys(ScanItems(ts).index)
  {
    if |ts| > 0 {
      var init := ts[..|ts| - 1];
      IndexLastWins(init, k);
      match EntryOf(ts[|ts| - 1])
      case None =>
      case Some(e) =>
        AssignLookup(ScanItems(init).index, e.id, e, k);
        AssignKeys(ScanItems(init).index, e.id, e);
    }
  }

  // ---------------------------------------------------------------------------
  // Forward edges
  // ---------------------------------------------------------------------------

  /** How an entity's dependencies were found. */
  datatype Method = Explicit | Regex | NoDependencies

  function MethodLabel(m: Method): string {
    match m
    case Explicit => "explicit"
    case Regex => "regex"
    case NoDependencies => "none"
  }

  /**
    The forward edges of one entity: its explicit references that name indexed
    entities, if any; otherwise the indexed UUIDs in its formula. An entity
    whose explicit references all fail to resolve falls through to the
    formula scan.
  */
  function EdgesOf(e: Entity, known: set<string>): (r: (seq<string>, Method))
    ensures forall i :: 0 <= i < |r.0| ==> r.0[i] in known
    ensures r.1 == NoDependencies <==> |r.0| == 0
  {
    var explicit := Keep(e.explicitDeps, known);
    if |explicit| > 0 then (explicit, Explicit)
    else
      var scanned := Keep(ExtractUuidDependencies(e.formula), known);
      if |scanned| > 0 then (scanned, Regex) else ([], NoDependencies)
  }

  /**
    When an explicit reference resolves, the edges are exactly the resolved
    references in order, the method is "explicit", and the formula is never
    looked at.
  */
  lemma ExplicitWins(e: Entity, known: set<string>, otherFormula: Value)
    requires exists i :: 0 <= i < |e.explicitDeps| && e.explicitDeps[i] in known
    ensures EdgesOf(e, known) == (Keep(e.explicitDeps, known), Explicit)
    ensures EdgesOf(e.(formula := otherFormula), known) == EdgesOf(e, known)
  {
    var i :| 0 <= i < |e.explicitDeps| && e.explicitDeps[i] in known;
    assert e.explicitDeps[i] in Keep(e.explicitDeps, known);
  }

  /** Explicit references that all fail to resolve count for nothing: the formula decides. */
  lemma UnresolvedExplicitFallsThrough(e: Entity, known: set<string>)
    requires forall i :: 0 <= i < |e.explicitDeps| ==> e.explicitDeps[i] !in known
    ensures EdgesOf(e, known) == EdgesOf(e.(explicitDeps := []), known)
    ensures EdgesOf(e, known).1 != Explicit
    ensures EdgesOf(e, known).0 == Keep(ExtractUuidDependencies(e.formula), known)
  {
    KeepNone(e.explicitDeps, known);
  }

  /** The forward edge list of every indexed entity, in index order. */
  function Forward(index: seq<(string, Entity)>): (deps: seq<(string, seq<string>)>)
    ensures |deps| == |index|
    ensures forall i :: 0 <= i < |index| ==> deps[i].0 == index[i].0
    ensures forall i, j :: 0 <= i < |deps| && 0 <= j < |deps[i].1| ==> deps[i].1[j] in KeySet(index)
  {
    var known := KeySet(index);
    seq(|index|, i requires 0 <= i < |index| => (index[i].0, EdgesOf(index[i].1, known).0))
  }

  /** The dependency method of every indexed entity. */
  function Methods(index: seq<(string, Entity)>): (m: map<string, Method>)
    ensures m.Keys == KeySet(index)
  {
    map k | k in KeySet(index) :: EdgesOf(Lookup(index, k).value, KeySet(index)).1
  }

  // ---------------------------------------------------------------------------
  // Views and boards
  // ---------------------------------------------------------------------------

  const UnderlyingKeys: seq<string> := ["underlyingId", "underlyingBlockId", "blockId", "contentId"]

  /** The view-to-underlying dict, filled view by view; a later view with the same id overwrites. */
  function Underlying(views: seq<(string, Value)>): (vu: seq<(string, string)>)
  {
    if |views| == 0 then []
    else
      var acc := Underlying(views[..|views| - 1]);
      var (viewId, view) := views[|views| - 1];
      var u := FirstPresent(view, UnderlyingKeys);
      if Truthy(u) then Assign(acc, viewId, Render(u)) else acc
  }

  /** The values of a dict, in order. */
  function Values(d: seq<(string, string)>): (r: seq<string>)
    ensures |r| == |d|
    ensures forall i :: 0 <= i < |d| ==> r[i] == d[i].1
  {
    seq(|d|, i requires 0 <= i < |d| => d[i].1)
  }

  /** `board.get("blocks") or board.get("boardBlocks") or []`. */
  function BlockList(board: Value): Value {
    Or(Or(GetOrNull(board, "blocks"), GetOrNull(board, "boardBlocks")), List([]))
  }

  const BlockIdKeys: seq<string> := ["blockId", "id", "contentId"]
  const BlockTypeKeys: seq<string> := ["blockType", "type"]

  /** A block whose type reads "view" in any case. */
  predicate BlockIsView(block: Value) {
    var t := FirstPresent(block, BlockTypeKeys);
    t.Str? && Lower(t.s) == "view"
  }

  /**
    What one board block counts toward: nothing without an id; the view's
    underlying id for a view block whose view is known; else the block id.
  */
  function BlockTarget(block: Value, vu: seq<(string, string)>): (r: seq<string>)
    ensures |r| <= 1
    ensures |r| == 1 <==> block.Dict? && Truthy(FirstPresent(block, BlockIdKeys))
  {
    if !block.Dict? then []
    else
      var bid := FirstPresent(block, BlockIdKeys);
      if !Truthy(bid) then []
      else
        var id := Render(bid);
        match Lookup(vu, id)
        case Some(u) => if BlockIsView(block) then [u] else [id]
        case None => [id]
  }

  function BlockTargets(blocks: seq<Value>, vu: seq<(string, string)>): (r: seq<string>)
    ensures |r| <= |blocks|
  {
    if |blocks| == 0 then [] else BlockTarget(blocks[0], vu) + BlockTargets(blocks[1..], vu)
  }

  /** Every block of every board, as the id it counts toward; a non-list of blocks counts nothing. */
  function BoardTargets(boards: seq<(string, Value)>, vu: seq<(string, string)>): seq<string> {
    if |boards| == 0 then []
    else
      var blocks := BlockList(boards[0].1);
      (if blocks.List? then BlockTargets(blocks.items, vu) else []) + BoardTargets(boards[1..], vu)
  }

  /**
    Board usage is one hop through views: a view block counts toward the
    view's underlying id even when that id is itself a view with an
    underlying block of its own.
  */
  lemma ViewBlockOneHop(block: Value, vu: seq<(string, string)>, u: string)
    requires block.Dict? && Truthy(FirstPresent(block, BlockIdKeys)) && BlockIsView(block)
    requires Lookup(vu, Render(FirstPresent(block, BlockIdKeys))) == Some(u)
    ensures BlockTarget(block, vu) == [u]
  {
  }

  /** A block that is not a view counts toward its own id. */
  lemma PlainBlockCountsItself(block: Value, vu: seq<(string, string)>)
    requires block.Dict? && Truthy(FirstPresent(block, BlockIdKeys)) && !BlockIsView(block)
    ensures BlockTarget(block, vu) == [Render(FirstPresent(block, BlockIdKeys))]
  {
  }

  // ---------------------------------------------------------------------------
  // The context
  // ---------------------------------------------------------------------------

  datatype Context = Context(
    index: seq<(string, Entity)>,
    methods: map<string, Method>,
    deps: seq<(string, seq<string>)>,
    reverse: map<string, seq<string>>,
    underlying: seq<(string, string)>,
    viewsUsing: map<string, nat>,
    boardsUsing: map<string, nat>)

  /** `build_metadata_context`. */
  function BuildContext(cs: Collections): (ctx: Context)
    ensures ctx.methods.Keys == KeySet(ctx.index)
    ensures |ctx.deps| == |ctx.index|
    ensures forall i, j :: 0 <= i < |ctx.deps| && 0 <= j < |ctx.deps[i].1| ==> ctx.deps[i].1[j] in KeySet(ctx.index)
  {
    var scan := ScanItems(Tagged(cs));
    var deps := Forward(scan.index);
    var vu := Underlying(scan.views);
    Context(
      scan.index,
      Methods(scan.index),
      deps,
      ReverseDeps(deps),
      vu,
      Tally(Values(vu)),
      Tally(BoardTargets(scan.boards, vu)))
  }

  /** The entity stored under `k`, if any. */
  function EntityOf(ctx: Context, k: string): Option<Entity> {
    Lookup(ctx.index, k)
  }

  /**
    The index keeps, for each id, the entity of the last metadata item with
    that id, and no id twice.
  */
  lemma ContextIndex(cs: Collections, k: string)
    ensures EntityOf(BuildContext(cs), k) == LastWithId(Tagged(cs), k)
    ensures UniqueKeys(BuildContext(cs).index)
  {
    IndexLastWins(Tagged(cs), k);
  }

  /**
    The reverse index is the exact inverse of the forward edges, counted per
    occurrence: it lists each source once per edge into `x`, so the number
    of direct dependents of `x` is its in-degree; it has an entry only for
    ids that some edge points to, and those are all indexed.
  */
  lemma ReverseIsInverse(cs: Collections, x: string)
    ensures Dependents(BuildContext(cs).reverse, x) == Sources(BuildContext(cs).deps, x)
    ensures |Dependents(BuildContext(cs).reverse, x)| == InDegree(BuildContext(cs).deps, x)
    ensures x in BuildContext(cs).reverse <==> InDegree(BuildContext(cs).deps, x) > 0
    ensures x !in KeySet(BuildContext(cs).index) ==> Dependents(BuildContext(cs).reverse, x) == []
  {
    var ctx := BuildContext(cs);
    ReverseDepsInverse(ctx.deps, x);
    if x !in KeySet(ctx.index) {
      InDegreeOfStranger(ctx.deps, x);
    }
  }

  /** An id no edge list mentions has no incoming edges. */
  lemma {:induction false} InDegreeOfStranger(deps: seq<(string, seq<string>)>, x: string)
    requires forall i, j :: 0 <= i < |deps| && 0 <= j < |deps[i].1| ==> deps[i].1[j] != x
    ensures InDegree(deps, x) == 0
  {
    if |deps| > 0 {
      InDegreeOfStranger(deps[..|deps| - 1], x);
      assert x !in deps[|deps| - 1].1;
    }
  }

  /** `views_using` counts, for each id, the views whose underlying id it is. */
  lemma ViewsUsingCounts(cs: Collections, x: string)
    ensures x in BuildContext(cs).viewsUsing <==> x in Values(BuildContext(cs).underlying)
    ensures x in BuildContext(cs).viewsUsing ==>
      BuildContext(cs).viewsUsing[x] == Occ(Values(BuildContext(cs).underlying), x)
  {
    TallyCounts(Values(BuildContext(cs).underlying), x);
  }

  /** `boards_using` counts, for each id, the board blocks that count toward it. */
  lemma BoardsUsingCounts(cs: Collections, x: string)
    ensures var ctx := BuildContext(cs);
      var targets := BoardTargets(ScanItems(Tagged(cs)).boards, ctx.underlying);
      (x in ctx.boardsUsing <==> x in targets)
      && (x in ctx.boardsUsing ==> ctx.boardsUsing[x] == Occ(targets, x))
  {
    var ctx := BuildContext(cs);
    TallyCounts(BoardTargets(ScanItems(Tagged(cs)).boards, ctx.underlying), x);
  }
}

=== FILE: ingest.dfy ===
/**
  Reading the audit log: in one pass, or in chunks merged through an
  id-keyed store. Each chunk is processed and deduplicated on its own; a
  chunk's event then replaces the stored event of its id when the stored
  one has no timestamp or the new one is strictly later. The store's
  events are finally deduplicated once more.
*/
module Ingest {
  import opened Wrappers
  import opened Text
  import opened PyValue
  import opened Payload
  import opened Events
  import opened Ordering
  import opened Dedup

  /** Files above 50 MiB are read in chunks when no chunk size is given. */
  const ChunkThresholdBytes: nat := 50 * 1024 * 1024
  const DefaultChunkRows: nat := 200000

  // ---------------------------------------------------------------------------
  // The id-keyed store
  // ---------------------------------------------------------------------------

  /** The position of the event with id `x`, if any. */
  function IndexOfId(s: seq<Event>, x: string): (r: Option<nat>)
    ensures r.Some? ==> r.value < |s| && s[r.value].id == x
    ensures r.None? <==> x !in Ids(s)
  {
    if |s| == 0 then None
    else if s[0].id == x then Some(0)
    else
      var r := IndexOfId(s[1..], x);
      IdsTail(s);
      if r.None? then None else Some(r.value + 1)
  }

  /** A stored event is replaced when it has no timestamp or the incoming one is strictly later. */
  predicate Replaces(stored: Option<int>, incoming: Option<int>) {
    stored.None? || (incoming.Some? && incoming.value > stored.value)
  }

  /**
    One store update: a new id is appended, a known id is overwritten in
    place when `Replaces` says so and left alone otherwise.
  */
  function Upsert(store: seq<Event>, e: Event): (r: seq<Event>)
    ensures e.id !in Ids(store) ==> r == store + [e]
    ensures e.id in Ids(store) ==> |r| == |store|
    ensures forall j :: 0 <= j < |r| && r[j].id != e.id ==> j < |store| && r[j] == store[j]
  {
    match IndexOfId(store, e.id)
    case None => store + [e]
    case Some(i) => if Replaces(store[i].ts, e.ts) then store[i := e] else store
  }

  function UpsertAll(store: seq<Event>, es: seq<Event>): seq<Event>
    decreases |es|
  {
    if |es| == 0 then store else UpsertAll(Upsert(store, es[0]), es[1..])
  }

  // ---------------------------------------------------------------------------
  // Reading
  // ---------------------------------------------------------------------------

  /**
    The file cut into chunks of `n` rows (the last may be shorter), each
    chunk's rows numbered on from the rows before it and turned into events
    by `step`.
  */
  function Chunks(rows: seq<RawRow>, n: nat, offset: nat, step: (RawRow, nat) -> Event): (cs: seq<seq<Event>>)
    requires n > 0
    ensures forall i :: 0 <= i < |cs| ==> 0 < |cs[i]| <= n
    decreases |rows|
  {
    if |rows| == 0 then []
    else
      var k := if n < |rows| then n else |rows|;
      [NumberedMap(rows[..k], offset, step)] + Chunks(rows[k..], n, offset + k, step)
  }

  /** One chunk's events, deduplicated and merged into the store in their sorted order. */
  function MergeChunk(store: seq<Event>, chunk: seq<Event>): seq<Event> {
    UpsertAll(store, Dedupe(chunk))
  }

  /** The merge loop over the chunks, in file order. */
  function MergeAll(store: seq<Event>, chunks: seq<seq<Event>>): seq<Event>
    decreases |chunks|
  {
    if |chunks| == 0 then store else MergeAll(MergeChunk(store, chunks[0]), chunks[1..])
  }

  /** The chunked path: merge every chunk into an empty store, then deduplicate. */
  function ReadChunked(rows: seq<RawRow>, n: nat, decode: string -> Option<Value>): seq<Event>
    requires n > 0
  {
    Dedupe(MergeAll([], Chunks(rows, n, 0, RowStep(decode))))
  }

  /** The single-pass path. */
  function ReadWhole(rows: seq<RawRow>, decode: string -> Option<Value>): seq<Event> {
    Dedupe(ProcessChunk(rows, 0, decode))
  }

  /** The chunk size in force: the one given, else 200000 rows for a file above 50 MiB. */
  function EffectiveChunkRows(sizeBytes: nat, chunkRows: Option<int>): (r: Option<int>)
    ensures chunkRows.Some? ==> r == chunkRows
    ensures chunkRows.None? && sizeBytes <= ChunkThresholdBytes ==> r.None?
    ensures chunkRows.None? && sizeBytes > ChunkThresholdBytes ==> r == Some(DefaultChunkRows as int)
  {
    if chunkRows.None? && sizeBytes > ChunkThresholdBytes then Some(DefaultChunkRows as int)
    else chunkRows
  }

  /**
    `read_audit_csv` over the file's rows; `None` is a failure. A file without
    data rows fails on both paths (no payload columns, or an empty store with
    no columns to sort by), and so does a negative chunk size. A chunk size of
    zero is falsy and selects the single pass.
  */
  function ReadAuditCsv(sizeBytes: nat, chunkRows: Option<int>, rows: seq<RawRow>,
                        decode: string -> Option<Value>): (r: Option<seq<Event>>)
    ensures |rows| == 0 ==> r.None?
    ensures r.None? <==> |rows| == 0 || (EffectiveChunkRows(sizeBytes, chunkRows).Some? && EffectiveChunkRows(sizeBytes, chunkRows).value < 0)
    ensures var c := EffectiveChunkRows(sizeBytes, chunkRows);
      |rows| > 0 && c.Some? && c.value > 0 ==> r == Some(ReadChunked(rows, c.value, decode))
    ensures var c := EffectiveChunkRows(sizeBytes, chunkRows);
      |rows| > 0 && (c.None? || c.value == 0) ==> r == Some(ReadWhole(rows, decode))
  {
    var c := EffectiveChunkRows(sizeBytes, chunkRows);
    if |rows| == 0 then None
    else if c.Some? && c.value != 0 then
      if c.value < 0 then None else Some(ReadChunked(rows, c.value, decode))
    else Some(ReadWhole(rows, decode))
  }

  // ---------------------------------------------------------------------------
  // The store invariant
  // ---------------------------------------------------------------------------

  /** `g` is at least as late as every event of `seen` with its id. */
  predicate Latest(g: Event, seen: seq<Event>) {
    forall f :: f in seen && f.id == g.id ==> TsLe(f.ts, g.ts)
  }

  /** Every event of `s` with the id `x` has a timestamp. */
  predicate TimedId(s: seq<Event>, x: string) {
    forall f :: f in s && f.id == x ==> f.ts.Some?
  }

  predicate AllTimed(s: seq<Event>) {
    forall f :: f in s ==> f.ts.Some?
  }

  /**
    After the events `seen` have been merged: one stored event per id seen,
    each drawn from `seen`, and the latest of its id whenever every event of
    that id has a timestamp.
  */
  predicate StoreInv(store: seq<Event>, seen: seq<Event>) {
    UniqueIds(store) && Ids(store) == Ids(seen) &&
    forall j :: 0 <= j < |store| ==> store[j] in seen && (TimedId(seen, store[j].id) ==> Latest(store[j], seen))
  }

  /** What holds of an id other than `e`'s before `e` is seen holds after. */
  lemma OtherIdUnaffected(g: Event, seen: seq<Event>, e: Event)
    requires g.id != e.id
    requires TimedId(seen, g.id) ==> Latest(g, seen)
    ensures TimedId(seen + [e], g.id) ==> Latest(g, seen + [e])
  {
    if TimedId(seen + [e], g.id) {
      assert TimedId(seen, g.id);
      forall f | f in seen + [e] && f.id == g.id ensures TsLe(f.ts, g.ts) {
        assert f in seen;
      }
    }
  }

  lemma UpsertNewInv(store: seq<Event>, seen: seq<Event>, e: Event)
    requires StoreInv(store, seen) && e.id !in Ids(store)
    ensures StoreInv(Upsert(store, e), seen + [e])
  {
    var r := Upsert(store, e);
    IdsConcat(store, [e]);
    IdsConcat(seen, [e]);
    forall i, j | 0 <= i < j < |r| ensures r[i].id != r[j].id {
      if j == |store| { assert r[i].id in Ids(store); }
    }
    forall j | 0 <= j < |r|
      ensures r[j] in seen + [e] && (TimedId(seen + [e], r[j].id) ==> Latest(r[j], seen + [e]))
    {
      if j < |store| {
        assert r[j].id in Ids(store);
        OtherIdUnaffected(store[j], seen, e);
      } else {
        forall f | f in seen + [e] && f.id == e.id ensures TsLe(f.ts, e.ts) {
          if f in seen { InIds(seen, f); }
        }
      }
    }
  }

  lemma UpsertReplaceInv(store: seq<Event>, seen: seq<Event>, e: Event, i: nat)
    requires StoreInv(store, seen)
    requires i < |store| && store[i].id == e.id && Replaces(store[i].ts, e.ts)
    ensures StoreInv(store[i := e], seen + [e])
  {
    var r := store[i := e];
    IdsConcat(seen, [e]);
    assert store[i] in seen;
    assert Ids(r) == Ids(store) by {
      forall x | x in Ids(r) ensures x in Ids(store) {
        var j :| 0 <= j < |r| && r[j].id == x;
        assert store[j].id == x;
      }
      forall x | x in Ids(store) ensures x in Ids(r) {
        var j :| 0 <= j < |store| && store[j].id == x;
        assert r[j].id == x;
      }
    }
    forall j | 0 <= j < |r|
      ensures r[j] in seen + [e] && (TimedId(seen + [e], r[j].id) ==> Latest(r[j], seen + [e]))
    {
      if j == i {
        if TimedId(seen + [e], e.id) {
          assert TimedId(seen, e.id);
          assert store[i].ts.Some?;
          forall f | f in seen + [e] && f.id == e.id ensures TsLe(f.ts, e.ts) {
            if f in seen { assert TsLe(f.ts, store[i].ts); }
          }
        }
      } else {
        assert r[j] == store[j] && store[j].id != e.id;
        OtherIdUnaffected(store[j], seen, e);
      }
    }
  }

  lemma UpsertKeepInv(store: seq<Event>, seen: seq<Event>, e: Event, i: nat)
    requires StoreInv(store, seen)
    requires i < |store| && store[i].id == e.id && !Replaces(store[i].ts, e.ts)
    ensures StoreInv(store, seen + [e])
  {
    IdsConcat(seen, [e]);
    assert e.id in Ids(store);
    forall j | 0 <= j < |store|
      ensures store[j] in seen + [e] && (TimedId(seen + [e], store[j].id) ==> Latest(store[j], seen + [e]))
    {
      assert store[j] in seen;
      if store[j].id == e.id {
        UniqueMember(store, store[i], store[j]);
        if TimedId(seen + [e], e.id) {
          assert TimedId(seen, e.id);
        }
      } else {
        OtherIdUnaffected(store[j], seen, e);
      }
    }
  }

  /** A merge step keeps the invariant. */
  lemma UpsertInv(store: seq<Event>, seen: seq<Event>, e: Event)
    requires StoreInv(store, seen)
    ensures StoreInv(Upsert(store, e), seen + [e])
  {
    match IndexOfId(store, e.id)
    case None => UpsertNewInv(store, seen, e);
    case Some(i) =>
      if Replaces(store[i].ts, e.ts) {
        UpsertReplaceInv(store, seen, e, i);
      } else {
        UpsertKeepInv(store, seen, e, i);
      }
  }

  lemma {:induction false} UpsertAllInv(store: seq<Event>, seen: seq<Event>, es: seq<Event>)
    requires StoreInv(store, seen)
    ensures StoreInv(UpsertAll(store, es), seen + es)
    decreases |es|
  {
    if |es| > 0 {
      UpsertInv(store, seen, es[0]);
      UpsertAllInv(Upsert(store, es[0]), seen + [es[0]], es[1..]);
      assert es == [es[0]] + es[1..];
      ConcatAssoc(seen, [es[0]], es[1..]);
      StoreInvCongruence(UpsertAll(Upsert(store, es[0]), es[1..]), UpsertAll(store, es), seen + [es[0]] + es[1..], seen + es);
    } else {
      assert seen + es == seen;
    }
  }

  /**
    What the store holds for a deduplicated chunk `d` it also holds for the
    chunk `c` it came from: each event of `c` is no later than the survivor
    of its id.
  */
  lemma WidenInv(store: seq<Event>, seen: seq<Event>, d: seq<Event>, c: seq<Event>)
    requires StoreInv(store, seen + d)
    requires forall g :: g in d ==> g in c
    requires Ids(d) == Ids(c)
    requires forall f, g :: f in c && g in d && f.id == g.id ==> TsLe(f.ts, g.ts)
    ensures StoreInv(store, seen + c)
  {
    IdsConcat(seen, d);
    IdsConcat(seen, c);
    forall j | 0 <= j < |store|
      ensures store[j] in seen + c && (TimedId(seen + c, store[j].id) ==> Latest(store[j], seen + c))
    {
      if TimedId(seen + c, store[j].id) {
        assert TimedId(seen + d, store[j].id);
        forall f | f in seen + c && f.id == store[j].id ensures TsLe(f.ts, store[j].ts) {
          if f in c {
            InIds(c, f);
            var k :| 0 <= k < |d| && d[k].id == f.id;
            assert d[k] in seen + d;
            assert TsLe(f.ts, d[k].ts) && TsLe(d[k].ts, store[j].ts);
          }
        }
      }
    }
  }

  /** Merging a whole chunk: the store afterwards covers every event of the chunk. */
  lemma MergeChunkInv(store: seq<Event>, seen: seq<Event>, c: seq<Event>)
    requires StoreInv(store, seen)
    ensures StoreInv(UpsertAll(store, Dedupe(c)), seen + c)
  {
    var d := Dedupe(c);
    DedupeShape(c);
    UpsertAllInv(store, seen, d);
    forall f, g | f in c && g in d && f.id == g.id ensures TsLe(f.ts, g.ts) {
      DedupeKeepsLatest(c, g, f);
    }
    WidenInv(UpsertAll(store, d), seen, d, c);
  }

  function Flatten(cs: seq<seq<Event>>): seq<Event>
    decreases |cs|
  {
    if |cs| == 0 then [] else cs[0] + Flatten(cs[1..])
  }

  /** Cutting the rows after `k`: the events split alike. */
  lemma SplitAt(rows: seq<RawRow>, k: nat, offset: nat, step: (RawRow, nat) -> Event)
    requires k <= |rows|
    ensures NumberedMap(rows, offset, step)
         == NumberedMap(rows[..k], offset, step) + NumberedMap(rows[k..], offset + k, step)
  {
    assert rows == rows[..k] + rows[k..];
    NumberedMapSplit(rows[..k], rows[k..], offset, step);
  }

  /** The chunks, laid end to end, are the events of the whole file. */
  lemma {:induction false} ChunksFlatten(rows: seq<RawRow>, n: nat, offset: nat, step: (RawRow, nat) -> Event)
    requires n > 0
    ensures Flatten(Chunks(rows, n, offset, step)) == NumberedMap(rows, offset, step)
    decreases |rows|
  {
    if |rows| > 0 {
      var k := if n < |rows| then n else |rows|;
      var cs := Chunks(rows, n, offset, step);
      ChunksFlatten(rows[k..], n, offset + k, step);
      SplitAt(rows, k, offset, step);
      assert cs[1..] == Chunks(rows[k..], n, offset + k, step);
    } else {
      assert NumberedMap(rows, offset, step) == [];
    }
  }

  lemma ConcatAssoc(a: seq<Event>, b: seq<Event>, c: seq<Event>)
    ensures a + b + c == a + (b + c)
  {
  }

  lemma StoreInvCongruence(store: seq<Event>, store': seq<Event>, seen: seq<Event>, seen': seq<Event>)
    requires StoreInv(store, seen) && store == store' && seen == seen'
    ensures StoreInv(store', seen')
  {
  }


  lemma {:induction false} MergeAllInv(store: seq<Event>, seen: seq<Event>, cs: seq<seq<Event>>)
    requires StoreInv(store, seen)
    ensures StoreInv(MergeAll(store, cs), seen + Flatten(cs))
    decreases |cs|
  {
    if |cs| == 0 {
      assert seen + Flatten(cs) == seen;
    } else {
      assert Flatten(cs) == cs[0] + Flatten(cs[1..]);
      MergeChunkInv(store, seen, cs[0]);
      var next := MergeChunk(store, cs[0]);
      MergeAllInv(next, seen + cs[0], cs[1..]);
      ConcatAssoc(seen, cs[0], Flatten(cs[1..]));
      StoreInvCongruence(MergeAll(next, cs[1..]), MergeAll(store, cs), seen + cs[0] + Flatten(cs[1..]), seen + Flatten(cs));
    }
  }

  /** The store after the last chunk. */
  lemma ReadChunksStore(rows: seq<RawRow>, n: nat, step: (RawRow, nat) -> Event)
    requires n > 0
    ensures StoreInv(MergeAll([], Chunks(rows, n, 0, step)), NumberedMap(rows, 0, step))
  {
    assert Ids([]) == {};
    ChunksFlatten(rows, n, 0, step);
    MergeAllInv([], [], Chunks(rows, n, 0, step));
    assert [] + NumberedMap(rows, 0, step) == NumberedMap(rows, 0, step);
  }

  // ---------------------------------------------------------------------------
  // Properties of the two paths
  // ---------------------------------------------------------------------------

  /** The single pass yields sorted events, one per id, every id of the file. */
  lemma ReadWholeShape(rows: seq<RawRow>, decode: string -> Option<Value>)
    ensures Sorted(ReadWhole(rows, decode)) && UniqueIds(ReadWhole(rows, decode))
    ensures Ids(ReadWhole(rows, decode)) == Ids(ProcessChunk(rows, 0, decode))
  {
    DedupeShape(ProcessChunk(rows, 0, decode));
  }

  /**
    The chunked path keeps one event per id of the file, drawn from the
    file; for every id whose events all have a timestamp it is one of the
    latest of that id.
  */
  lemma ReadChunkedKeepsLatest(rows: seq<RawRow>, n: nat, decode: string -> Option<Value>)
    requires n > 0
    ensures Sorted(ReadChunked(rows, n, decode)) && UniqueIds(ReadChunked(rows, n, decode))
    ensures Ids(ReadChunked(rows, n, decode)) == Ids(ProcessChunk(rows, 0, decode))
    ensures forall e :: e in ReadChunked(rows, n, decode) ==>
              e in ProcessChunk(rows, 0, decode) &&
              (TimedId(ProcessChunk(rows, 0, decode), e.id) ==> Latest(e, ProcessChunk(rows, 0, decode)))
  {
    var store := MergeAll([], Chunks(rows, n, 0, RowStep(decode)));
    ReadChunksStore(rows, n, RowStep(decode));
    DedupedStore(store, ProcessChunk(rows, 0, decode));
  }

  /** The final deduplication of the store keeps what the store invariant promises. */
  lemma DedupedStore(store: seq<Event>, seen: seq<Event>)
    requires StoreInv(store, seen)
    ensures Sorted(Dedupe(store)) && UniqueIds(Dedupe(store)) && Ids(Dedupe(store)) == Ids(seen)
    ensures forall e :: e in Dedupe(store) ==> e in seen && (TimedId(seen, e.id) ==> Latest(e, seen))
  {
    DedupeShape(store);
    forall e | e in Dedupe(store) ensures e in seen && (TimedId(seen, e.id) ==> Latest(e, seen)) {
      var j :| 0 <= j < |store| && store[j] == e;
    }
  }

  /** No id carries two events with the same timestamp, and every timestamp is present. */
  predicate DistinctTimes(s: seq<Event>) {
    AllTimed(s) &&
    forall a, b :: a in s && b in s && a.id == b.id && a.ts == b.ts ==> a == b
  }

  /** Under `DistinctTimes`, a latest event of its id is the survivor of the single pass. */
  lemma LatestIsSurvivor(w: seq<Event>, e: Event)
    requires DistinctTimes(w) && e in w && Latest(e, w)
    ensures e in Dedupe(w)
  {
    DedupeShape(w);
    InIds(w, e);
    var i :| 0 <= i < |Dedupe(w)| && Dedupe(w)[i].id == e.id;
    var t := Dedupe(w)[i];
    DedupeKeepsLatest(w, t, e);
    assert TsLe(t.ts, e.ts);
  }

  /** Under `DistinctTimes`, each survivor of the single pass is also in a store-derived result. */
  lemma SurvivorIsKept(w: seq<Event>, c: seq<Event>, e: Event)
    requires DistinctTimes(w) && e in Dedupe(w)
    requires Ids(c) == Ids(w) && forall g :: g in c ==> g in w && Latest(g, w)
    ensures e in c
  {
    DedupeShape(w);
    InIds(w, e);
    var j :| 0 <= j < |c| && c[j].id == e.id;
    LatestIsSurvivor(w, c[j]);
    UniqueMember(Dedupe(w), c[j], e);
  }

  /**
    Under `DistinctTimes` the chunked path and the single pass agree, for any
    chunk size.
  */
  lemma ChunkedAgrees(rows: seq<RawRow>, n: nat, decode: string -> Option<Value>)
    requires n > 0 && DistinctTimes(ProcessChunk(rows, 0, decode))
    ensures ReadChunked(rows, n, decode) == ReadWhole(rows, decode)
  {
    var w := ProcessChunk(rows, 0, decode);
    var c := ReadChunked(rows, n, decode);
    ReadChunkedKeepsLatest(rows, n, decode);
    ReadWholeShape(rows, decode);
    forall e | e in c ensures e in w && Latest(e, w) {
      assert TimedId(w, e.id);
    }
    forall e | e in c ensures e in Dedupe(w) {
      LatestIsSurvivor(w, e);
    }
    forall e | e in Dedupe(w) ensures e in c {
      SurvivorIsKept(w, c, e);
    }
    SortedUniqueEqual(c, Dedupe(w));
  }

  /** Appending events with fresh, distinct ids to a store just appends them. */
  lemma {:induction false} UpsertAllFresh(store: seq<Event>, es: seq<Event>)
    requires UniqueIds(store + es)
    ensures UpsertAll(store, es) == store + es
    decreases |es|
  {
    if |es| > 0 {
      assert (store + es)[|store|] == es[0];
      assert es[0].id !in Ids(store) by {
        forall x | x in Ids(store) ensures x != es[0].id {
          var i :| 0 <= i < |store| && store[i].id == x;
          assert (store + es)[i] == store[i];
        }
      }
      assert store + es == (store + [es[0]]) + es[1..];
      UpsertAllFresh(store + [es[0]], es[1..]);
    }
  }

  /** A single chunk covering the whole file gives the single-pass result. */
  lemma OneChunkAgrees(rows: seq<RawRow>, n: nat, decode: string -> Option<Value>)
    requires n >= |rows| && n > 0
    ensures ReadChunked(rows, n, decode) == ReadWhole(rows, decode)
  {
    var d := ReadWhole(rows, decode);
    if |rows| > 0 {
      assert rows[..|rows|] == rows;
      DedupeShape(ProcessChunk(rows, 0, decode));
      assert [] + d == d;
      UpsertAllFresh([], d);
      assert Chunks(rows, n, 0, RowStep(decode)) == [ProcessChunk(rows, 0, decode)];
      assert MergeAll([], [ProcessChunk(rows, 0, decode)]) == d;
      DedupeIdempotent(ProcessChunk(rows, 0, decode));
    }
  }

  /** A small file read without a chunk size takes the single pass. */
  lemma SmallFileSinglePass(sizeBytes: nat, rows: seq<RawRow>, decode: string -> Option<Value>)
    requires sizeBytes <= ChunkThresholdBytes && |rows| > 0
    ensures ReadAuditCsv(sizeBytes, None, rows, decode) == Some(ReadWhole(rows, decode))
  {
  }

  /** A large file read without a chunk size is read in chunks of 200000 rows. */
  lemma LargeFileChunked(sizeBytes: nat, rows: seq<RawRow>, decode: string -> Option<Value>)
    requires sizeBytes > ChunkThresholdBytes && |rows| > 0
    ensures ReadAuditCsv(sizeBytes, None, rows, decode) == Some(ReadChunked(rows, DefaultChunkRows, decode))
  {
  }

  // ---------------------------------------------------------------------------
  // Where the two paths part
  // ---------------------------------------------------------------------------

  /** A row with only an event id and a timestamp. */
  function IdRow(id: string, ts: Option<int>): RawRow {
    RawRow(Text(id), ts, Absent, Absent, Absent, Absent, Absent, Absent, Absent, Absent, Absent, Absent)
  }

  lemma XIsAnId()
    ensures !NoId("x")
  {
    assert !IsSpace("x"[0]);
    assert Lower("x") == "x";
  }

  /** Two rows with the id "x" and the given timestamps. */
  function TwoRows(a: Option<int>, b: Option<int>): seq<RawRow> {
    [IdRow("x", a), IdRow("x", b)]
  }

  /** The events of `TwoRows`, read whole or in chunks of one row. */
  lemma TwoRowChunks(a: Option<int>, b: Option<int>, decode: string -> Option<Value>, e0: Event, e1: Event)
    requires e0 == ProcessRow(IdRow("x", a), 0, decode) && e1 == ProcessRow(IdRow("x", b), 1, decode)
    ensures Chunks(TwoRows(a, b), 1, 0, RowStep(decode)) == [[e0], [e1]]
    ensures ProcessChunk(TwoRows(a, b), 0, decode) == [e0, e1]
    ensures e0.id == "x" && e1.id == "x" && e0.ts == a && e1.ts == b && e0 != e1
  {
    XIsAnId();
    var rows := TwoRows(a, b);
    assert rows[..1] == [rows[0]] && rows[1..] == [rows[1]] && rows[1..][..1] == [rows[1]] && rows[1..][1..] == [];
    assert NumberedMap([rows[0]], 0, RowStep(decode)) == [e0] by {
      NumberedMapAt([rows[0]], 0, RowStep(decode));
    }
    assert NumberedMap([rows[1]], 1, RowStep(decode)) == [e1] by {
      NumberedMapAt([rows[1]], 1, RowStep(decode));
    }
    assert Chunks(rows[1..], 1, 1, RowStep(decode)) == [[e1]];
  }

  /** Deduplicating one event leaves it alone. */
  lemma DedupeSingle(e: Event)
    ensures Dedupe([e]) == [e]
  {
    assert [e][..0] == [];
    assert Ids([e][1..]) == {};
  }

  /** Merging two one-event chunks with the same id keeps the first unless the second replaces it. */
  lemma TwoChunkMerge(e0: Event, e1: Event)
    requires e0.id == e1.id
    ensures MergeAll([], [[e0], [e1]]) == if Replaces(e0.ts, e1.ts) then [e1] else [e0]
  {
    DedupeSingle(e0);
    DedupeSingle(e1);
    assert Ids([]) == {};
    assert [e0][1..] == [] && [e1][1..] == [];
    assert Upsert([], e0) == [e0];
    assert UpsertAll([], [e0]) == UpsertAll(Upsert([], e0), []);
    assert MergeChunk([], [e0]) == [e0];
    assert IndexOfId([e0], e1.id) == Some(0);
    assert UpsertAll([e0], [e1]) == UpsertAll(Upsert([e0], e1), []);
    assert MergeChunk([e0], [e1]) == if Replaces(e0.ts, e1.ts) then [e1] else [e0];
    assert [[e0], [e1]][1..] == [[e1]] && [[e1]][1..] == [];
    assert MergeAll([], [[e0], [e1]]) == MergeAll([e0], [[e1]]);
    assert MergeAll([e0], [[e1]]) == MergeAll(MergeChunk([e0], [e1]), []);
  }

  /** The single pass over `TwoRows(Some(5), None)` keeps only the row without a timestamp. */
  lemma NullTimestampWhole(decode: string -> Option<Value>)
    ensures forall e :: e in ReadWhole(TwoRows(Some(5), None), decode) ==> e.ts == None
  {
    var e0 := ProcessRow(IdRow("x", Some(5)), 0, decode);
    var e1 := ProcessRow(IdRow("x", None), 1, decode);
    TwoRowChunks(Some(5), None, decode, e0, e1);
    assert ReadWhole(TwoRows(Some(5), None), decode) == Dedupe([e0, e1]);
    DedupeShape([e0, e1]);
    forall e | e in Dedupe([e0, e1]) ensures e.ts == None {
      assert e1 in [e0, e1];
      DedupeKeepsLatest([e0, e1], e, e1);
    }
  }

  /**
    A duplicate without a timestamp wins the single pass (it sorts last) but
    loses the chunked merge, which keeps the stored timestamped row.
  */
  lemma NullTimestampDisagrees(decode: string -> Option<Value>)
    ensures forall e :: e in ReadWhole(TwoRows(Some(5), None), decode) ==> e.ts == None
    ensures ReadChunked(TwoRows(Some(5), None), 1, decode) == [ProcessRow(IdRow("x", Some(5)), 0, decode)]
    ensures ReadWhole(TwoRows(Some(5), None), decode) != ReadChunked(TwoRows(Some(5), None), 1, decode)
  {
    var e0 := ProcessRow(IdRow("x", Some(5)), 0, decode);
    var e1 := ProcessRow(IdRow("x", None), 1, decode);
    TwoRowChunks(Some(5), None, decode, e0, e1);
    TwoChunkMerge(e0, e1);
    DedupeSingle(e0);
    NullTimestampWhole(decode);
    assert e0 in ReadChunked(TwoRows(Some(5), None), 1, decode);
  }

  /**
    Two rows with the same id and timestamp in different chunks: the single
    pass keeps the later row, the chunked merge the earlier one.
  */
  lemma EqualTimestampDisagrees(decode: string -> Option<Value>)
    ensures ReadWhole(TwoRows(Some(5), Some(5)), decode) == [ProcessRow(IdRow("x", Some(5)), 1, decode)]
    ensures ReadChunked(TwoRows(Some(5), Some(5)), 1, decode) == [ProcessRow(IdRow("x", Some(5)), 0, decode)]
  {
    var e0 := ProcessRow(IdRow("x", Some(5)), 0, decode);
    var e1 := ProcessRow(IdRow("x", Some(5)), 1, decode);
    TwoRowChunks(Some(5), Some(5), decode, e0, e1);
    TwoChunkMerge(e0, e1);
    DedupeSingle(e0);
    KeyLeReflexive(e0);
    assert Sort([e0, e1]) == [e0, e1] by {
      assert [e0, e1][..1] == [e0];
      assert Sort([e0]) == [e0];
      assert Insert([e0], e1) == [e0, e1];
    }
    assert KeepLast([e0, e1]) == [e1] by {
      assert [e0, e1][1..] == [e1];
      assert Ids([e1]) == {e1.id};
      assert Ids([e1][1..]) == {};
    }
  }
}

=== FILE: ordering.dfy ===
/**
  The event order used throughout: by timestamp, events without one last,
  then by event id; a stable sort, so events with equal keys keep their
  input order.
*/
module Ordering {
  import opened Wrappers
  import opened Text
  import opened Events

  /** Timestamps ascending, a missing timestamp after every present one. */
  predicate TsLe(a: Option<int>, b: Option<int>) {
    b.None? || (a.Some? && a.value <= b.value)
  }

  /** The sort key order: timestamp, then id. */
  predicate KeyLe(a: Event, b: Event) {
    if a.ts == b.ts then StrLe(a.id, b.id) else TsLe(a.ts, b.ts)
  }

  /** Two events with the same sort key. */
  predicate SameKey(a: Event, b: Event) {
    a.ts == b.ts && a.id == b.id
  }

  lemma KeyLeTotal(a: Event, b: Event)
    ensures KeyLe(a, b) || KeyLe(b, a)
  {
    StrLeTotal(a.id, b.id);
  }

  lemma KeyLeReflexive(a: Event)
    ensures KeyLe(a, a)
  {
    StrLeReflexive(a.id);
  }

  lemma KeyLeTransitive(a: Event, b: Event, c: Event)
    requires KeyLe(a, b) && KeyLe(b, c)
    ensures KeyLe(a, c)
  {
    if a.ts == b.ts && b.ts == c.ts {
      StrLeTransitive(a.id, b.id, c.id);
    }
  }

  lemma KeyLeAntisymmetric(a: Event, b: Event)
    requires KeyLe(a, b) && KeyLe(b, a)
    ensures SameKey(a, b)
  {
    if a.ts == b.ts {
      StrLeAntisymmetric(a.id, b.id);
    }
  }

  /** Events with the same key are ordered both ways. */
  lemma SameKeyLe(a: Event, b: Event)
    requires SameKey(a, b)
    ensures KeyLe(a, b)
  {
    StrLeReflexive(a.id);
  }

  /** Among events with the same id, the key order is the timestamp order. */
  lemma KeyLeSameId(a: Event, b: Event)
    requires a.id == b.id
    ensures KeyLe(a, b) <==> TsLe(a.ts, b.ts)
  {
    StrLeReflexive(a.id);
  }

  predicate Sorted(s: seq<Event>) {
    forall i, j :: 0 <= i < j < |s| ==> KeyLe(s[i], s[j])
  }

  /** Inserts `x` after every element whose key is not above its own. */
  function Insert(s: seq<Event>, x: Event): (r: seq<Event>)
    ensures |r| == |s| + 1
  {
    if |s| == 0 then [x]
    else if KeyLe(s[0], x) then [s[0]] + Insert(s[1..], x)
    else [x] + s
  }

  /** `sort_values(by=[timestamp, id], kind="mergesort")`: a stable insertion sort. */
  function Sort(s: seq<Event>): (r: seq<Event>)
    ensures |r| == |s|
  {
    if |s| == 0 then [] else Insert(Sort(s[..|s| - 1]), s[|s| - 1])
  }

  lemma {:induction false} InsertPermutes(s: seq<Event>, x: Event)
    ensures multiset(Insert(s, x)) == multiset(s) + multiset{x}
  {
    if |s| > 0 && KeyLe(s[0], x) {
      InsertPermutes(s[1..], x);
      assert s == [s[0]] + s[1..];
    }
  }

  lemma {:induction false} InsertSorted(s: seq<Event>, x: Event)
    requires Sorted(s)
    ensures Sorted(Insert(s, x))
  {
    if |s| == 0 {
    } else if KeyLe(s[0], x) {
      var rest := Insert(s[1..], x);
      InsertSorted(s[1..], x);
      InsertPermutes(s[1..], x);
      forall j | 0 <= j < |rest| ensures KeyLe(s[0], rest[j]) {
        assert rest[j] in multiset(rest);
        if rest[j] != x {
          assert rest[j] in multiset(s[1..]);
          var k :| 0 <= k < |s[1..]| && s[1..][k] == rest[j];
          assert s[1..][k] == s[k + 1];
        }
      }
    } else {
      KeyLeTotal(s[0], x);
      forall j | 0 <= j < |s| ensures KeyLe(x, s[j]) {
        if j > 0 { KeyLeTransitive(x, s[0], s[j]); }
      }
    }
  }

  /** The sorted sequence is a permutation of the input. */
  lemma {:induction false} SortPermutes(s: seq<Event>)
    ensures multiset(Sort(s)) == multiset(s)
  {
    if |s| > 0 {
      SortPermutes(s[..|s| - 1]);
      InsertPermutes(Sort(s[..|s| - 1]), s[|s| - 1]);
      assert s == s[..|s| - 1] + [s[|s| - 1]];
    }
  }

  /** The sorted sequence is in key order. */
  lemma {:induction false} SortSorted(s: seq<Event>)
    ensures Sorted(Sort(s))
  {
    if |s| > 0 {
      SortSorted(s[..|s| - 1]);
      InsertSorted(Sort(s[..|s| - 1]), s[|s| - 1]);
    }
  }

  /** The events of `s` with the key of `k`, in order. */
  function WithKey(s: seq<Event>, k: Event): (r: seq<Event>)
    ensures |r| <= |s|
  {
    if |s| == 0 then []
    else (if SameKey(s[0], k) then [s[0]] else []) + WithKey(s[1..], k)
  }

  lemma {:induction false} WithKeyConcat(a: seq<Event>, b: seq<Event>, k: Event)
    ensures WithKey(a + b, k) == WithKey(a, k) + WithKey(b, k)
  {
    if |a| > 0 {
      assert (a + b)[1..] == a[1..] + b;
      WithKeyConcat(a[1..], b, k);
    } else {
      assert a + b == b;
    }
  }

  /** In a sorted sequence, nothing after an element strictly above `x` has the key of `x`. */
  lemma {:induction false} AboveHasNoKey(s: seq<Event>, x: Event)
    requires Sorted(s) && |s| > 0 && !KeyLe(s[0], x)
    ensures WithKey(s, x) == []
    decreases |s|
  {
    if SameKey(s[0], x) { SameKeyLe(s[0], x); }
    if |s| > 1 {
      if KeyLe(s[1], x) { KeyLeTransitive(s[0], s[1], x); }
      AboveHasNoKey(s[1..], x);
    }
  }

  /** Inserting below the head: `x` goes first and the rest follows. */
  lemma InsertBelowWithKey(s: seq<Event>, x: Event, k: Event)
    requires Sorted(s) && |s| > 0 && !KeyLe(s[0], x)
    ensures WithKey(Insert(s, x), k) == WithKey(s, k) + (if SameKey(x, k) then [x] else [])
  {
    assert Insert(s, x) == [x] + s;
    assert ([x] + s)[1..] == s;
    if SameKey(x, k) {
      AboveHasNoKey(s, x);
      WithKeySameKeys(s, x, k);
    }
  }

  lemma {:induction false} InsertWithKey(s: seq<Event>, x: Event, k: Event)
    requires Sorted(s)
    ensures WithKey(Insert(s, x), k) == WithKey(s, k) + (if SameKey(x, k) then [x] else [])
  {
    if |s| == 0 {
    } else if KeyLe(s[0], x) {
      InsertWithKey(s[1..], x, k);
      var rest := Insert(s[1..], x);
      assert Insert(s, x) == [s[0]] + rest;
      assert ([s[0]] + rest)[1..] == rest;
    } else {
      InsertBelowWithKey(s, x, k);
    }
  }

  lemma {:induction false} WithKeySameKeys(s: seq<Event>, x: Event, k: Event)
    requires SameKey(x, k)
    ensures WithKey(s, k) == WithKey(s, x)
  {
    if |s| > 0 { WithKeySameKeys(s[1..], x, k); }
  }

  /** Stability: the events sharing a key come out in their input order. */
  lemma {:induction false} SortStable(s: seq<Event>, k: Event)
    ensures WithKey(Sort(s), k) == WithKey(s, k)
  {
    if |s| > 0 {
      var init, x := s[..|s| - 1], s[|s| - 1];
      SortStable(init, k);
      SortSorted(init);
      InsertWithKey(Sort(init), x, k);
      assert s == init + [x];
      WithKeyConcat(init, [x], k);
    }
  }

  /** Inserting an element not below any other appends it. */
  lemma {:induction false} InsertAtEnd(s: seq<Event>, x: Event)
    requires forall i :: 0 <= i < |s| ==> KeyLe(s[i], x)
    ensures Insert(s, x) == s + [x]
  {
    if |s| > 0 {
      InsertAtEnd(s[1..], x);
      assert s == [s[0]] + s[1..];
    }
  }

  /** Sorting an already sorted sequence changes nothing. */
  lemma {:induction false} SortSortedIdentity(s: seq<Event>)
    requires Sorted(s)
    ensures Sort(s) == s
  {
    if |s| > 0 {
      var init := s[..|s| - 1];
      assert Sorted(init);
      SortSortedIdentity(init);
      InsertAtEnd(init, s[|s| - 1]);
      assert s == init + [s[|s| - 1]];
    }
  }
}

=== FILE: payload.dfy ===
/**
  Raw audit-log cells and the payload blob: parsing it, walking nested keys
  and projecting the fixed set of payload fields an event carries.
*/
module Payload {
  import opened Wrappers
  import opened Text
  import opened PyValue

  /**
    One CSV cell as the reader hands it over: text, a cell read as NaN or a
    column that is missing altogether (filled with `None`). `ReadCell` below
    says which field gives which cell.
  */
  datatype Cell = Text(text: string) | Nan | Absent

  /**
    The field texts the CSV reader takes for a missing value by default: the
    empty field and the usual spellings of "not available".
  */
  const NaMarkers: set<string> := {
    "", "#N/A", "#N/A N/A", "#NA", "-1.#IND", "-1.#QNAN", "-NaN", "-nan",
    "1.#IND", "1.#QNAN", "<NA>", "N/A", "NA", "NULL", "NaN", "None", "n/a",
    "nan", "null"}

  /**
    How the reader turns one field into a cell: a column the file lacks gives
    `Absent`, an NA marker gives NaN and any other text is kept as it is.
  */
  function ReadCell(field: Option<string>): (c: Cell)
    ensures c.Absent? <==> field.None?
    ensures c.Nan? <==> field.Some? && field.value in NaMarkers
    ensures c.Text? ==> field == Some(c.text) && c.text !in NaMarkers
  {
    match field
    case None => Absent
    case Some(s) => if s in NaMarkers then Nan else Text(s)
  }

  /** Reading a field and printing the cell gives the field back, unless it is an NA marker. */
  lemma ReadCellPrints(s: string)
    ensures s !in NaMarkers ==> CellStr(ReadCell(Some(s))) == s
    ensures s in NaMarkers ==> CellStr(ReadCell(Some(s))) == "nan"
  {
  }

  /** Text cells the reader produces are never empty. */
  lemma ReadTextNonEmpty(s: string)
    requires ReadCell(Some(s)).Text?
    ensures |ReadCell(Some(s)).text| > 0
  {
    assert "" in NaMarkers;
  }

  /** `str(cell)`. */
  function CellStr(c: Cell): (r: string)
    ensures c.Text? ==> r == c.text
    ensures c.Nan? ==> r == "nan"
    ensures c.Absent? ==> r == "None"
  {
    match c
    case Text(s) => s
    case Nan => "nan"
    case Absent => "None"
  }

  /** The cell as a dynamic value; both kinds of missing become `None`. */
  function CellValue(c: Cell): (r: Value)
    ensures r == Null <==> !c.Text?
  {
    if c.Text? then Str(c.text) else Null
  }

  /**
    `parse_payload`: a missing or blank blob is an empty object and no error;
    otherwise the stripped text goes to the JSON decoder, whose failure gives
    an empty object and the error flag.
  */
  function ParsePayload(blob: Cell, decode: string -> Option<Value>): (r: (Value, bool))
    ensures r.1 ==> r.0 == Dict([])
    ensures !blob.Text? ==> r == (Dict([]), false)
    ensures blob.Text? && IsBlank(blob.text) ==> r == (Dict([]), false)
    ensures blob.Text? && !IsBlank(blob.text) ==>
      match decode(Strip(blob.text))
      case Some(v) => r == (v, false)
      case None => r == (Dict([]), true)
  {
    if !blob.Text? then (Dict([]), false)
    else
      var s := Strip(blob.text);
      if |s| == 0 then (Dict([]), false)
      else match decode(s)
        case Some(v) => (v, false)
        case None => (Dict([]), true)
  }

  /** `get_nested`: follows `path` through nested dicts, `None` when a step is missing. */
  function GetNested(obj: Value, path: seq<string>): (r: Value)
    decreases |path|
  {
    if |path| == 0 then obj
    else match Get(obj, path[0])
      case None => Null
      case Some(v) => GetNested(v, path[1..])
  }

  /** Walking a path in two legs is walking it in one. */
  lemma {:induction false} GetNestedConcat(obj: Value, p: seq<string>, q: seq<string>)
    ensures GetNested(obj, p + q) == GetNested(GetNested(obj, p), q)
    decreases |p|
  {
    if |p| == 0 {
      assert p + q == q;
    } else {
      assert (p + q)[0] == p[0] && (p + q)[1..] == p[1..] + q;
      match Get(obj, p[0])
      case None =>
        assert GetNested(obj, p + q) == Null;
        if |q| > 0 { assert Get(Null, q[0]).None?; }
      case Some(v) => GetNestedConcat(v, p[1..], q);
    }
  }

  /** A one-step path is `dict.get`. */
  lemma GetNestedSingle(obj: Value, key: string)
    ensures GetNested(obj, [key]) == GetOrNull(obj, key)
  {
    assert [key][1..] == [];
  }

  /** The payload fields copied onto every event. */
  datatype FlatPayload = FlatPayload(
    entityApplicationId: Value,
    entityApplicationName: Value,
    entityType: Value,
    entityId: Value,
    entityName: Value,
    settingsDataType: Value,
    settingsIsSecurityBlock: Value,
    typeTag: Value)

  /** `flatten_payload`: a fixed projection of nested payload paths. */
  function FlattenPayload(payload: Value): FlatPayload
  {
    FlatPayload(
      GetNested(payload, ["entity", "application", "id"]),
      GetNested(payload, ["entity", "application", "name"]),
      GetNested(payload, ["entity", "entityType"]),
      GetNested(payload, ["entity", "id"]),
      GetNested(payload, ["entity", "name"]),
      GetNested(payload, ["settings", "dataType"]),
      GetNested(payload, ["settings", "isSecurityBlock"]),
      GetOrNull(payload, "type"))
  }

  /**
    `flatten_payload` as written. Its last field is read with `payload.get`,
    which only a dict has, so a blob that decodes to a list, a string, a
    number, a boolean or `null` stops the run.
  */
  function FlattenAsWritten(payload: Value): (r: Option<FlatPayload>)
    ensures r.None? <==> !payload.Dict?
    ensures r.Some? ==> r.value == FlattenPayload(payload)
  {
    if payload.Dict? then Some(FlattenPayload(payload)) else None
  }

  /** A non-blank blob that decodes to anything but an object stops the run as written. */
  lemma NonObjectPayloadCrashes(blob: Cell, decode: string -> Option<Value>)
    requires blob.Text? && !IsBlank(blob.text)
    requires decode(Strip(blob.text)).Some? && !decode(Strip(blob.text)).value.Dict?
    ensures FlattenAsWritten(ParsePayload(blob, decode).0).None?
  {
  }

  /** The blob `null` decodes to `None`, and `None.get` fails. */
  lemma NullBlobCrashes(decode: string -> Option<Value>)
    requires decode("null") == Some(Null)
    ensures FlattenAsWritten(ParsePayload(Text("null"), decode).0).None?
    ensures FlattenPayload(ParsePayload(Text("null"), decode).0) == FlattenPayload(Dict([]))
  {
    assert !IsSpace('n') && !IsSpace('l');
    assert StripLeft("null") == "null";
    assert StripRight("null") == "null";
    NonObjectReadsEmpty(Null);
    FlattenEmpty();
  }

  /** The model reads a payload that is not an object as one without fields. */
  lemma NonObjectReadsEmpty(payload: Value)
    requires !payload.Dict?
    ensures FlattenPayload(payload) == FlatPayload(Null, Null, Null, Null, Null, Null, Null, Null)
  {
    assert forall p: seq<string> | |p| > 0 :: GetNested(payload, p) == Null;
  }

  /** A payload without a dict under "entity" leaves every entity field `None`. */
  lemma FlattenWithoutEntity(payload: Value)
    requires Get(payload, "entity").None? || !Get(payload, "entity").value.Dict?
    ensures var r := FlattenPayload(payload);
      r.entityApplicationId == Null && r.entityApplicationName == Null
      && r.entityType == Null && r.entityId == Null && r.entityName == Null
  {
    var e := GetOrNull(payload, "entity");
    assert !e.Dict?;
    GetNestedConcat(payload, ["entity"], ["application", "id"]);
    GetNestedConcat(payload, ["entity"], ["application", "name"]);
    GetNestedConcat(payload, ["entity"], ["entityType"]);
    GetNestedConcat(payload, ["entity"], ["id"]);
    GetNestedConcat(payload, ["entity"], ["name"]);
    GetNestedSingle(payload, "entity");
    assert ["entity"] + ["application", "id"] == ["entity", "application", "id"];
    assert ["entity"] + ["application", "name"] == ["entity", "application", "name"];
    assert ["entity"] + ["entityType"] == ["entity", "entityType"];
    assert ["entity"] + ["id"] == ["entity", "id"];
    assert ["entity"] + ["name"] == ["entity", "name"];
  }

  /** An empty payload projects to all-`None` fields. */
  lemma FlattenEmpty()
    ensures FlattenPayload(Dict([])) ==
      FlatPayload(Null, Null, Null, Null, Null, Null, Null, Null)
  {
  }

  /** `safe_str`: `None` for a missing value or one that prints blank, else its text. */
  function SafeStr(v: Value): (r: Option<string>)
    ensures r.None? <==> v == Null || IsBlank(Render(v))
    ensures r.Some? ==> r.value == Render(v) && |r.value| > 0
  {
    if v == Null then None
    else
      var s := Render(v);
      if |Strip(s)| == 0 then None else Some(s)
  }
}

=== FILE: pyvalue.dfy ===
/**
  The dynamically typed values the inspector handles: decoded JSON payloads,
  metadata records and the fields copied out of them. A dict is an
  association list in insertion order, as a Python dict iterates.
*/
module PyValue {
  import opened Wrappers
  import opened Text
  import opened Dicts

  datatype Value =
    | Null
    | Bool(b: bool)
    | Int(i: int)
    | Str(s: string)
    | List(items: seq<Value>)
    | Dict(entries: seq<(string, Value)>)

  /** Index of the first entry stored under `key`, if any. */
  function FindKey(entries: seq<(string, Value)>, key: string): (r: Option<nat>)
    ensures r.Some? ==> r.value < |entries| && entries[r.value].0 == key
    ensures r.Some? ==> forall j :: 0 <= j < r.value ==> entries[j].0 != key
    ensures r.None? <==> forall j :: 0 <= j < |entries| ==> entries[j].0 != key
  {
    if |entries| == 0 then None
    else if entries[0].0 == key then Some(0)
    else match FindKey(entries[1..], key)
      case None => None
      case Some(j) => Some(j + 1)
  }

  /** `key in d` followed by `d[key]`; non-dicts hold no keys. */
  function Get(d: Value, key: string): (r: Option<Value>)
    ensures r.Some? <==> d.Dict? && exists j :: 0 <= j < |d.entries| && d.entries[j].0 == key
  {
    if d.Dict? then
      match FindKey(d.entries, key)
      case None => None
      case Some(j) => Some(d.entries[j].1)
    else None
  }

  /** `d.get(key)`: the stored value, or `None` when the key is missing. */
  function GetOrNull(d: Value, key: string): (r: Value)
    ensures Get(d, key).None? ==> r == Null
    ensures Get(d, key).Some? ==> r == Get(d, key).value
  {
    Get(d, key).GetOr(Null)
  }

  /** Python truthiness. */
  predicate Truthy(v: Value) {
    match v
    case Null => false
    case Bool(b) => b
    case Int(i) => i != 0
    case Str(s) => |s| > 0
    case List(xs) => |xs| > 0
    case Dict(es) => |es| > 0
  }

  /** `a or b`. */
  function Or(a: Value, b: Value): (r: Value)
    ensures Truthy(a) ==> r == a
    ensures !Truthy(a) ==> r == b
  {
    if Truthy(a) then a else b
  }

  /** `repr(v)` as used inside `str` of a container: strings are quoted. */
  function Repr(v: Value): (r: string)
    decreases v, 1
  {
    if v.Str? then "'" + v.s + "'" else Render(v)
  }

  /** `str(v)`. */
  function Render(v: Value): (r: string)
    ensures v.Str? ==> r == v.s
    ensures !v.Str? ==> |r| > 0
    decreases v, 0
  {
    match v
    case Null => "None"
    case Bool(b) => if b then "True" else "False"
    case Int(i) => IntToString(i)
    case Str(s) => s
    case List(xs) =>
      "[" + Join(seq(|xs|, k requires 0 <= k < |xs| => Repr(xs[k])), ", ") + "]"
    case Dict(es) =>
      "{" + Join(seq(|es|, k requires 0 <= k < |es| => "'" + es[k].0 + "': " + Repr(es[k].1)), ", ") + "}"
  }

  /** A truthy value never prints as the empty string. */
  lemma TruthyRendersNonEmpty(v: Value)
    requires Truthy(v)
    ensures |Render(v)| > 0
  {
  }

  /** The numeric value of a bool or int, as Python compares them. */
  function Numeric(v: Value): int
    requires v.Bool? || v.Int?
  {
    if v.Bool? then (if v.b then 1 else 0) else v.i
  }

  /**
    Python's `==`: `True == 1` and `False == 0`; lists compare element-wise;
    dicts are equal when they hold the same keys with equal values, whatever
    the insertion order. A key's value is the one `Get` finds.
  */
  predicate PyEq(a: Value, b: Value)
    decreases a
  {
    if (a.Bool? || a.Int?) && (b.Bool? || b.Int?) then Numeric(a) == Numeric(b)
    else match (a, b)
      case (Null, Null) => true
      case (Str(s), Str(t)) => s == t
      case (List(xs), List(ys)) =>
        |xs| == |ys| && forall k :: 0 <= k < |xs| ==> PyEq(xs[k], ys[k])
      case (Dict(es), Dict(fs)) =>
        (forall j :: 0 <= j < |fs| ==> FindKey(es, fs[j].0).Some?) &&
        forall i :: 0 <= i < |es| ==>
          (match FindKey(fs, es[i].0)
           case None => false
           case Some(j) => FindKey(es, es[i].0) == Some(i) ==> PyEq(es[i].1, fs[j].1))
      case _ => false
  }

  /** The first entry of its key is the one `FindKey` returns. */
  lemma FindKeyFirst(es: seq<(string, Value)>, i: nat)
    requires i < |es| && forall j :: 0 <= j < i ==> es[j].0 != es[i].0
    ensures FindKey(es, es[i].0) == Some(i)
  {
  }

  lemma {:induction false} PyEqReflexive(a: Value)
    ensures PyEq(a, a)
    decreases a
  {
    match a
    case List(xs) =>
      forall k | 0 <= k < |xs| ensures PyEq(xs[k], xs[k]) { PyEqReflexive(xs[k]); }
    case Dict(es) =>
      forall i | 0 <= i < |es| ensures FindKey(es, es[i].0).Some? {
        KeyFound(es, i);
      }
      forall i | 0 <= i < |es| && FindKey(es, es[i].0) == Some(i) ensures PyEq(es[i].1, es[i].1) {
        PyEqReflexive(es[i].1);
      }
    case _ =>
  }

  lemma {:induction false} PyEqSymmetric(a: Value, b: Value)
    requires PyEq(a, b)
    ensures PyEq(b, a)
    decreases a
  {
    if (a.Bool? || a.Int?) && (b.Bool? || b.Int?) {
    } else {
      match (a, b)
      case (List(xs), List(ys)) =>
        forall k | 0 <= k < |ys| ensures PyEq(ys[k], xs[k]) { PyEqSymmetric(xs[k], ys[k]); }
      case (Dict(es), Dict(fs)) =>
        forall i | 0 <= i < |es| ensures FindKey(fs, es[i].0).Some? {
          assert FindKey(fs, es[i].0).Some?;
        }
        forall j | 0 <= j < |fs| && FindKey(fs, fs[j].0) == Some(j)
          ensures FindKey(es, fs[j].0).Some? && PyEq(fs[j].1, es[FindKey(es, fs[j].0).value].1)
        {
          var i := FindKey(es, fs[j].0).value;
          assert FindKey(es, es[i].0) == Some(i);
          assert FindKey(fs, es[i].0) == Some(j);
          PyEqSymmetric(es[i].1, fs[j].1);
        }
      case _ =>
    }
  }

  /** A stored key is found. */
  lemma KeyFound(es: seq<(string, Value)>, i: nat)
    requires i < |es|
    ensures FindKey(es, es[i].0).Some?
  {
  }

  /** An entry of a dict with unique keys is the one stored under its key. */
  lemma FindEntry(fs: seq<(string, Value)>, e: (string, Value))
    requires UniqueKeys(fs) && e in fs
    ensures FindKey(fs, e.0).Some? && fs[FindKey(fs, e.0).value] == e
  {
    var j :| 0 <= j < |fs| && fs[j] == e;
    FindKeyFirst(fs, j);
  }

  /** Every key of `fs` is a key of a permutation `es` of it. */
  lemma PermutedKeysFound(es: seq<(string, Value)>, fs: seq<(string, Value)>)
    requires multiset(es) == multiset(fs)
    ensures forall j :: 0 <= j < |fs| ==> FindKey(es, fs[j].0).Some?
  {
    forall j | 0 <= j < |fs| ensures FindKey(es, fs[j].0).Some? {
      assert fs[j] in multiset(es);
      var i :| 0 <= i < |es| && es[i] == fs[j];
      KeyFound(es, i);
    }
  }

  /** Every entry of `es` is found, with its own value, in a permutation `fs` with unique keys. */
  lemma PermutedEntriesFound(es: seq<(string, Value)>, fs: seq<(string, Value)>)
    requires UniqueKeys(fs) && multiset(es) == multiset(fs)
    ensures forall i :: 0 <= i < |es| ==>
      FindKey(fs, es[i].0).Some? && fs[FindKey(fs, es[i].0).value] == es[i]
  {
    forall i | 0 <= i < |es| ensures FindKey(fs, es[i].0).Some? && fs[FindKey(fs, es[i].0).value] == es[i] {
      assert es[i] in multiset(fs);
      FindEntry(fs, es[i]);
    }
  }

  /** Reordering a dict's entries leaves it equal to the original. */
  lemma PyEqPermutedDict(es: seq<(string, Value)>, fs: seq<(string, Value)>)
    requires UniqueKeys(fs) && multiset(es) == multiset(fs)
    ensures PyEq(Dict(es), Dict(fs))
  {
    PermutedKeysFound(es, fs);
    PermutedEntriesFound(es, fs);
    forall i | 0 <= i < |es| ensures PyEq(es[i].1, es[i].1) {
      PyEqReflexive(es[i].1);
    }
  }

  /** `{"a": 1, "b": 2} == {"b": 2, "a": 1}`. */
  lemma ReorderedDictsEqual()
    ensures PyEq(Dict([("a", Int(1)), ("b", Int(2))]), Dict([("b", Int(2)), ("a", Int(1))]))
  {
    var es := [("a", Int(1)), ("b", Int(2))];
    var fs := [("b", Int(2)), ("a", Int(1))];
    assert multiset(es) == multiset(fs);
    PyEqPermutedDict(es, fs);
  }

  /** Equal dicts hold the same keys, with equal values under each. */
  lemma PyEqDictLookups(es: seq<(string, Value)>, fs: seq<(string, Value)>, key: string)
    requires PyEq(Dict(es), Dict(fs))
    ensures Get(Dict(es), key).Some? <==> Get(Dict(fs), key).Some?
    ensures Get(Dict(es), key).Some? ==> PyEq(Get(Dict(es), key).value, Get(Dict(fs), key).value)
  {
    match FindKey(es, key)
    case Some(i) =>
      assert FindKey(es, es[i].0) == Some(i);
    case None =>
  }

  /** Equal values of the same kind are Dafny-equal, except across bool and int. */
  lemma PyEqOfStrings(s: string, t: string)
    ensures PyEq(Str(s), Str(t)) <==> s == t
  {
  }
}

=== FILE: risk.dfy ===
/**
  The risk scorer: a base score from the severity, then eleven rules taken in
  a fixed order (event keywords, entity sensitivity, graph centrality). A
  rule that fires adds its points and appends its reason tag. The total is
  clamped to 0..100 and the tags are joined with `;`.
*/
module Risk {
  import opened Wrappers
  import opened Text
  import opened PyValue
  import opened Payload
  import opened Classify

  /** The entity signals the scorer reads; counts are `None` when unknown. */
  datatype Signals = Signals(
    isSecurityBlock: Value,
    dataType: Value,
    direct: Option<int>,
    transitive: Option<int>,
    boards: Option<int>,
    views: Option<int>)

  /** The reason tags, in the order the scorer evaluates them. */
  datatype Reason =
    | Deletion
    | FormulaChange
    | MetricUpdate
    | DataExport
    | Impersonation
    | SecurityBlock
    | FundamentalDataType
    | DirectDependents(n: int)
    | TransitiveDependents(n: int)
    | BoardsUsing(n: int)
    | ViewsUsing(n: int)

  /** Position of a reason in the evaluation order. */
  function Rank(r: Reason): nat {
    match r
    case Deletion => 0
    case FormulaChange => 1
    case MetricUpdate => 2
    case DataExport => 3
    case Impersonation => 4
    case SecurityBlock => 5
    case FundamentalDataType => 6
    case DirectDependents(_) => 7
    case TransitiveDependents(_) => 8
    case BoardsUsing(_) => 9
    case ViewsUsing(_) => 10
  }

  /** Count tags only ever carry a positive count. */
  predicate WellFormed(r: Reason) {
    r.DirectDependents? || r.TransitiveDependents? || r.BoardsUsing? || r.ViewsUsing? ==> r.n > 0
  }

  /** The text of a reason tag; counts print in decimal. */
  function Tag(r: Reason): string
    requires WellFormed(r)
  {
    match r
    case Deletion => "deletion"
    case FormulaChange => "formula_change"
    case MetricUpdate => "metric_update"
    case DataExport => "data_export"
    case Impersonation => "impersonation"
    case SecurityBlock => "security_block"
    case FundamentalDataType => "fundamental_data_type"
    case DirectDependents(n) => "direct_dependents=" + NatToString(n)
    case TransitiveDependents(n) => "transitive_dependents=" + NatToString(n)
    case BoardsUsing(n) => "boards_using=" + NatToString(n)
    case ViewsUsing(n) => "views_using=" + NatToString(n)
  }

  function Tags(rs: seq<Reason>): (r: seq<string>)
    requires forall i :: 0 <= i < |rs| ==> WellFormed(rs[i])
    ensures |r| == |rs|
    ensures forall i :: 0 <= i < |rs| ==> r[i] == Tag(rs[i])
  {
    seq(|rs|, i requires 0 <= i < |rs| => Tag(rs[i]))
  }

  function BaseScore(s: Severity): int {
    match s
    case Critical => 80
    case High => 60
    case Medium => 40
    case Low => 10
  }

  const FundamentalKeys: seq<string> := ["number", "currency", "percentage", "rate", "kpi"]

  /** The data type names a fundamental numeric type. */
  predicate Fundamental(dataType: Value) {
    match SafeStr(dataType)
    case None => false
    case Some(d) => ContainsAny(Lower(d), FundamentalKeys)
  }

  /** `isinstance(c, int) and c > 0`. */
  predicate Positive(c: Option<int>) { c.Some? && c.value > 0 }

  function Min(a: int, b: int): int { if a <= b then a else b }

  /** A centrality term: `min(cap, factor * c)` for a positive count, else 0. */
  function CountPoints(c: Option<int>, factor: nat, cap: nat): (p: int)
    ensures 0 <= p <= cap
    ensures !Positive(c) ==> p == 0
  {
    if Positive(c) then Min(cap, factor * c.value) else 0
  }

  /** One scoring rule: whether it fires, what it adds and the reason it appends. */
  datatype Rule = Rule(fires: bool, points: int, reason: Reason)

  const RuleCount: nat := 11

  /** Every rule sits at its own rank, and a firing rule carries a well-formed reason. */
  predicate InOrder(rules: seq<Rule>) {
    forall k :: 0 <= k < |rules| ==>
      Rank(rules[k].reason) == k && (rules[k].fires ==> WellFormed(rules[k].reason))
  }

  /** The five event-type rules, on the lower-cased event type `et`. */
  function TypeRules(et: string): (rules: seq<Rule>)
    ensures |rules| == 5 && InOrder(rules)
  {
    [ Rule(Contains(et, "deleted"), 10, Deletion),
      Rule(Contains(et, "formula"), 8, FormulaChange),
      Rule(Contains(et, "metric") && Contains(et, "updated"), 6, MetricUpdate),
      Rule(Contains(et, "export"), 0, DataExport),
      Rule(Contains(et, "impersonation"), 0, Impersonation) ]
  }

  /** The sensitivity and centrality rules, ranked 5 to 10. */
  function SignalRules(sig: Signals): (rules: seq<Rule>)
    ensures |rules| == 6
    ensures forall k :: 0 <= k < 6 ==>
      Rank(rules[k].reason) == k + 5 && (rules[k].fires ==> WellFormed(rules[k].reason))
  {
    [ Rule(sig.isSecurityBlock == Bool(true), 15, SecurityBlock),
      Rule(Fundamental(sig.dataType), 5, FundamentalDataType),
      Rule(Positive(sig.direct), CountPoints(sig.direct, 2, 20), DirectDependents(sig.direct.GetOr(0))),
      Rule(Positive(sig.transitive), CountPoints(sig.transitive, 1, 20), TransitiveDependents(sig.transitive.GetOr(0))),
      Rule(Positive(sig.boards), CountPoints(sig.boards, 3, 15), BoardsUsing(sig.boards.GetOr(0))),
      Rule(Positive(sig.views), CountPoints(sig.views, 1, 10), ViewsUsing(sig.views.GetOr(0))) ]
  }

  /** The eleven rules in evaluation order. */
  function Rules(et: string, sig: Signals): (rules: seq<Rule>)
    ensures |rules| == RuleCount && InOrder(rules)
    ensures forall k :: 0 <= k < 5 ==> rules[k] == TypeRules(et)[k]
    ensures forall k :: 5 <= k < RuleCount ==> rules[k] == SignalRules(sig)[k - 5]
  {
    TypeRules(et) + SignalRules(sig)
  }

  /** What a rule contributes to the score. */
  function Earned(r: Rule): int { if r.fires then r.points else 0 }

  /** The points the firing rules among the first `k` earn. */
  function Earnings(k: nat, rules: seq<Rule>): int
    requires k <= |rules|
  {
    if k == 0 then 0 else Earnings(k - 1, rules) + Earned(rules[k - 1])
  }

  /** The running score and reasons. */
  datatype Tally = Tally(score: int, reasons: seq<Reason>)

  /**
    The tally after the first `k` rules, starting from `base`. The reasons
    are the fired rules' reasons in rule order, so they are ordered by rank
    and free of repeats.
  */
  function Run(k: nat, rules: seq<Rule>, base: int): (t: Tally)
    requires k <= |rules| && InOrder(rules)
    ensures forall i :: 0 <= i < |t.reasons| ==> Rank(t.reasons[i]) < k && WellFormed(t.reasons[i])
    ensures forall i :: 0 <= i < |t.reasons| ==>
      rules[Rank(t.reasons[i])].fires && rules[Rank(t.reasons[i])].reason == t.reasons[i]
    ensures forall i, j :: 0 <= i < j < |t.reasons| ==> Rank(t.reasons[i]) < Rank(t.reasons[j])
    ensures t.score == base + Earnings(k, rules)
  {
    if k == 0 then Tally(base, [])
    else
      var t := Run(k - 1, rules, base);
      var rule := rules[k - 1];
      if rule.fires then Tally(t.score + rule.points, t.reasons + [rule.reason]) else t
  }

  /** `(event_type or "").lower()`. */
  function TypeText(eventType: Option<string>): string {
    Lower(eventType.GetOr(""))
  }

  /** Score and reasons before the clamp. */
  function Assess(eventType: Option<string>, severity: Severity, sig: Signals): Tally {
    Run(RuleCount, Rules(TypeText(eventType), sig), BaseScore(severity))
  }

  /** `max(0, min(100, score))`. */
  function Clamp(score: int): (r: int)
    ensures 0 <= r <= 100
    ensures 0 <= score <= 100 ==> r == score
    ensures score > 100 ==> r == 100
  {
    if score < 0 then 0 else if score > 100 then 100 else score
  }

  /** `compute_risk`: the clamped score and the reasons joined by `;`. */
  function ComputeRisk(eventType: Option<string>, severity: Severity, sig: Signals): (r: (int, string))
    ensures 0 <= r.0 <= 100
    ensures r.0 == Clamp(BaseScore(severity) + Earnings(RuleCount, Rules(TypeText(eventType), sig)))
  {
    var t := Assess(eventType, severity, sig);
    (Clamp(t.score), Join(Tags(t.reasons), ";"))
  }

  // ---------------------------------------------------------------------------
  // Properties
  // ---------------------------------------------------------------------------

  lemma FreeConcat(a: string, b: string, c: char)
    requires Free(a, c) && Free(b, c)
    ensures Free(a + b, c)
  {
    assert forall i :: 0 <= i < |a| ==> (a + b)[i] == a[i];
    assert forall i :: |a| <= i < |a + b| ==> (a + b)[i] == b[i - |a|];
  }

  lemma CountTagFree(prefix: string, n: nat)
    requires Free(prefix, ';')
    ensures Free(prefix + NatToString(n), ';')
  {
    FreeConcat(prefix, NatToString(n), ';');
  }

  lemma FixedTagFree(r: Reason)
    requires !(r.DirectDependents? || r.TransitiveDependents? || r.BoardsUsing? || r.ViewsUsing?)
    ensures Free(Tag(r), ';')
  {
    match r
    case Deletion => assert Free("deletion", ';');
    case FormulaChange => assert Free("formula_change", ';');
    case MetricUpdate => assert Free("metric_update", ';');
    case DataExport => assert Free("data_export", ';');
    case Impersonation => assert Free("impersonation", ';');
    case SecurityBlock => assert Free("security_block", ';');
    case FundamentalDataType => assert Free("fundamental_data_type", ';');
  }

  /** No tag contains the `;` the tags are joined with. */
  lemma TagFree(r: Reason)
    requires WellFormed(r)
    ensures Free(Tag(r), ';')
  {
    match r
    case DirectDependents(n) => CountTagFree("direct_dependents=", n);
    case TransitiveDependents(n) => CountTagFree("transitive_dependents=", n);
    case BoardsUsing(n) => CountTagFree("boards_using=", n);
    case ViewsUsing(n) => CountTagFree("views_using=", n);
    case _ => FixedTagFree(r);
  }

  /** A reason is reported exactly when its rule fires with that very reason. */
  lemma {:induction false} ReasonPresent(k: nat, rules: seq<Rule>, base: int, r: Reason)
    requires k <= |rules| && InOrder(rules)
    ensures r in Run(k, rules, base).reasons <==>
      Rank(r) < k && rules[Rank(r)].fires && rules[Rank(r)].reason == r
  {
    if k > 0 {
      ReasonPresent(k - 1, rules, base, r);
    }
  }

  /** The event-type reasons appear exactly when their keywords occur. */
  lemma TypeReasonsPresent(eventType: Option<string>, severity: Severity, sig: Signals)
    ensures var t := Assess(eventType, severity, sig); var et := TypeText(eventType);
      && (Deletion in t.reasons <==> Contains(et, "deleted"))
      && (FormulaChange in t.reasons <==> Contains(et, "formula"))
      && (MetricUpdate in t.reasons <==> Contains(et, "metric") && Contains(et, "updated"))
      && (DataExport in t.reasons <==> Contains(et, "export"))
      && (Impersonation in t.reasons <==> Contains(et, "impersonation"))
  {
    var rules := Rules(TypeText(eventType), sig);
    var base := BaseScore(severity);
    ReasonPresent(RuleCount, rules, base, Deletion);
    ReasonPresent(RuleCount, rules, base, FormulaChange);
    ReasonPresent(RuleCount, rules, base, MetricUpdate);
    ReasonPresent(RuleCount, rules, base, DataExport);
    ReasonPresent(RuleCount, rules, base, Impersonation);
  }

  /** The sensitivity reasons: a security block is flagged only by a literal `True`. */
  lemma SensitivityReasonsPresent(eventType: Option<string>, severity: Severity, sig: Signals)
    ensures var t := Assess(eventType, severity, sig);
      && (SecurityBlock in t.reasons <==> sig.isSecurityBlock == Bool(true))
      && (FundamentalDataType in t.reasons <==> Fundamental(sig.dataType))
  {
    var rules := Rules(TypeText(eventType), sig);
    var base := BaseScore(severity);
    ReasonPresent(RuleCount, rules, base, SecurityBlock);
    ReasonPresent(RuleCount, rules, base, FundamentalDataType);
  }

  /** A centrality tag appears, carrying the count, exactly when the count is positive. */
  lemma CountReasonsPresent(eventType: Option<string>, severity: Severity, sig: Signals, n: int)
    ensures var t := Assess(eventType, severity, sig);
      && (DirectDependents(n) in t.reasons <==> sig.direct == Some(n) && n > 0)
      && (TransitiveDependents(n) in t.reasons <==> sig.transitive == Some(n) && n > 0)
      && (BoardsUsing(n) in t.reasons <==> sig.boards == Some(n) && n > 0)
      && (ViewsUsing(n) in t.reasons <==> sig.views == Some(n) && n > 0)
  {
    DependentReasonsPresent(eventType, severity, sig, n);
    UsageReasonsPresent(eventType, severity, sig, n);
  }

  lemma DependentReasonsPresent(eventType: Option<string>, severity: Severity, sig: Signals, n: int)
    ensures var t := Assess(eventType, severity, sig);
      && (DirectDependents(n) in t.reasons <==> sig.direct == Some(n) && n > 0)
      && (TransitiveDependents(n) in t.reasons <==> sig.transitive == Some(n) && n > 0)
  {
    var rules := Rules(TypeText(eventType), sig);
    var base := BaseScore(severity);
    ReasonPresent(RuleCount, rules, base, DirectDependents(n));
    ReasonPresent(RuleCount, rules, base, TransitiveDependents(n));
  }

  lemma UsageReasonsPresent(eventType: Option<string>, severity: Severity, sig: Signals, n: int)
    ensures var t := Assess(eventType, severity, sig);
      && (BoardsUsing(n) in t.reasons <==> sig.boards == Some(n) && n > 0)
      && (ViewsUsing(n) in t.reasons <==> sig.views == Some(n) && n > 0)
  {
    var rules := Rules(TypeText(eventType), sig);
    var base := BaseScore(severity);
    ReasonPresent(RuleCount, rules, base, BoardsUsing(n));
    ReasonPresent(RuleCount, rules, base, ViewsUsing(n));
  }

  /** If every rule earns no more under one set of rules than under another, neither does the total. */
  lemma {:induction false} EarningsLe(k: nat, rules: seq<Rule>, rules': seq<Rule>)
    requires k <= |rules| && k <= |rules'|
    requires forall i :: 0 <= i < k ==> Earned(rules[i]) <= Earned(rules'[i])
    ensures Earnings(k, rules) <= Earnings(k, rules')
  {
    if k > 0 {
      EarningsLe(k - 1, rules, rules');
      assert Earned(rules[k - 1]) <= Earned(rules'[k - 1]);
    }
  }

  /** Export and impersonation add a reason but no points: types that agree on the scoring keywords score alike. */
  lemma ExportAndImpersonationScoreNothing(t1: Option<string>, t2: Option<string>, severity: Severity, sig: Signals)
    requires Contains(TypeText(t1), "deleted") == Contains(TypeText(t2), "deleted")
    requires Contains(TypeText(t1), "formula") == Contains(TypeText(t2), "formula")
    requires (Contains(TypeText(t1), "metric") && Contains(TypeText(t1), "updated"))
          == (Contains(TypeText(t2), "metric") && Contains(TypeText(t2), "updated"))
    ensures ComputeRisk(t1, severity, sig).0 == ComputeRisk(t2, severity, sig).0
  {
    var r1, r2 := Rules(TypeText(t1), sig), Rules(TypeText(t2), sig);
    assert forall i :: 0 <= i < RuleCount ==> Earned(r1[i]) == Earned(r2[i]);
    EarningsLe(RuleCount, r1, r2);
    EarningsLe(RuleCount, r2, r1);
  }

  /** A count of at least `c` dominates a count of `c`. */
  predicate AtLeast(c: Option<int>, c': Option<int>) {
    !Positive(c) || (c'.Some? && c'.value >= c.value)
  }

  lemma CountPointsMonotone(c: Option<int>, c': Option<int>, factor: nat, cap: nat)
    requires AtLeast(c, c')
    ensures CountPoints(c, factor, cap) <= CountPoints(c', factor, cap)
  {
    if Positive(c) {
      assert factor * c.value <= factor * c'.value by {
        assert factor * c'.value - factor * c.value == factor * (c'.value - c.value);
      }
    }
  }

  /** A signal rule earns at least as much on larger counts. */
  lemma SignalRuleEarnMonotone(sig: Signals, sig': Signals, k: nat)
    requires sig'.isSecurityBlock == sig.isSecurityBlock && sig'.dataType == sig.dataType
    requires AtLeast(sig.direct, sig'.direct) && AtLeast(sig.transitive, sig'.transitive)
    requires AtLeast(sig.boards, sig'.boards) && AtLeast(sig.views, sig'.views)
    requires k < 6
    ensures Earned(SignalRules(sig)[k]) <= Earned(SignalRules(sig')[k])
  {
    if k == 2 { CountPointsMonotone(sig.direct, sig'.direct, 2, 20); }
    else if k == 3 { CountPointsMonotone(sig.transitive, sig'.transitive, 1, 20); }
    else if k == 4 { CountPointsMonotone(sig.boards, sig'.boards, 3, 15); }
    else if k == 5 { CountPointsMonotone(sig.views, sig'.views, 1, 10); }
  }

  /** Rule by rule, larger counts earn at least as much. */
  lemma RulesEarnMonotone(et: string, sig: Signals, sig': Signals)
    requires sig'.isSecurityBlock == sig.isSecurityBlock && sig'.dataType == sig.dataType
    requires AtLeast(sig.direct, sig'.direct) && AtLeast(sig.transitive, sig'.transitive)
    requires AtLeast(sig.boards, sig'.boards) && AtLeast(sig.views, sig'.views)
    ensures forall i :: 0 <= i < RuleCount ==> Earned(Rules(et, sig)[i]) <= Earned(Rules(et, sig')[i])
  {
    forall i | 0 <= i < RuleCount ensures Earned(Rules(et, sig)[i]) <= Earned(Rules(et, sig')[i]) {
      if i >= 5 { SignalRuleEarnMonotone(sig, sig', i - 5); }
    }
  }

  /** Raising any centrality count, all else fixed, never lowers the score. */
  lemma ScoreMonotone(eventType: Option<string>, severity: Severity, sig: Signals, sig': Signals)
    requires sig'.isSecurityBlock == sig.isSecurityBlock && sig'.dataType == sig.dataType
    requires AtLeast(sig.direct, sig'.direct) && AtLeast(sig.transitive, sig'.transitive)
    requires AtLeast(sig.boards, sig'.boards) && AtLeast(sig.views, sig'.views)
    ensures ComputeRisk(eventType, severity, sig).0 <= ComputeRisk(eventType, severity, sig').0
  {
    var et := TypeText(eventType);
    RulesEarnMonotone(et, sig, sig');
    EarningsLe(RuleCount, Rules(et, sig), Rules(et, sig'));
  }

  /** Raising the direct-dependents count alone never lowers the score. */
  lemma DirectDependentsMonotone(eventType: Option<string>, severity: Severity, sig: Signals, d: int, d': int)
    requires d <= d'
    ensures ComputeRisk(eventType, severity, sig.(direct := Some(d))).0
         <= ComputeRisk(eventType, severity, sig.(direct := Some(d'))).0
  {
    ScoreMonotone(eventType, severity, sig.(direct := Some(d)), sig.(direct := Some(d')));
  }

  /** From ten direct dependents on, the direct term is saturated. */
  lemma DirectDependentsSaturate(eventType: Option<string>, severity: Severity, sig: Signals, d: int)
    requires d >= 10
    ensures ComputeRisk(eventType, severity, sig.(direct := Some(d))).0
         == ComputeRisk(eventType, severity, sig.(direct := Some(10))).0
  {
    var et := TypeText(eventType);
    var a, b := Rules(et, sig.(direct := Some(d))), Rules(et, sig.(direct := Some(10)));
    assert forall i :: 0 <= i < RuleCount ==> Earned(a[i]) == Earned(b[i]);
    EarningsLe(RuleCount, a, b);
    EarningsLe(RuleCount, b, a);
  }

  /** The reason string splits back into the tags, in rule order. */
  lemma ReasonsRoundTrip(eventType: Option<string>, severity: Severity, sig: Signals)
    requires |Assess(eventType, severity, sig).reasons| > 0
    ensures Split(ComputeRisk(eventType, severity, sig).1, ';') == Tags(Assess(eventType, severity, sig).reasons)
  {
    var t := Assess(eventType, severity, sig);
    var tags := Tags(t.reasons);
    forall i | 0 <= i < |tags| ensures Free(tags[i], ';') { TagFree(t.reasons[i]); }
    SplitJoin(tags, ';');
  }

  /** A security block's reason string always carries the tag "security_block". */
  lemma SecurityBlockTagged(eventType: Option<string>, severity: Severity, sig: Signals)
    requires sig.isSecurityBlock == Bool(true)
    ensures "security_block" in Split(ComputeRisk(eventType, severity, sig).1, ';')
  {
    SensitivityReasonsPresent(eventType, severity, sig);
    var t := Assess(eventType, severity, sig);
    var k :| 0 <= k < |t.reasons| && t.reasons[k] == SecurityBlock;
    ReasonsRoundTrip(eventType, severity, sig);
    assert Tags(t.reasons)[k] == "security_block";
  }

  // ---------------------------------------------------------------------------
  // Scenarios
  // ---------------------------------------------------------------------------

  /** Rules that do not fire leave the tally alone. */
  lemma {:induction false} RunQuiet(a: nat, b: nat, rules: seq<Rule>, base: int)
    requires a <= b <= |rules| && InOrder(rules)
    requires forall i :: a <= i < b ==> !rules[i].fires
    ensures Run(b, rules, base) == Run(a, rules, base)
    decreases b
  {
    if b > a {
      RunQuiet(a, b - 1, rules, base);
    }
  }

  /** A firing rule adds its points and appends its reason. */
  lemma RunFires(k: nat, rules: seq<Rule>, base: int, t: Tally)
    requires k < |rules| && InOrder(rules) && rules[k].fires
    requires Run(k, rules, base) == t
    ensures Run(k + 1, rules, base) == Tally(t.score + rules[k].points, t.reasons + [rules[k].reason])
  {
  }

  const NoSignals: Signals := Signals(Null, Null, None, None, None, None)

  lemma NullNotFundamental()
    ensures !Fundamental(Null)
  {
  }

  lemma MetricUpdatedScoringKeywords(t: string)
    requires t == "metricupdated"
    ensures !Contains(t, "deleted") && !Contains(t, "formula")
    ensures Contains(t, "metric") && Contains(t, "updated")
  {
    assert !Contains(t, "deleted") by { MissingCharNotContained(t, "deleted", 2); }
    assert !Contains(t, "formula") by { MissingCharNotContained(t, "formula", 0); }
    assert Contains(t, "metric") by { ContainsAt(t, "metric", 0); }
    assert Contains(t, "updated") by { SuffixContained(t, "updated"); }
  }

  /** Only the metric-update rule fires for "metricupdated" without metadata. */
  lemma MetricUpdatedRules(et: string)
    requires et == "metricupdated"
    ensures Rules(et, NoSignals) ==
      [ Rule(false, 10, Deletion), Rule(false, 8, FormulaChange), Rule(true, 6, MetricUpdate),
        Rule(false, 0, DataExport), Rule(false, 0, Impersonation), Rule(false, 15, SecurityBlock),
        Rule(false, 5, FundamentalDataType), Rule(false, 0, DirectDependents(0)),
        Rule(false, 0, TransitiveDependents(0)), Rule(false, 0, BoardsUsing(0)), Rule(false, 0, ViewsUsing(0)) ]
  {
    MetricUpdatedScoringKeywords(et);
    MetricUpdatedNotAccessAuthExport(et);
    NullNotFundamental();
  }

  lemma MetricUpdatedTally(et: string)
    requires et == "metricupdated"
    ensures Run(RuleCount, Rules(et, NoSignals), BaseScore(High)) == Tally(66, [MetricUpdate])
  {
    MetricUpdatedRules(et);
    var rules := Rules(et, NoSignals);
    RunQuiet(0, 2, rules, 60);
    RunQuiet(3, RuleCount, rules, 60);
  }

  lemma MetricUpdatedAssess()
    ensures Assess(Some("MetricUpdated"), High, NoSignals) == Tally(66, [MetricUpdate])
  {
    LowerMetricUpdated();
    MetricUpdatedTally(TypeText(Some("MetricUpdated")));
  }

  lemma MetricUpdateTags()
    ensures Tags([MetricUpdate]) == ["metric_update"]
  {
  }

  lemma MetricUpdatedRisk()
    ensures ComputeRisk(Some("MetricUpdated"), High, NoSignals) == (66, "metric_update")
  {
    MetricUpdatedAssess();
    RiskOfTally(Some("MetricUpdated"), High, NoSignals, Tally(66, [MetricUpdate]));
    MetricUpdateTags();
  }

  /** The risk pair is read off the tally. */
  lemma RiskOfTally(eventType: Option<string>, severity: Severity, sig: Signals, t: Tally)
    requires Assess(eventType, severity, sig) == t
    ensures ComputeRisk(eventType, severity, sig) == (Clamp(t.score), Join(Tags(t.reasons), ";"))
  {
  }

  /** "MetricUpdated" with no metadata: HIGH, 60 + 6, reason "metric_update". */
  lemma MetricUpdatedScenario()
    ensures BaseSeverity(Some("MetricUpdated")) == High
    ensures ComputeRisk(Some("MetricUpdated"), High, NoSignals) == (66, "metric_update")
  {
    MetricUpdatedClassification();
    MetricUpdatedRisk();
  }

  lemma LowerPermissionDeleted()
    ensures Lower("PermissionDeleted") == "permissiondeleted"
  {
  }

  lemma PermissionDeletedScoringKeywords(t: string)
    requires t == "permissiondeleted"
    ensures Contains(t, "deleted") && !Contains(t, "formula") && !Contains(t, "metric")
  {
    assert Contains(t, "deleted") by { SuffixContained(t, "deleted"); }
    assert !Contains(t, "formula") by { MissingCharNotContained(t, "formula", 0); }
    assert !Contains(t, "metric") by { MissingCharNotContained(t, "metric", 5); }
  }

  lemma PermissionDeletedTagKeywords(t: string)
    requires t == "permissiondeleted"
    ensures !Contains(t, "export") && !Contains(t, "impersonation")
  {
    NoExportKeyword(t);
    NoImpersonationKeyword(t);
  }

  lemma NoExportKeyword(t: string)
    requires t == "permissiondeleted"
    ensures !Contains(t, "export")
  {
    MissingCharNotContained(t, "export", 1);
  }

  lemma NoImpersonationKeyword(t: string)
    requires t == "permissiondeleted"
    ensures !Contains(t, "impersonation")
  {
    MissingCharNotContained(t, "impersonation", 8);
  }

  lemma PermissionDeletedCritical(t: string)
    requires t == "permissiondeleted"
    ensures ContainsAny(t, CriticalKeys)
  {
    ContainsAt(t, "permission", 0);
    assert Contains(t, CriticalKeys[1]);
  }

  const SecurityHub: Signals := NoSignals.(isSecurityBlock := Bool(true), direct := Some(3))

  /** The rules for "permissiondeleted" on a security block with three direct dependents. */
  const PermissionDeletedHubRules: seq<Rule> :=
    [ Rule(true, 10, Deletion), Rule(false, 8, FormulaChange), Rule(false, 6, MetricUpdate),
      Rule(false, 0, DataExport), Rule(false, 0, Impersonation), Rule(true, 15, SecurityBlock),
      Rule(false, 5, FundamentalDataType), Rule(true, 6, DirectDependents(3)),
      Rule(false, 0, TransitiveDependents(0)), Rule(false, 0, BoardsUsing(0)), Rule(false, 0, ViewsUsing(0)) ]

  lemma PermissionDeletedHubRun()
    ensures InOrder(PermissionDeletedHubRules)
    ensures Run(RuleCount, PermissionDeletedHubRules, 80) == Tally(111, [Deletion, SecurityBlock, DirectDependents(3)])
  {
    var rules := PermissionDeletedHubRules;
    assert InOrder(rules);
    RunFires(0, rules, 80, Tally(80, []));
    assert [] + [Deletion] == [Deletion];
    RunQuiet(1, 5, rules, 80);
    RunFires(5, rules, 80, Tally(90, [Deletion]));
    assert [Deletion] + [SecurityBlock] == [Deletion, SecurityBlock];
    RunQuiet(6, 7, rules, 80);
    RunFires(7, rules, 80, Tally(105, [Deletion, SecurityBlock]));
    assert [Deletion, SecurityBlock] + [DirectDependents(3)] == [Deletion, SecurityBlock, DirectDependents(3)];
    RunQuiet(8, RuleCount, rules, 80);
  }

  lemma PermissionDeletedRules(et: string)
    requires et == "permissiondeleted"
    ensures Rules(et, SecurityHub) == PermissionDeletedHubRules
  {
    PermissionDeletedScoringKeywords(et);
    PermissionDeletedTagKeywords(et);
    NullNotFundamental();
  }

  lemma PermissionDeletedTally(et: string)
    requires et == "permissiondeleted"
    ensures Run(RuleCount, Rules(et, SecurityHub), BaseScore(Critical))
         == Tally(111, [Deletion, SecurityBlock, DirectDependents(3)])
  {
    PermissionDeletedRules(et);
    PermissionDeletedHubRun();
  }

  lemma PermissionDeletedSeverity()
    ensures BaseSeverity(Some("PermissionDeleted")) == Critical
  {
    LowerPermissionDeleted();
    PermissionDeletedCritical(Lower("PermissionDeleted"));
  }

  lemma ThreeDirectTag()
    ensures Tag(DirectDependents(3)) == "direct_dependents=3"
  {
    assert NatToString(3) == "3";
  }

  lemma SecurityHubTags()
    ensures Tags([Deletion, SecurityBlock, DirectDependents(3)])
         == ["deletion", "security_block", "direct_dependents=3"]
  {
    ThreeDirectTag();
  }

  /**
    "PermissionDeleted" on a security block with three direct dependents:
    CRITICAL, 80 + 10 + 15 + 6 clamped to 100, reasons
    "deletion;security_block;direct_dependents=3".
  */
  lemma PermissionDeletedScenario()
    ensures BaseSeverity(Some("PermissionDeleted")) == Critical
    ensures ComputeRisk(Some("PermissionDeleted"), Critical, SecurityHub).0 == 100
    ensures Split(ComputeRisk(Some("PermissionDeleted"), Critical, SecurityHub).1, ';')
         == ["deletion", "security_block", "direct_dependents=3"]
  {
    PermissionDeletedSeverity();
    LowerPermissionDeleted();
    PermissionDeletedTally(TypeText(Some("PermissionDeleted")));
    SecurityHubTags();
    ReasonsRoundTrip(Some("PermissionDeleted"), Critical, SecurityHub);
  }
}

=== FILE: selection.dfy ===
/**
  Selecting the events to report: the command-line filters on dates,
  application, user, event type and category.
*/
module Selection {
  import opened Wrappers
  import opened Text
  import opened PyValue
  import opened Payload
  import opened Classify
  import opened Events

  const SecondsPerDay: int := 86400

  /**
    The filter options. Dates are instants in seconds at the start of their
    day; an empty list switches its filter off, as an empty argument list
    does.
  */
  datatype Options = Options(
    dateFrom: Option<int>,
    dateTo: Option<int>,
    appIds: seq<string>,
    appNames: seq<string>,
    userEmails: seq<string>,
    eventTypes: seq<string>,
    allEvents: bool,
    includeAccess: bool)

  /** The last second of the day `dateTo` starts. */
  function DayEnd(day: int): (r: int)
    ensures day <= r < day + SecondsPerDay
  {
    day + SecondsPerDay - 1
  }

  /** A comparison with a missing timestamp is false, so such events fail either date bound. */
  predicate InDates(ts: Option<int>, o: Options) {
    (o.dateFrom.None? || (ts.Some? && ts.value >= o.dateFrom.value))
    && (o.dateTo.None? || (ts.Some? && ts.value <= DayEnd(o.dateTo.value)))
  }

  /** Case-insensitive substring test; a cell that is not text never matches. */
  predicate TextMatchesAny(v: Value, needles: seq<string>) {
    v.Str? && exists i :: 0 <= i < |needles| && Contains(Lower(v.s), Lower(needles[i]))
  }

  /** The event passes every filter that is switched on, categories aside. */
  predicate PassesFields(e: Event, o: Options) {
    InDates(e.ts, o)
    && (|o.appIds| == 0 || (e.applicationId.Str? && e.applicationId.s in o.appIds))
    && (|o.appNames| == 0 || TextMatchesAny(e.applicationName, o.appNames))
    && (|o.userEmails| == 0 || TextMatchesAny(CellValue(e.row.userEmail), o.userEmails))
    && (|o.eventTypes| == 0 || (e.row.eventType.Text? && e.row.eventType.text in o.eventTypes))
  }

  /** The categories reported unless every event is asked for. */
  predicate Allowed(c: Category, includeAccess: bool) {
    c == Change || c == Auth || c == Export || (includeAccess && c == Access)
  }

  predicate Passes(e: Event, o: Options) {
    PassesFields(e, o) && (o.allEvents || Allowed(e.category, o.includeAccess))
  }

  /** `apply_filters`: the passing events, in their input order. */
  function ApplyFilters(es: seq<Event>, o: Options): (r: seq<Event>)
    ensures |r| <= |es|
    ensures forall x :: x in r <==> x in es && Passes(x, o)
  {
    if |es| == 0 then []
    else (if Passes(es[0], o) then [es[0]] else []) + ApplyFilters(es[1..], o)
  }

  /** Filtering commutes with concatenation, so order is kept. */
  lemma {:induction false} ApplyFiltersConcat(a: seq<Event>, b: seq<Event>, o: Options)
    ensures ApplyFilters(a + b, o) == ApplyFilters(a, o) + ApplyFilters(b, o)
  {
    if |a| == 0 {
      assert a + b == b;
    } else {
      assert (a + b)[1..] == a[1..] + b;
      ApplyFiltersConcat(a[1..], b, o);
    }
  }

  /** A sequence whose every event passes is kept whole. */
  lemma {:induction false} AllPassKept(es: seq<Event>, o: Options)
    requires forall i :: 0 <= i < |es| ==> Passes(es[i], o)
    ensures ApplyFilters(es, o) == es
  {
    if |es| > 0 {
      AllPassKept(es[1..], o);
      assert es == [es[0]] + es[1..];
    }
  }

  /** Filtering twice is filtering once. */
  lemma ApplyFiltersIdempotent(es: seq<Event>, o: Options)
    ensures ApplyFilters(ApplyFilters(es, o), o) == ApplyFilters(es, o)
  {
    var r := ApplyFilters(es, o);
    assert forall i :: 0 <= i < |r| ==> r[i] in r;
    AllPassKept(r, o);
  }

  /** With no filter switched on and every event asked for, nothing is dropped. */
  lemma NoOptionsKeepsAll(es: seq<Event>, o: Options)
    requires o.dateFrom.None? && o.dateTo.None?
    requires |o.appIds| == 0 && |o.appNames| == 0 && |o.userEmails| == 0 && |o.eventTypes| == 0
    requires o.allEvents
    ensures ApplyFilters(es, o) == es
  {
    AllPassKept(es, o);
  }

  /** Unless every event is asked for, uncategorised events never pass, and access events only on request. */
  lemma CategoryGate(e: Event, o: Options)
    requires !o.allEvents
    ensures e.category == Other ==> !Passes(e, o)
    ensures e.category == Access ==> (Passes(e, o) <==> PassesFields(e, o) && o.includeAccess)
    ensures e.category in {Change, Auth, Export} ==> (Passes(e, o) <==> PassesFields(e, o))
  {
  }

  /** An event without a timestamp is dropped by either date bound. */
  lemma UndatedDropped(e: Event, o: Options)
    requires e.ts.None? && (o.dateFrom.Some? || o.dateTo.Some?)
    ensures !Passes(e, o)
  {
  }

  /** The upper date bound includes the whole of its day. */
  lemma DateToWholeDay(e: Event, o: Options, t: int)
    requires o.dateFrom.None? && o.dateTo.Some? && e.ts == Some(t)
    ensures InDates(e.ts, o) <==> t < o.dateTo.value + SecondsPerDay
  {
  }
}

=== FILE: text.dfy ===
/**
  String helpers with Python's meaning: `lower()`, the `in` substring test,
  `str.join`, `strip()`, slicing to a prefix, decimal rendering of integers
  and `int(...)` parsing. Strings are sequences of characters.
*/
module Text {
  import opened Wrappers

  // ---------------------------------------------------------------------------
  // Case
  // ---------------------------------------------------------------------------

  predicate IsUpper(c: char) { 'A' <= c <= 'Z' }

  predicate IsLowerLetter(c: char) { 'a' <= c <= 'z' }

  function LowerChar(c: char): char {
    if IsUpper(c) then (c as int + 32) as char else c
  }

  function UpperChar(c: char): char {
    if IsLowerLetter(c) then (c as int - 32) as char else c
  }

  /** `s.lower()`, on the ASCII letters. */
  function Lower(s: string): (r: string)
    ensures |r| == |s|
    ensures forall i :: 0 <= i < |r| ==> !IsUpper(r[i])
    ensures forall i :: 0 <= i < |r| && !IsUpper(s[i]) ==> r[i] == s[i]
  {
    seq(|s|, i requires 0 <= i < |s| => LowerChar(s[i]))
  }

  lemma LowerIdempotent(s: string)
    ensures Lower(Lower(s)) == Lower(s)
  {
  }

  /** `s.capitalize()`: first character upper-cased, the rest lower-cased. */
  function Capitalize(s: string): (r: string)
    ensures |r| == |s|
    ensures |s| > 0 ==> r[0] == UpperChar(s[0]) && r[1..] == Lower(s[1..])
  {
    if |s| == 0 then "" else [UpperChar(s[0])] + Lower(s[1..])
  }

  /** `s.rstrip(c)` for a single character `c`: drops every trailing `c`. */
  function RStripChar(s: string, c: char): (r: string)
    ensures r <= s
    ensures |r| > 0 ==> r[|r| - 1] != c
    ensures forall i :: |r| <= i < |s| ==> s[i] == c
  {
    if |s| == 0 || s[|s| - 1] != c then s else RStripChar(s[..|s| - 1], c)
  }

  // ---------------------------------------------------------------------------
  // Substrings
  // ---------------------------------------------------------------------------

  /** `sub` occurs in `s` starting at index `i`. */
  predicate OccursAt(s: string, sub: string, i: int) {
    0 <= i && i + |sub| <= |s| && s[i..i + |sub|] == sub
  }

  /** Python's `sub in s`, scanning left to right. */
  predicate Contains(s: string, sub: string)
    decreases |s|
  {
    sub <= s || (|s| > 0 && Contains(s[1..], sub))
  }

  lemma OccursAtStart(s: string, sub: string)
    ensures OccursAt(s, sub, 0) <==> sub <= s
  {
    if |sub| <= |s| {
      assert s[0..|sub|] == s[..|sub|];
    }
  }

  lemma {:induction false} ContainsIffOccurs(s: string, sub: string)
    ensures Contains(s, sub) <==> exists i :: OccursAt(s, sub, i)
    decreases |s|
  {
    if sub <= s {
      assert OccursAt(s, sub, 0);
    } else {
      OccursAtStart(s, sub);
      if |s| > 0 {
        ContainsIffOccurs(s[1..], sub);
        forall i | OccursAt(s[1..], sub, i) ensures OccursAt(s, sub, i + 1) {
          assert s[1..][i..i + |sub|] == s[i + 1..i + 1 + |sub|];
        }
        forall i | OccursAt(s, sub, i) && i > 0 ensures OccursAt(s[1..], sub, i - 1) {
          assert s[1..][i - 1..i - 1 + |sub|] == s[i..i + |sub|];
        }
      }
    }
  }

  /** A substring of a substring is a substring. */
  lemma ContainsTransitive(s: string, mid: string, sub: string)
    requires Contains(s, mid) && Contains(mid, sub)
    ensures Contains(s, sub)
  {
    ContainsIffOccurs(s, mid);
    ContainsIffOccurs(mid, sub);
    var i :| OccursAt(s, mid, i);
    var j :| OccursAt(mid, sub, j);
    forall k | 0 <= k < |sub| ensures s[i + j + k] == sub[k] {
      assert sub[k] == mid[j + k];
      assert mid[j + k] == s[i + j + k];
    }
    assert s[i + j..i + j + |sub|] == sub;
    assert OccursAt(s, sub, i + j);
    ContainsIffOccurs(s, sub);
  }

  /** Witness form: `sub` found at a known offset of `s`. */
  lemma ContainsAt(s: string, sub: string, i: int)
    requires OccursAt(s, sub, i)
    ensures Contains(s, sub)
  {
    ContainsIffOccurs(s, sub);
  }

  /** A pattern with a character the text lacks does not occur in it. */
  lemma MissingCharNotContained(s: string, sub: string, k: nat)
    requires k < |sub|
    requires sub[k] !in s
    ensures !Contains(s, sub)
  {
    ContainsIffOccurs(s, sub);
    forall i ensures !OccursAt(s, sub, i) {
      if 0 <= i && i + |sub| <= |s| {
        assert s[i..i + |sub|][k] == s[i + k];
      }
    }
  }

  /** A suffix of a string occurs in it. */
  lemma SuffixContained(s: string, suf: string)
    requires |suf| <= |s| && s[|s| - |suf|..] == suf
    ensures Contains(s, suf)
  {
    assert OccursAt(s, suf, |s| - |suf|);
    ContainsAt(s, suf, |s| - |suf|);
  }

  /** Python's `any(k in s for k in keys)`. */
  predicate ContainsAny(s: string, keys: seq<string>) {
    exists i :: 0 <= i < |keys| && Contains(s, keys[i])
  }

  /** `s.startswith(p)`. */
  predicate StartsWith(s: string, p: string) { p <= s }

  // ---------------------------------------------------------------------------
  // Join and split
  // ---------------------------------------------------------------------------

  /** `sep.join(parts)`. */
  function Join(parts: seq<string>, sep: string): (r: string)
    ensures |parts| == 1 ==> r == parts[0]
    ensures |parts| == 0 ==> r == ""
  {
    if |parts| == 0 then ""
    else if |parts| == 1 then parts[0]
    else parts[0] + sep + Join(parts[1..], sep)
  }

  /** The inverse of joining on one character: `s.split(c)`. */
  function Split(s: string, c: char): (r: seq<string>)
    ensures |r| >= 1
    decreases |s|
  {
    if |s| == 0 then [""]
    else
      var rest := Split(s[1..], c);
      if s[0] == c then [""] + rest
      else [[s[0]] + rest[0]] + rest[1..]
  }

  predicate Free(s: string, c: char) { forall i :: 0 <= i < |s| ==> s[i] != c }

  lemma {:induction false} SplitPrefix(p: string, rest: string, c: char)
    requires Free(p, c)
    ensures Split(p + rest, c) == [p + Split(rest, c)[0]] + Split(rest, c)[1..]
    decreases |p|
  {
    if |p| == 0 {
      assert p + rest == rest;
      var sr := Split(rest, c);
      assert p + sr[0] == sr[0];
      assert [sr[0]] + sr[1..] == sr;
    } else {
      assert (p + rest)[1..] == p[1..] + rest;
      SplitPrefix(p[1..], rest, c);
      assert [p[0]] + (p[1..] + Split(rest, c)[0]) == p + Split(rest, c)[0];
    }
  }

  /** Splitting a join on a separator that no part contains gives back the parts. */
  lemma {:induction false} SplitJoin(parts: seq<string>, c: char)
    requires |parts| >= 1
    requires forall i :: 0 <= i < |parts| ==> Free(parts[i], c)
    ensures Split(Join(parts, [c]), c) == parts
    decreases |parts|
  {
    if |parts| == 1 {
      SplitPrefix(parts[0], "", c);
      assert parts[0] + "" == parts[0];
    } else {
      var tail := Join(parts[1..], [c]);
      SplitJoin(parts[1..], c);
      assert Join(parts, [c]) == parts[0] + ([c] + tail);
      SplitPrefix(parts[0], [c] + tail, c);
      assert ([c] + tail)[1..] == tail;
      assert Split([c] + tail, c) == [""] + Split(tail, c);
      assert parts[0] + "" == parts[0];
      assert [parts[0]] + parts[1..] == parts;
    }
  }

  // ---------------------------------------------------------------------------
  // Whitespace
  // ---------------------------------------------------------------------------

  /** The characters `str.strip()` removes (ASCII and Latin-1 ones). */
  predicate IsSpace(c: char) {
    c == ' ' || c == '\t' || c == '\n' || c == '\r' || c == '\U{B}' || c == '\U{C}'
    || c == '\U{1C}' || c == '\U{1D}' || c == '\U{1E}' || c == '\U{1F}'
    || c == '\U{85}' || c == ' '
  }

  /** `s.strip() == ""`. */
  predicate IsBlank(s: string) { forall i :: 0 <= i < |s| ==> IsSpace(s[i]) }

  function StripLeft(s: string): (r: string)
    ensures |r| <= |s| && r == s[|s| - |r|..]
    ensures forall i :: 0 <= i < |s| - |r| ==> IsSpace(s[i])
    ensures |r| > 0 ==> !IsSpace(r[0])
  {
    if |s| > 0 && IsSpace(s[0]) then StripLeft(s[1..]) else s
  }

  function StripRight(s: string): (r: string)
    ensures r <= s
    ensures forall i :: |r| <= i < |s| ==> IsSpace(s[i])
    ensures |r| > 0 ==> !IsSpace(r[|r| - 1])
  {
    if |s| > 0 && IsSpace(s[|s| - 1]) then StripRight(s[..|s| - 1]) else s
  }

  /** `s.strip()`: empty exactly when `s` is blank. */
  function Strip(s: string): (r: string)
    ensures |r| == 0 <==> IsBlank(s)
  {
    var l := StripLeft(s);
    var r := StripRight(l);
    assert |l| > 0 ==> l[0] == s[|s| - |l|];
    assert !IsBlank(s) ==> |r| > 0 by {
      if !IsBlank(s) {
        var k :| 0 <= k < |s| && !IsSpace(s[k]);
        var o := |s| - |l|;
        assert k >= o;
        assert l[k - o] == s[k];
      }
    }
    r
  }

  /** `s[:n]`. */
  function Truncate(s: string, n: nat): (r: string)
    ensures r <= s
    ensures |r| <= n
    ensures |s| <= n ==> r == s
    ensures |s| > n ==> |r| == n
  {
    if |s| <= n then s else s[..n]
  }

  // ---------------------------------------------------------------------------
  // Integers
  // ---------------------------------------------------------------------------

  predicate IsDigit(c: char) { '0' <= c <= '9' }

  function DigitChar(d: nat): (c: char)
    requires d < 10
    ensures IsDigit(c) && c as int - '0' as int == d
  {
    ('0' as int + d) as char
  }

  /** `str(n)` for a non-negative integer: canonical decimal digits. */
  function NatToString(n: nat): (r: string)
    ensures |r| >= 1
    ensures forall i :: 0 <= i < |r| ==> IsDigit(r[i])
    ensures r[0] == '0' ==> n == 0 && |r| == 1
    decreases n
  {
    if n < 10 then [DigitChar(n)] else NatToString(n / 10) + [DigitChar(n % 10)]
  }

  /** `str(i)` for any integer. */
  function IntToString(i: int): (r: string)
    ensures |r| >= 1
  {
    if i < 0 then "-" + NatToString(-i) else NatToString(i)
  }

  /** The value of a non-empty run of decimal digits. */
  function DigitsValue(s: string): nat
    requires forall i :: 0 <= i < |s| ==> IsDigit(s[i])
    decreases |s|
  {
    if |s| == 0 then 0
    else
      var d := s[|s| - 1];
      assert IsDigit(d);
      DigitsValue(s[..|s| - 1]) * 10 + (d as int - '0' as int)
  }

  lemma {:induction false} DigitsValueOfNatToString(n: nat)
    ensures DigitsValue(NatToString(n)) == n
    decreases n
  {
    if n >= 10 {
      var r := NatToString(n);
      DigitsValueOfNatToString(n / 10);
      assert r[..|r| - 1] == NatToString(n / 10);
    }
  }

  predicate AllDigits(s: string) { |s| > 0 && forall i :: 0 <= i < |s| ==> IsDigit(s[i]) }

  /**
    `int(s)` on a string: surrounding whitespace is ignored, an optional sign
    is allowed, the rest must be decimal digits; anything else is `None` (the
    `ValueError` branch).
  */
  function ParseInt(s: string): (r: Option<int>)
    ensures r.Some? ==> |Strip(s)| > 0
  {
    var t := Strip(s);
    if |t| > 0 && (t[0] == '-' || t[0] == '+') then
      if AllDigits(t[1..]) then
        var v: int := DigitsValue(t[1..]);
        Some(if t[0] == '-' then -v else v)
      else None
    else if AllDigits(t) then Some(DigitsValue(t))
    else None
  }

  lemma StripOfDigits(s: string)
    requires AllDigits(s)
    ensures Strip(s) == s
  {
    assert !IsSpace(s[0]) && !IsSpace(s[|s| - 1]);
  }

  /** Parsing what `str` printed gives the number back. */
  lemma ParseIntOfNatToString(n: nat)
    ensures ParseInt(NatToString(n)) == Some(n)
  {
    var r := NatToString(n);
    StripOfDigits(r);
    DigitsValueOfNatToString(n);
  }

  lemma NatToStringInjective(m: nat, n: nat)
    requires NatToString(m) == NatToString(n)
    ensures m == n
  {
    DigitsValueOfNatToString(m);
    DigitsValueOfNatToString(n);
  }

  // ---------------------------------------------------------------------------
  // Lexicographic order (Python's `<=` on str, by code point)
  // ---------------------------------------------------------------------------

  predicate StrLe(a: string, b: string)
    decreases |a|
  {
    |a| == 0 || (|b| > 0 && (a[0] < b[0] || (a[0] == b[0] && StrLe(a[1..], b[1..]))))
  }

  lemma {:induction false} StrLeTotal(a: string, b: string)
    ensures StrLe(a, b) || StrLe(b, a)
    decreases |a|
  {
    if |a| > 0 && |b| > 0 && a[0] == b[0] {
      StrLeTotal(a[1..], b[1..]);
    }
  }

  lemma {:induction false} StrLeAntisymmetric(a: string, b: string)
    requires StrLe(a, b) && StrLe(b, a)
    ensures a == b
    decreases |a|
  {
    if |a| > 0 {
      StrLeAntisymmetric(a[1..], b[1..]);
      assert a == [a[0]] + a[1..] && b == [b[0]] + b[1..];
    }
  }

  lemma {:induction false} StrLeTransitive(a: string, b: string, c: string)
    requires StrLe(a, b) && StrLe(b, c)
    ensures StrLe(a, c)
    decreases |a|
  {
    if |a| > 0 && a[0] == b[0] && b[0] == c[0] {
      StrLeTransitive(a[1..], b[1..], c[1..]);
    }
  }

  lemma {:induction false} StrLeReflexive(a: string)
    ensures StrLe(a, a)
    decreases |a|
  {
    if |a| > 0 { StrLeReflexive(a[1..]); }
  }
}

=== FILE: timeline.dfy ===
/** The change timeline: the change events of a report, in event order. */
module Timeline {
  import opened Events
  import opened Ordering

  /** The change events, in input order. */
  function Changes(es: seq<Event>): (r: seq<Event>)
    ensures |r| <= |es|
    ensures forall x :: x in r <==> x in es && x.isChange
  {
    if |es| == 0 then []
    else (if es[0].isChange then [es[0]] else []) + Changes(es[1..])
  }

  /** `build_changes_timeline`: the change events, stably sorted by timestamp and id. */
  function ChangesTimeline(es: seq<Event>): (r: seq<Event>)
    ensures |r| == |Changes(es)|
  {
    Sort(Changes(es))
  }

  /** The timeline holds exactly the change events, each as often as it occurs, in order. */
  lemma TimelineContents(es: seq<Event>)
    ensures multiset(ChangesTimeline(es)) == multiset(Changes(es))
    ensures forall x :: x in ChangesTimeline(es) <==> x in es && x.isChange
    ensures Sorted(ChangesTimeline(es))
  {
    SortPermutes(Changes(es));
    SortSorted(Changes(es));
    forall x ensures x in ChangesTimeline(es) <==> x in Changes(es) {
      assert x in ChangesTimeline(es) <==> x in multiset(ChangesTimeline(es));
    }
  }

  /** Change events that share a timestamp and id keep their input order. */
  lemma TimelineStable(es: seq<Event>, k: Event)
    ensures WithKey(ChangesTimeline(es), k) == WithKey(Changes(es), k)
  {
    SortStable(Changes(es), k);
  }

  /** A timeline built from a timeline is the same timeline. */
  lemma TimelineIdempotent(es: seq<Event>)
    ensures ChangesTimeline(ChangesTimeline(es)) == ChangesTimeline(es)
  {
    TimelineContents(es);
    ChangesOfChanges(ChangesTimeline(es));
    SortSortedIdentity(ChangesTimeline(es));
  }

  lemma {:induction false} ChangesOfChanges(es: seq<Event>)
    requires forall i :: 0 <= i < |es| ==> es[i].isChange
    ensures Changes(es) == es
  {
    if |es| > 0 { ChangesOfChanges(es[1..]); }
  }
}

=== FILE: uuid.dfy ===
/**
  UUID references in formulas: the UUID shape (version digit 1-5, variant
  digit 8, 9, a or b, hex digits in either case) and the left-to-right scan
  for non-overlapping matches.
*/
module Uuid {
  import opened Text
  import opened PyValue

  predicate IsHex(c: char) {
    '0' <= c <= '9' || 'a' <= c <= 'f' || 'A' <= c <= 'F'
  }

  /** Positions `lo..hi` of `u` are hex digits. */
  predicate HexRun(u: string, lo: nat, hi: nat)
    requires lo <= hi <= |u|
  {
    forall i :: lo <= i < hi ==> IsHex(u[i])
  }

  /** 8-4-4-4-12 hex digits; the third group starts with 1-5, the fourth with 8, 9, a or b. */
  predicate UuidShaped(u: string) {
    |u| == 36
    && HexRun(u, 0, 8) && u[8] == '-'
    && HexRun(u, 9, 13) && u[13] == '-'
    && '1' <= u[14] <= '5' && HexRun(u, 15, 18) && u[18] == '-'
    && u[19] in "89abAB" && HexRun(u, 20, 23) && u[23] == '-'
    && HexRun(u, 24, 36)
  }

  /**
    `UUID_RE.finditer(s)`: at each position try a match; after a match the
    scan resumes at its end, otherwise one character further on.
  */
  function FindUuids(s: string): (r: seq<string>)
    ensures forall i :: 0 <= i < |r| ==> UuidShaped(r[i]) && Contains(s, r[i])
    decreases |s|
  {
    if |s| < 36 then []
    else if UuidShaped(s[..36]) then
      var rest := FindUuids(s[36..]);
      forall i | 0 <= i < |rest| ensures Contains(s, rest[i]) {
        SuffixContained(s, s[36..]);
        ContainsTransitive(s, s[36..], rest[i]);
      }
      [s[..36]] + rest
    else FindUuids(s[1..])
  }

  /** A UUID-shaped window starts at position `i` of `s`. */
  predicate WindowAt(s: string, i: int) {
    0 <= i && i + 36 <= |s| && UuidShaped(s[i..i + 36])
  }

  /** No UUID-shaped window occurs in `s`. */
  ghost predicate NoWindow(s: string) {
    forall i :: !WindowAt(s, i)
  }

  /** Dropping the first character shifts every window one to the left. */
  lemma WindowShift(s: string, i: int)
    requires |s| > 0 && i >= 1
    ensures WindowAt(s, i) <==> WindowAt(s[1..], i - 1)
  {
    if i + 36 <= |s| {
      assert s[1..][i - 1..i + 35] == s[i..i + 36];
    }
  }

  /** A string with a UUID-shaped window somewhere has a match. */
  lemma {:induction false} WindowFound(s: string, i: int)
    requires WindowAt(s, i)
    ensures |FindUuids(s)| > 0
    decreases |s|
  {
    if !UuidShaped(s[..36]) {
      assert i != 0 by { assert s[0..36] == s[..36]; }
      WindowShift(s, i);
      WindowFound(s[1..], i - 1);
    }
  }

  /** The scan finds nothing exactly when no UUID-shaped window occurs. */
  lemma {:induction false} NothingFoundIff(s: string)
    ensures FindUuids(s) == [] <==> NoWindow(s)
    decreases |s|
  {
    if exists i :: WindowAt(s, i) {
      var i :| WindowAt(s, i);
      WindowFound(s, i);
    } else if |s| >= 36 {
      assert !WindowAt(s, 0);
      assert s[0..36] == s[..36];
      forall i ensures !WindowAt(s[1..], i) {
        if i >= 0 { WindowShift(s, i + 1); }
      }
      NothingFoundIff(s[1..]);
    }
  }

  /**
    The leftmost UUID-shaped window is the first match, and the scan goes on
    after its end.
  */
  lemma {:induction false} LeftmostFound(s: string, i: int)
    requires WindowAt(s, i) && forall j :: 0 <= j < i ==> !WindowAt(s, j)
    ensures FindUuids(s) == [s[i..i + 36]] + FindUuids(s[i + 36..])
    decreases i
  {
    if i == 0 {
      assert s[0..36] == s[..36];
    } else {
      assert !WindowAt(s, 0);
      assert s[0..36] == s[..36];
      WindowShift(s, i);
      forall j | 0 <= j < i - 1 ensures !WindowAt(s[1..], j) {
        WindowShift(s, j + 1);
      }
      LeftmostFound(s[1..], i - 1);
      assert s[1..][i - 1..i + 35] == s[i..i + 36];
      assert s[1..][i + 35..] == s[i + 36..];
    }
  }

  /** The elements of `s` without repeats, each kept at its first occurrence. */
  function Distinct(s: seq<string>): (r: seq<string>)
    ensures forall x :: x in r <==> x in s
    ensures forall i, j :: 0 <= i < j < |r| ==> r[i] != r[j]
  {
    if |s| == 0 then []
    else
      var r := Distinct(s[..|s| - 1]);
      assert s == s[..|s| - 1] + [s[|s| - 1]];
      if s[|s| - 1] in r then r else r + [s[|s| - 1]]
  }

  /**
    `extract_uuid_dependencies`: the distinct UUIDs found in the printed
    formula; nothing for a falsy formula. The order of the result is
    first occurrence.
  */
  function ExtractUuidDependencies(formula: Value): (r: seq<string>)
    ensures !Truthy(formula) ==> r == []
    ensures Truthy(formula) ==> forall x :: x in r <==> x in FindUuids(Render(formula))
    ensures forall i :: 0 <= i < |r| ==> UuidShaped(r[i])
    ensures forall i, j :: 0 <= i < j < |r| ==> r[i] != r[j]
  {
    if !Truthy(formula) then []
    else
      var found := FindUuids(Render(formula));
      var r := Distinct(found);
      assert forall i :: 0 <= i < |r| ==> r[i] in found;
      r
  }

  /** The leftmost UUID in a truthy formula's text is one of its dependencies. */
  lemma LeftmostIsDependency(formula: Value, i: int)
    requires Truthy(formula)
    requires WindowAt(Render(formula), i) && forall j :: 0 <= j < i ==> !WindowAt(Render(formula), j)
    ensures Render(formula)[i..i + 36] in ExtractUuidDependencies(formula)
  {
    LeftmostFound(Render(formula), i);
  }

  /** A truthy formula has no dependencies exactly when its text holds no UUID. */
  lemma NoDependenciesIff(formula: Value)
    requires Truthy(formula)
    ensures ExtractUuidDependencies(formula) == [] <==> NoWindow(Render(formula))
  {
    NothingFoundIff(Render(formula));
    var found, deps := FindUuids(Render(formula)), ExtractUuidDependencies(formula);
    if |found| > 0 {
      assert found[0] in deps;
    }
  }

  lemma SpaceBreaksMatch(s: string)
    requires |s| >= 36 && s[0] == ' '
    ensures !UuidShaped(s[..36])
  {
    assert s[..36][0] == ' ';
  }

  /** UUIDs separated by spaces are found one by one, in order. */
  lemma {:induction false} FindSeparated(us: seq<string>)
    requires forall i :: 0 <= i < |us| ==> UuidShaped(us[i])
    ensures FindUuids(Join(us, " ")) == us
  {
    if |us| == 1 {
      assert us[0][..36] == us[0] && us[0][36..] == [];
    } else if |us| > 1 {
      var tail := Join(us[1..], " ");
      var s := us[0] + " " + tail;
      assert Join(us, " ") == s;
      assert s[..36] == us[0];
      assert s[36..] == " " + tail;
      FindSeparated(us[1..]);
      var t := " " + tail;
      assert |tail| >= 36 by { assert |Join(us[1..], " ")| >= |us[1]| by { JoinFirst(us[1..]); } }
      SpaceBreaksMatch(t);
      assert t[1..] == tail;
    }
  }

  lemma JoinFirst(us: seq<string>)
    requires |us| > 0
    ensures us[0] <= Join(us, " ")
  {
  }

  /** A formula listing UUIDs by spaces depends on exactly those UUIDs, each once. */
  lemma ExtractSeparated(us: seq<string>)
    requires |us| > 0
    requires forall i :: 0 <= i < |us| ==> UuidShaped(us[i])
    ensures ExtractUuidDependencies(Str(Join(us, " "))) == Distinct(us)
  {
    FindSeparated(us);
    JoinFirst(us);
  }


  /**
    Matches never overlap: when a UUID's last group also starts a second UUID
    running past its end, the scan resumes after the first match and the
    second is not found.
  */
  lemma OverlapSkipped(u: string, tail: string)
    requires UuidShaped(u) && |tail| == 28
    requires UuidShaped(u[28..] + tail)
    ensures FindUuids(u + tail) == [u]
  {
    assert (u + tail)[..36] == u;
    assert (u + tail)[36..] == tail;
  }
}

=== FILE: wrappers.dfy ===
/** Optional values, standing in for Python's `None`-or-value results. */
module Wrappers {

  datatype Option<+T> = None | Some(value: T) {

    /** Returns the wrapped value, or `default` when there is none. */
    function GetOr(default: T): T {
      match this
      case Some(v) => v
      case None => default
    }
  }
}
